=== FILE: README.md ===
# yar: a verified model of the backend routes and the web client helpers

yar is a self-hosted video site. An Express backend stores users, refresh-token sessions,
media and videos through Prisma. A SvelteKit web client talks to it through a small fetch
wrapper. This project models, in Dafny, the parts of both that decide who may do what and
what the stored state becomes:

- the error envelope: `req.fail`, the top-level error handler, and the 404 handler;
- the authentication guards `isAuthenticated` and `media`, the role check inside
  `hasRoles`, and the refresh-token service;
- the `/auth`, `/sessions`, `/users`, `/settings`, `/upload`, `/videos` and `/media`
  routes, the rate-limit middleware, and the settings service with its cache;
- the key service, the random string generators, and the logger;
- how the file service joins a file name onto the media directory (`path.join`);
- on the web side: the API client's request/retry loop and URL building, the duration
  formatter, the notification and modal stores, and the UI package's `Repeat`.

Every route is a pure transition `(Db, request) -> Step(Db', Reply)`:

- Tables are maps keyed by primary id.
- A lookup by a non-key column (`findFirst` by username or by token) is a choice among the
  matching rows.
- A failing reply is `Failure(errorType, status, message)`, as `req.fail` or a bare
  `throw` leaves it on the response.

Everything the code takes from outside becomes a parameter:

- the clock;
- random UUIDs and tokens, and `Math.random`;
- bcrypt, TOTP validation, JWT decoding and the `ms` duration parser;
- the Range-header parser;
- `fetch`, and the refresh call of the web client.

Some behaviours are modelled as the code has them:

- The registration route tests `SettingsService.getSetting(ENABLE_REGISTRATION)` without
  awaiting it. A pending Promise is always truthy, so registration is never refused on
  that ground, and `AuthRoutes.Register` has no such failure.
- The duplicate check of `/upload/url` compares against the trimmed URL.
- `PUT /videos/:id` drops empty tags but does not trim them, unlike the upload routes.
- The private-key getter that generates a pair overwrites an existing public key file as
  well (`KeyService.GenerationOverwritesBoth`).

Thrown errors in the asynchronous route handlers are taken to reach the error handler, as
`req.fail` relies on.

Dafny files, one module each:

- `types`, `strings`, `paths`, `failures`, `db`, `sorting`: shared model;
- `token_service`, `authentication`, `auth_routes`, `sessions`, `user_converter`,
  `users`: accounts and sessions;
- `rate_limit`, `cache`, `settings_service`, `settings_routes`: limits and settings;
- `upload`, `videos`, `media`: media;
- `key_service`, `generators`, `string_generator`, `logger`: services;
- `api`, `formatter`, `notifications`, `modals`, `repeat`: web client.

## Model

| member | source | states |
|---|---|---|
| Types.RoleName | packages/types/src/index.ts:11-14 | a role's stored name is non-empty, has no comma, and parses back to the role |
| Failures.Fail | apps/backend/src/middleware/methods.ts:5-9 | `req.fail` never returns: it leaves exactly the given type, status and message |
| Failures.Throw | apps/backend/src/routes/videos.ts:68-71 | a bare throw after setting only the status carries no error type |
| Failures.HandleError | apps/backend/src/middleware/errors.ts:5-23 | the envelope's code is the response status, never 200 (200 becomes 500); the message is the error's; the type is the recorded one; the trace appears exactly outside production; details default to empty |
| Failures.NotFoundHandler | apps/backend/src/middleware/notFound.ts:4-7 | an unmatched route fails with status 404 |
| Failures.FailThenHandle | apps/backend/src/middleware/errors.ts:5-20 | `fail(t, s, m)` followed by the handler yields the envelope `{t, s or 500 for 200, m, {}}` |
| Failures.NotFoundEnvelope | apps/backend/src/middleware/notFound.ts:4-7 | an unmatched route is answered 404, type UNKNOWN, message "not found" |
| Failures.BareThrowIsInternal | apps/backend/src/middleware/errors.ts:6-7 | a throw that left the status alone is reported 500 UNKNOWN |
| Db.FindUserByName | apps/backend/src/routes/auth.ts:36-40 | finds a user with that name, and none exactly when no user has it |
| Db.FindByToken | apps/backend/src/services/tokenService.ts:56-62 | finds a record carrying the token, and none exactly when none does; a missing `jti` matches any record |
| TokenService.RefreshLifetime | apps/backend/src/services/tokenService.ts:13-19 | the lifetime is seven days when the setting is null, and the `ms` reading of a text setting otherwise; a number or boolean is unreadable |
| TokenService.Expiry | apps/backend/src/services/tokenService.ts:39-41 | the expiry is the issue time plus the lifetime, and exists exactly when the lifetime is readable and both dates are valid JavaScript dates |
| TokenService.IssueRefreshToken | apps/backend/src/services/tokenService.ts:28-47 | issuing succeeds exactly when the expiry is a valid date, and otherwise throws without change; a success adds exactly one new record, for the user, with the drawn token (the future `jti`), the device type (DESKTOP by default) and that expiry; the old records are unchanged |
| TokenService.IssuedLifetime | apps/backend/src/services/tokenService.ts:13-19 | with the setting null a session lives seven days; with a number or boolean stored there no session can be issued |
| TokenService.GetById | apps/backend/src/services/tokenService.ts:64-70 | the record with that id exactly when one exists |
| TokenService.DeleteById | apps/backend/src/services/tokenService.ts:72-78 | deleting succeeds exactly for a present id and removes that record only |
| TokenService.DeleteAllByUser | apps/backend/src/services/tokenService.ts:80-86 | every record of the user goes, every other record stays unchanged |
| TokenService.IssuedIsFoundByToken | apps/backend/src/services/tokenService.ts:35-47 | with unique tokens, a lookup by the new token finds exactly the new record, and tokens stay unique |
| TokenService.NoSessionSurvivesDeleteAll | apps/backend/src/services/tokenService.ts:80-86 | after revoking a user's sessions no lookup by token finds one of them |
| Authentication.BearerToken | apps/backend/src/services/authenticationService.ts:9-12 | the token is non-empty and comes from a present header; a header without the scheme is taken whole |
| Authentication.BearerTokenOfScheme | apps/backend/src/services/authenticationService.ts:9-12 | `Bearer <t>` yields exactly `t` |
| Authentication.IsAuthenticated | apps/backend/src/services/authenticationService.ts:8-45 | an admitted principal is an existing user row; every failure is 403 INVALID_CREDENTIALS or ACCESS_TOKEN_EXPIRED |
| Authentication.IsAuthenticatedDecision | apps/backend/src/services/authenticationService.ts:14-44 | admitted exactly for a decodable access token whose subject is an existing user; the principal is that subject; ACCESS_TOKEN_EXPIRED exactly for an expired token |
| Authentication.MediaGuard | apps/backend/src/services/authenticationService.ts:47-71 | admits exactly a present token that decodes and names the route's media id; otherwise 403 INVALID_CREDENTIALS |
| Authentication.RoleGate | apps/backend/src/services/authenticationService.ts:75-83 | passes exactly when a user is attached and one comma-separated entry of its roles is required; otherwise 403 INSUFFICIENT_PERMISSIONS |
| Authentication.Authorize | apps/backend/src/services/authenticationService.ts:73-87 | authentication followed by the role check; admits exactly the authenticated callers holding an accepted role |
| Authentication.RoleGateOnJoinedRoles | apps/backend/src/services/authenticationService.ts:75-83 | a user stored with the comma-join of some roles passes the gate for a role exactly when it is one of them |
| AuthRoutes.GrantSession | apps/backend/src/routes/auth.ts:65-69 | a grant succeeds exactly when the expiry is a valid date; it then adds exactly one session record for the user, carrying the refresh `jti`, and touches nothing else; otherwise it throws and changes nothing |
| AuthRoutes.Login | apps/backend/src/routes/auth.ts:34-82 | a failure changes nothing and is a 401, except an unusable expiry, which is an uncaught throw and always fails the login; a success adds one session for the user with that name |
| AuthRoutes.LoginFailureKinds | apps/backend/src/routes/auth.ts:42-63 | INVALID_CREDENTIALS exactly for an unknown name or a wrong password; TOTP_REQUIRED exactly when a secret is set and no code is given; TOTP_INVALID exactly when the code is rejected |
| AuthRoutes.LoginWithoutSecondFactor | apps/backend/src/routes/auth.ts:42-69 | the right password for a user without a TOTP secret logs in exactly when the refresh expiry is a valid date |
| AuthRoutes.Refresh | apps/backend/src/routes/auth.ts:85-125 | every failure is 401 INVALID_CREDENTIALS; with a cookie present its message is always "failed to verify refresh token"; a failure changes nothing, except that an unusable expiry leaves the named record deleted |
| AuthRoutes.RefreshWithUnusableExpiryBurnsRecord | apps/backend/src/routes/auth.ts:103-110 | a cookie that passes every check but meets an unusable expiry is answered 401 and its record is gone |
| AuthRoutes.RefreshRotates | apps/backend/src/routes/auth.ts:103-110 | a success replaces the named, unexpired record, owned by the token's subject, with one new record for the same user and device type; nothing else changes |
| AuthRoutes.RefreshIsSingleUse | apps/backend/src/routes/auth.ts:93-110 | replaying a consumed refresh cookie fails INVALID_CREDENTIALS and changes nothing |
| AuthRoutes.Logout | apps/backend/src/routes/auth.ts:127-140 | fails exactly for a present cookie that does not decode; otherwise removes at most one record and nothing else |
| AuthRoutes.LogoutWithExpiredCookieFails | apps/backend/src/routes/auth.ts:129-131 | an expired refresh cookie makes logout answer 500 instead of clearing the cookie |
| AuthRoutes.LogoutCorrected | apps/backend/src/routes/auth.ts:127-140 | logout always succeeds, and an absent or undecodable cookie changes nothing |
| AuthRoutes.LogoutRevokesNamedRecord | apps/backend/src/routes/auth.ts:131-135 | a decodable cookie removes exactly the record with its `jti`, and only records with that token |
| AuthRoutes.InitialRoles | apps/backend/src/routes/auth.ts:170-171 | every account is USER, and ADMIN exactly when it is the first |
| AuthRoutes.RoleNames | apps/backend/src/routes/auth.ts:177 | the stored names are the roles' names, one each, in order |
| AuthRoutes.Register | apps/backend/src/routes/auth.ts:159-198 | fails 409 USERNAME_TAKEN when the name is taken, changing nothing; fails exactly then or when the expiry is unusable, and then keeps the new user row without a session; a success adds exactly one user row with the joined roles and no secret and exactly one session for it, and nothing else |
| AuthRoutes.CreateAccount | apps/backend/src/routes/auth.ts:170-185 | the user row is written before the session is issued, so a failed issue keeps the row; a success adds the row and one session for it |
| AuthRoutes.RegisteredRoles | apps/backend/src/routes/auth.ts:170-177 | the new account passes the ADMIN gate exactly when it is the first, and always passes the USER gate |
| AuthRoutes.EnrolTotp | apps/backend/src/routes/auth.ts:227-262 | an unauthenticated caller gets the guard's failure, a caller with a secret INSUFFICIENT_PERMISSIONS/403, a code the offered secret rejects TOTP_INVALID/401, and otherwise success; a failure changes nothing, and a success stores the secret on the caller's row only |
| AuthRoutes.DisenrolTotp | apps/backend/src/routes/auth.ts:201-220 | an unauthenticated caller gets the guard's failure, a caller without a secret INSUFFICIENT_PERMISSIONS/403, and otherwise success; a failure changes nothing, and a success clears the secret on the caller's row only |
| AuthRoutes.DisenrolThenLogin | apps/backend/src/routes/auth.ts:36-69 | after disenrolling, logging in with the caller's name and password succeeds exactly when the expiry is usable, whatever code is sent |
| AuthRoutes.EnrolThenLogin | apps/backend/src/routes/auth.ts:46-69 | after enrolling, logging in without a code asks for one, and with an accepted code it succeeds exactly when the expiry is usable |
| Sorting.SortDesc | apps/backend/src/routes/sessions.ts:16-18 | `orderBy created_at desc`: the result is ordered largest first and is a permutation of the input |
| Sessions.Rows | apps/backend/src/routes/sessions.ts:31-40 | one listing row per record, in order, with `current` set exactly for the record the cookie found |
| Sessions.SortedRowsMembers | apps/backend/src/routes/sessions.ts:11-40 | sorting the rows keeps exactly the rows of the given records |
| Sessions.Listing | apps/backend/src/routes/sessions.ts:11-19 | the caller's live records, each once, newest first |
| Sessions.ListSessions | apps/backend/src/routes/sessions.ts:10-45 | changes nothing; succeeds only with a decodable cookie, and lists exactly the caller's live sessions, newest first |
| Sessions.AtMostOneCurrent | apps/backend/src/routes/sessions.ts:37 | at most one listed session is marked current |
| Sessions.DeleteSession | apps/backend/src/routes/sessions.ts:47-61 | fails exactly for a missing or foreign session, changing nothing; otherwise removes exactly that record |
| Sessions.DeleteSessionSparesOthers | apps/backend/src/routes/sessions.ts:54-58 | no record of another user is touched |
| Sessions.DeleteAllSessions | apps/backend/src/routes/sessions.ts:63-66 | removes exactly the caller's records |
| Sessions.ListingEmptyAfterDeleteAll | apps/backend/src/routes/sessions.ts:63-66 | after revoking all sessions the caller's listing is empty |
| UserConverter.Convert | apps/backend/src/converters/userConverter.ts:6-13 | id, name and creation time are copied; the roles are the comma pieces of the stored column and join back to it |
| UserConverter.ConvertJoinedRoles | apps/backend/src/converters/userConverter.ts:10 | a column written by registration converts back to exactly the role names, each parsing to its role |
| Users.GetMe | apps/backend/src/routes/users.ts:16-21 | changes nothing; the converted caller, with `totp_enabled` exactly when a non-empty secret is set |
| Users.UpdateProfile | apps/backend/src/routes/users.ts:29-65 | one password without the other, or a wrong old password, fails 401 and changes nothing; otherwise only the caller's name, and the hash when both are given, change |
| Users.PasswordChangeTakesEffect | apps/backend/src/routes/users.ts:48-55 | after a change, the new password matches the stored hash and a different old one does not |
| Users.ListUsers | apps/backend/src/routes/users.ts:67-78 | ADMIN only; every user converted, each once, newest first |
| Users.Views | apps/backend/src/routes/users.ts:76 | each listed id converted, in order |
| Users.ConvertedMembers | apps/backend/src/routes/users.ts:71-76 | sorting the converted users keeps exactly those users |
| Users.UploadMedia | apps/backend/src/routes/users.ts:108-124 | includes every video media and thumbnail of the user's uploads |
| Users.DeleteUserCascade | apps/backend/src/routes/users.ts:108-150 | the user row, its sessions, its videos, their media rows and those media files go; every other row and file stays |
| Users.DeleteUser | apps/backend/src/routes/users.ts:80-154 | 404 for an unknown id and 403 for oneself, changing nothing; otherwise the cascade |
| Users.DeletedUserIsLockedOut | apps/backend/src/routes/users.ts:126-150 | after deletion no access token authenticates as the user and no refresh cookie finds one of its sessions |
| RateLimit.DefaultIdentify | apps/backend/src/middleware/rateLimit.ts:14-16 | the client address, or else a fresh random id |
| RateLimit.Configure | apps/backend/src/middleware/rateLimit.ts:11-20 | every supplied option overrides its default, the rest keep it |
| RateLimit.PartialOptionsKeepDefaults | apps/backend/src/middleware/rateLimit.ts:20 | a window alone keeps the default max, and a max alone keeps the default window |
| RateLimit.Prune | apps/backend/src/middleware/rateLimit.ts:29 | keeps exactly the entries no older than the window |
| RateLimit.CeilDiv | apps/backend/src/middleware/rateLimit.ts:38 | the least whole number of divisor units covering the dividend |
| RateLimit.Limit | apps/backend/src/middleware/rateLimit.ts:23-42 | admits exactly when fewer than `max` recent entries remain and then records this one; otherwise 429 with Retry-After covering the oldest entry's remaining window; other clients are untouched |
| RateLimit.RetryAfterCoversWindow | apps/backend/src/middleware/rateLimit.ts:37-38 | Retry-After is at least the window in whole seconds |
| RateLimit.PruneCounts | apps/backend/src/middleware/rateLimit.ts:29 | with no future entry, pruning keeps exactly the entries of the window ending now |
| RateLimit.PruneTwice | apps/backend/src/middleware/rateLimit.ts:29 | pruning at an earlier and then a later time is pruning at the later time |
| RateLimit.LimitPreservesBound | apps/backend/src/middleware/rateLimit.ts:26-35 | one request keeps the queue tracking the admitted history and the history within `max` per window |
| RateLimit.AdmitTracks | apps/backend/src/middleware/rateLimit.ts:29-33 | storing the pruned list plus the new time keeps the stored lists agreeing with the admitted history from now on |
| RateLimit.AdmitBounded | apps/backend/src/middleware/rateLimit.ts:31-33 | admitting a time while fewer than `max` lie in the window ending at it keeps every window within `max` |
| RateLimit.ReplayPreservesBound | apps/backend/src/middleware/rateLimit.ts:23-42 | any ordered run of requests keeps every window within `max` admissions |
| RateLimit.AtMostMaxPerWindow | apps/backend/src/middleware/rateLimit.ts:23-42 | from a fresh limiter, no client gets more than `max` requests admitted in any window |
| RateLimit.HourlyAsWrittenAdmitsBurst | apps/backend/src/routes/auth.ts:30-33 | with the window written as `60 * 60`, five requests at 0-4 ms do not stop a sixth at 3605 ms; an hourly window rejects it with 429 |
| RateLimit.HourlyBoundsAnHour | apps/backend/src/routes/auth.ts:30-33 | with an hourly window, no client gets more than five requests through in any hour |
| Cache.New | apps/backend/src/utility/cache.ts:1-2 | the class has no constructor, so a new cache is empty whatever it is given |
| Cache.NewPrimed | apps/backend/src/services/settingsService.ts:30 | a cache holding the given entries |
| Cache.Get | apps/backend/src/utility/cache.ts:4-6 | present exactly for a stored key, with its entry |
| Cache.Set | apps/backend/src/utility/cache.ts:14-20 | stores a truthy value, or else the key itself, and keeps every other key |
| Cache.Delete | apps/backend/src/utility/cache.ts:22-24 | removes that key and keeps the others |
| Cache.Clear | apps/backend/src/utility/cache.ts:26-28 | empties the cache: every key it held reads absent |
| Cache.GetAfterSet | apps/backend/src/utility/cache.ts:4-20 | a truthy value set is read back, and other keys read as before |
| Cache.GetAfterDelete | apps/backend/src/utility/cache.ts:22-28 | a deleted key reads absent and others as before; after clearing every key reads absent |
| Cache.NewDropsInitial | apps/backend/src/utility/cache.ts:1-2 | a key passed at construction reads absent; a primed cache would serve it |
| SettingsService.PublicKeys | apps/backend/src/services/settingsService.ts:6-9 | exactly ENABLE_REGISTRATION and MIN_PASSWORD_LENGTH are public |
| SettingsService.DefaultedKeys | apps/backend/src/services/settingsService.ts:11-27 | exactly ENABLE_REGISTRATION, MIN_PASSWORD_LENGTH and MOTD have defaults |
| SettingsService.GetValueType | apps/backend/src/services/settingsService.ts:122-132 | numbers are INTEGER, booleans BOOLEAN, everything else STRING |
| SettingsService.ParseValue | apps/backend/src/services/settingsService.ts:134-144 | BOOLEAN compares with "true", STRING is unchanged, INTEGER is `parseInt` of the text |
| SettingsService.StoredValueRoundTrip | apps/backend/src/services/settingsService.ts:77-98 | the stored text parsed with the value's own type gives the value back, for every number JSON carries exactly |
| SettingsService.FromRow | apps/backend/src/services/settingsService.ts:59-66 | the cached form of a row: its type, its parsed value, and its label or else the key |
| SettingsService.GetSettings | apps/backend/src/services/settingsService.ts:32-46 | the cache becomes the defaults overlaid with every row, and is returned whole |
| SettingsService.GetSetting | apps/backend/src/services/settingsService.ts:48-72 | a hit answers from the cache; a miss with a row caches and answers its parsed value; a miss without one answers null and changes nothing |
| SettingsService.Start | apps/backend/src/services/settingsService.ts:30 | the service starts with an empty cache |
| SettingsService.StartPrimed | apps/backend/src/services/settingsService.ts:30 | the intended start caches exactly the defaults |
| SettingsService.DefaultsUnseenBeforeLoad | apps/backend/src/services/settingsService.ts:30 | on an empty table ENABLE_REGISTRATION reads null at start, though its default is true |
| SettingsService.PrimedServesDefaults | apps/backend/src/services/settingsService.ts:11-30 | with the primed start every defaulted key reads as its default |
| SettingsService.LabelFor | apps/backend/src/services/settingsService.ts:75 | the given label, else the default's, else the key |
| SettingsService.SetSettingAsWritten | apps/backend/src/services/settingsService.ts:74-102 | throws exactly for a key with no label, no default and no member inherited from `Object.prototype`; otherwise caches `parseValue(value, typeof value)` and stores the value's text |
| SettingsService.BooleanTrueCachedFalse | apps/backend/src/services/settingsService.ts:77-83 | after setting ENABLE_REGISTRATION to `true`, the cache answers false until a reload answers true |
| SettingsService.AnswerAfterReload | apps/backend/src/services/settingsService.ts:32-51 | after a reload a stored key answers the parse of its row |
| SettingsService.UndefaultedKeyCannotBeSet | apps/backend/src/services/settingsService.ts:75 | INSTANCE_TITLE cannot be set through the route |
| SettingsService.InheritedNameIsStored | apps/backend/src/services/settingsService.ts:75-83 | the key `constructor`, which has no default, is stored with itself as label |
| SettingsService.SetSetting | apps/backend/src/services/settingsService.ts:74-102 | stores the value's text and type and caches what the table gives back; other keys are unchanged |
| SettingsService.SetThenGet | apps/backend/src/services/settingsService.ts:74-102 | a set value that JSON carries exactly reads back as itself, from the cache and after a reload |
| SettingsService.ToObject | apps/backend/src/services/settingsService.ts:104-110 | the object has the map's keys and values, except `__proto__`, whose assignment sets the prototype |
| SettingsService.SettingsObjectCoversDefaults | apps/backend/src/routes/settings.ts:10-13 | the settings object holds every defaulted key and every row except `__proto__`, a row's value over the default |
| SettingsRoutes.GetAll | apps/backend/src/routes/settings.ts:10-13 | succeeds exactly for an authenticated caller; the keys are the defaults and the rows, without `__proto__` |
| SettingsRoutes.GetOne | apps/backend/src/routes/settings.ts:17-27 | 401 UNAUTHORIZED exactly for a private key without a user; otherwise the one-entry object of `getSetting` |
| SettingsRoutes.PublicSettingNeedsNoUser | apps/backend/src/routes/settings.ts:15-27 | anyone reads a public setting, as the row's value or the default |
| SettingsRoutes.Put | apps/backend/src/routes/settings.ts:33-42 | ADMIN only, over `setSetting` as written; succeeds exactly for an administrator and a key with a default or inherited from `Object.prototype`; an administrator setting another key gets a bare throw; a failure changes nothing; a success stores the value's text and makes the key read back as `parseValue(value, typeof value)` |
| SettingsRoutes.PutAsWrittenMisbehaves | apps/backend/src/routes/settings.ts:33-42 | an administrator setting ENABLE_REGISTRATION to `true` reads back `false`, and setting INSTANCE_TITLE gets a 500 envelope |
| SettingsRoutes.PutCorrected | apps/backend/src/routes/settings.ts:33-42 | over the intended `setSetting`: ADMIN only, a failure changes nothing, and a success makes the key read back as the value, for every value JSON carries exactly |
| Upload.CleanTags | apps/backend/src/routes/upload.ts:283-286 | the kept tags are non-empty and no more than given |
| Upload.CleanTagsMembers | apps/backend/src/routes/upload.ts:283-286 | a tag is kept exactly when it is the non-empty trim of a given tag |
| Upload.CleanTagsTrimmed | apps/backend/src/routes/upload.ts:283-286 | every kept tag is already trimmed |
| Upload.NormalizedTagsSplitBack | apps/backend/src/routes/upload.ts:283-286 | the stored column splits back into exactly the cleaned tags, or is empty when all are blank |
| Upload.StripQuery | apps/backend/src/routes/upload.ts:116 | removes the first '?' and the rest of its line; a one-line result is the part before the '?' |
| Upload.ThumbnailExtension | apps/backend/src/routes/upload.ts:113-116 | the extension has no '.', and for a one-line URL no '?', and begins the URL's last '.'-piece |
| Upload.UrlUploadGuard | apps/backend/src/routes/upload.ts:58-66 | passes exactly for an authenticated caller when no video has the trimmed URL or `force=true`; otherwise 409 MEDIA_ALREADY_EXISTS |
| Upload.ProcessingMedia | apps/backend/src/routes/upload.ts:206-212 | passes exactly for a processing media row; 404 MEDIA_NOT_FOUND for an unknown id, 400 MEDIA_NOT_PROCESSING otherwise |
| Upload.CreateUpload | apps/backend/src/routes/upload.ts:174-197 | an authenticated caller gets exactly one new processing VIDEO row; it succeeds exactly when `<id>.<ext>` resolves to a file directly in the media directory, and then adds that file empty; otherwise the write throws (a 500) with the row left in and no file written |
| Upload.AppendPart | apps/backend/src/routes/upload.ts:199-220 | appends the chunk to the processing upload's file and changes nothing else; it succeeds exactly for a processing upload whose name resolves into the media directory, otherwise the append throws; failures change nothing |
| Upload.CompleteUpload | apps/backend/src/routes/upload.ts:222-299 | failures change nothing unless ffmpeg fails the thumbnail; an authenticated caller gets the publish step |
| Upload.Publish | apps/backend/src/routes/upload.ts:228-297 | succeeds exactly for a processing upload whose file exists and whose thumbnail renders: the media stops processing, and a thumbnail row and a video row by the caller are added; when the thumbnail fails, the media row is finished all the same and the throw reaches the error handler |
| Upload.Finish | apps/backend/src/routes/upload.ts:248-292 | the finished media row gets the file's size and the duration, and exactly one thumbnail row, its file, and one video row are added |
| Upload.CancelUpload | apps/backend/src/routes/upload.ts:301-327 | removes the processing media row and its file and nothing else |
| Upload.CompleteClosesUpload | apps/backend/src/routes/upload.ts:249-258 | after completion every part, complete or cancel on the id fails 400 and changes nothing |
| Upload.FailedThumbnailStrandsUpload | apps/backend/src/routes/upload.ts:249-266 | after a failed thumbnail no video exists for the upload, and every part, complete or cancel on the id fails 400 |
| Upload.CancelForgetsUpload | apps/backend/src/routes/upload.ts:316-322 | after cancelling every part, complete or cancel on the id fails 404 and changes nothing |
| Upload.PartsAccumulate | apps/backend/src/routes/upload.ts:214-215 | a fresh upload's file holds exactly the parts sent, in order |
| Upload.FileNameInjective | apps/backend/src/routes/upload.ts:181 | minted ids with '/'-free extensions name distinct files once joined onto the media directory |
| Upload.LocalNameInjective | apps/backend/src/routes/upload.ts:181 | dot-free ids give distinct `<id>.<ext>` names |
| Upload.PlainUploadsUnshared | apps/backend/src/routes/upload.ts:181 | when every processing upload has a minted id and a '/'-free extension, no two of them share a file |
| Upload.UploadsKeepFiles | apps/backend/src/routes/upload.ts:242-251 | every upload step keeps the file of each processing upload that resolves into the media directory, cancelling as long as no other processing upload resolves to the cancelled file; completing such an upload fails only when its thumbnail does |
| Upload.SlashExtensionStrandsUpload | apps/backend/src/routes/upload.ts:181-194 | the extension `x/y` answers 500 yet leaves a processing row without a file, and every part sent to it fails and changes nothing |
| Upload.DotDotExtensionReachesAnotherUpload | apps/backend/src/routes/upload.ts:181-194 | the extension `x/../<other>.mp4` names the file of the processing upload `<other>`: creating the upload empties that file, and cancelling it deletes the file while `<other>` is still processing |
| Paths.Normalize | apps/backend/src/services/fileService.ts:28 | the joined segments form a normal path: no empty or "." segment, and ".." only in a leading run |
| Paths.NormalizeNormal | apps/backend/src/services/fileService.ts:28 | segments that already form a normal path come out unchanged |
| Paths.NormalizeSteps | apps/backend/src/services/fileService.ts:28 | a normal prefix is carried over as it is before the rest is read |
| Paths.NormalizeIdempotent | apps/backend/src/services/fileService.ts:28 | normalising a normalised path changes nothing |
| Paths.Resolve | apps/backend/src/services/fileService.ts:28 | a name joined onto the media directory is a normal path, with a trailing '/' exactly when the name ends with one |
| Paths.PlainNameResolves | apps/backend/src/services/fileService.ts:28 | a one-segment name is `data/media/<name>`, a file in the media directory |
| Paths.StepBackAliases | apps/backend/src/services/fileService.ts:28 | `a/../b` reaches the same file as `b` |
| Paths.SubdirectoryIsNotMedia | apps/backend/src/services/fileService.ts:28 | `a/b` names a file in the subdirectory `a` of the media directory, not a file in it |
| Db.PlainLocalName | apps/backend/src/routes/upload.ts:181 | a minted id with a '/'-free extension gives a one-segment name |
| Db.PlainFileName | apps/backend/src/services/fileService.ts:28 | a minted id with a '/'-free extension names the file `data/media/<id>.<ext>`, directly in the media directory |
| Videos.Page | apps/backend/src/routes/videos.ts:19-27 | the `take` rows after the first `skip`, fewer at the end |
| Videos.ShuffleFrom | apps/backend/src/routes/videos.ts:32 | keeps the length and leaves the positions already visited alone |
| Videos.ShuffleFromPermutes | apps/backend/src/routes/videos.ts:32 | the shuffle from any position is a permutation of its input |
| Videos.Shuffle | apps/backend/src/routes/videos.ts:32 | a permutation of the input |
| Videos.ShuffleFromLowest | apps/backend/src/routes/videos.ts:32 | a source always drawing the lower bound leaves the order unchanged |
| Videos.ShuffledPage | apps/backend/src/routes/videos.ts:16-34 | a permutation of the page; at most 100 entries, and 20 by default when enough rows follow |
| Videos.ListVideos | apps/backend/src/routes/videos.ts:16-34 | changes nothing; the shuffled page of the video table |
| Videos.ListedPage | apps/backend/src/routes/videos.ts:16-34 | the listed page is as long as the requested slice of the table and holds only its ids |
| Videos.Search | apps/backend/src/routes/videos.ts:36-54 | a missing or empty query finds nothing; otherwise exactly the videos whose title contains it, each once |
| Videos.GetVideo | apps/backend/src/routes/videos.ts:56-74 | the video for a known id, otherwise 404 |
| Videos.OwnVideo | apps/backend/src/routes/videos.ts:96-104 | passes exactly for the author; 404 for an unknown video, 403 for anyone else |
| Strings.NonEmpty | apps/backend/src/routes/videos.ts:113 | the kept tags are non-empty |
| Strings.NonEmptyMembers | apps/backend/src/routes/videos.ts:113 | a tag is kept exactly when it was given and is not empty |
| Videos.UpdateVideo | apps/backend/src/routes/videos.ts:82-118 | only the author changes only the given fields of that video; the reply is the video before the update |
| Videos.UpdateTwice | apps/backend/src/routes/videos.ts:106-115 | sending the same update twice leaves what sending it once left |
| Videos.EmptyUpdateChangesNothing | apps/backend/src/routes/videos.ts:110-114 | an update with no field changes nothing |
| Videos.ReplaceThumbnail | apps/backend/src/routes/videos.ts:124-184 | only the author replaces the thumbnail; the first file becomes a new image row and file, the old row goes, and without files nothing changes |
| Videos.SwapThumbnail | apps/backend/src/routes/videos.ts:150-180 | the old thumbnail row goes, the upload becomes an image row and file under the new id, and the video points at it |
| Videos.ReplacedThumbnailIsServed | apps/backend/src/routes/videos.ts:146-180 | the video's thumbnail is then an image whose file holds the uploaded bytes, and the old row is gone |
| MediaRoute.Respond | apps/backend/src/routes/media.ts:24-45 | 206 exactly for one byte range, with the range's bytes, type and length; otherwise 416 with `bytes */size` |
| MediaRoute.ServeMedia | apps/backend/src/routes/media.ts:10-46 | the guard's failure, then 404 for an unknown id; serves exactly when the guard passes and the row and its file exist |
| MediaRoute.NoRangeServesWholeFile | apps/backend/src/routes/media.ts:24-45 | without a Range header the whole file is served |
| MediaRoute.ContentRangeReadsBack | apps/backend/src/routes/media.ts:43 | the Content-Range header reads back as the range and the size |
| KeyService.SaveKeys | apps/backend/src/services/keyService.ts:71-77 | both files are written and both halves cached; other files are unchanged |
| KeyService.GetPublicKey | apps/backend/src/services/keyService.ts:11-25 | the cached key, else the file's key (now cached), else a new pair saved |
| KeyService.GetPrivateKey | apps/backend/src/services/keyService.ts:27-41 | the cached key, else the file's key (now cached), else a new pair saved |
| KeyService.GettersAreStable | apps/backend/src/services/keyService.ts:11-41 | asking again answers the same key and changes nothing |
| KeyService.FirstUseServesOnePair | apps/backend/src/services/keyService.ts:22-23 | without key files, the two getters serve the halves of one generated pair |
| KeyService.GenerationOverwritesBoth | apps/backend/src/services/keyService.ts:38-39 | generation by the private getter overwrites an existing public key, so the halves served no longer match |
| Generators.Draw | packages/utils/src/generators.ts:4-6 | one drawn alphabet character per position |
| Generators.Uid | packages/utils/src/generators.ts:2-7 | the requested number of alphanumeric characters, none for a non-positive length |
| Generators.DefaultUid | packages/utils/src/generators.ts:2-3 | by default 16 characters from 62 |
| StringGenerator.Generate | apps/backend/src/services/stringGeneratorService.ts:2-12 | `length` characters drawn from the alphabet, none for an empty alphabet; it agrees with `uid` on the default alphabet |
| StringGenerator.GenerateDefault | apps/backend/src/services/stringGeneratorService.ts:3-4 | by default 16 alphanumeric characters |
| Logger.PaddedName | apps/backend/src/services/loggerService.ts:26 | exactly ten characters: the name cut or space-padded |
| Logger.Prefix | apps/backend/src/services/loggerService.ts:26-27 | the padded name in brackets |
| Logger.Log | apps/backend/src/services/loggerService.ts:25-28 | the line starts with the prefix |
| Logger.WebserverNameIsPlain | apps/backend/src/services/webServerService.ts:21 | the backend's one logger name pads to `webserver ` and has no `%` |
| Logger.LongNamesShareAPrefix | apps/backend/src/services/loggerService.ts:26 | names agreeing on ten characters log the same line |
| Logger.CreateLogger | apps/backend/src/services/loggerService.ts:30-33 | the logger logs under its resource |
| Logger.Write | apps/backend/src/services/loggerService.ts:11-20 | the callback runs once; a line is printed exactly when the chunk is not blank, and it holds the trimmed chunk |
| Formatter.FieldsRecompose | apps/web/src/lib/formatting.ts:3-5 | hours, minutes and seconds recompose the duration, minutes and seconds below 60 |
| Formatter.TwoDigits | apps/web/src/lib/formatting.ts:8-9 | at least two digits, exactly two below 100 |
| Formatter.ClockColons | apps/web/src/lib/formatting.ts:11 | two colons with hours, one without |
| Formatter.ClockShape | apps/web/src/lib/formatting.ts:7-11 | the clock starts with its hours and minutes fields and ends with `:ss` |
| Formatter.SecondsAsWritten | apps/web/src/lib/formatting.ts:2-12 | `h:` only with hours; a zero minute is `0` even after hours; ends with two-digit seconds |
| Formatter.HourWithoutMinutesAsWritten | apps/web/src/lib/formatting.ts:7-8 | 3605 seconds format as `1:0:05` |
| Formatter.Seconds | apps/web/src/lib/formatting.ts:2-12 | with hours the text is `h:mm:ss`; below an hour it is as written |
| Formatter.ClockReadBack | apps/web/src/lib/formatting.ts:7-11 | a clock reads back as the total seconds of its hours, minutes and seconds fields |
| Formatter.SecondsReadBack | apps/web/src/lib/formatting.ts:2-12 | the corrected text reads back as the duration |
| Api.BuildUrl | apps/web/src/lib/api.ts:80-82 | `/api/` followed by the path without its leading slash |
| Api.Rewrite | apps/web/vite.config.ts:17 | a leading `/api` is removed; any other path is unchanged |
| Api.ProxyRoundTrip | apps/web/vite.config.ts:17 | the proxy turns a built URL back into the path, with a leading slash |
| Api.Prepare | apps/web/src/lib/api.ts:47-53 | preparing headers sends nothing |
| Api.PrepareToken | apps/web/src/lib/api.ts:50-53 | the token is refreshed exactly when it is needed and missing, at the cost of one refresh |
| Api.PrepareHeaders | apps/web/src/lib/api.ts:47-57 | sets `withCredentials`, sets Authorization to the bearer token only when absent and auth is on, sets the JSON Content-Type for POST and PUT when missing, and keeps every other header |
| Api.WithContentType | apps/web/src/lib/api.ts:55-57 | POST and PUT get a JSON Content-Type when they lack one; other headers are unchanged |
| Api.Attempt | apps/web/src/lib/api.ts:47-64 | one request is sent, with well-formed headers, and its response is the fetch's |
| Api.AttemptAuthorization | apps/web/src/lib/api.ts:50-52 | the Authorization sent is the caller's, or the bearer of the current token |
| Api.NextOptions | apps/web/src/lib/api.ts:68 | a retry either reuses the mutated headers object or starts from the caller's options |
| Api.Step | apps/web/src/lib/api.ts:47-77 | one attempt sends at most one request, and a retry has sent exactly one and keeps `noAuth` |
| Api.StepSends | apps/web/src/lib/api.ts:59-64 | the attempt's request is appended to the log, unless fetching the token threw |
| Api.StepAgain | apps/web/src/lib/api.ts:66-69 | an attempt goes again exactly when a 403 is followed by a successful refresh, whose token the next attempt holds |
| Api.StepDone | apps/web/src/lib/api.ts:71-77 | an attempt that does not go again ends the call: a thrown error is passed on, a non-OK status throws its error message, and an OK response is returned |
| Api.Send | apps/web/src/lib/api.ts:38-78 | at most three requests are sent, the log only grows, and an attempt past the limit throws the max-attempts error |
| Api.SendKeepsSent | apps/web/src/lib/api.ts:38-78 | a call only appends to the log of requests sent before it |
| Api.SentRequests | apps/web/src/lib/api.ts:47-64 | every request sent goes to the built URL with the method and well-formed headers |
| Api.SendResult | apps/web/src/lib/api.ts:45-77 | the call returns exactly when the last response is OK, and then that response; a last response neither OK nor 403 throws its message; with nothing sent the call threw |
| Api.RequestAsWritten | apps/web/src/lib/api.ts:38-78 | at most three requests, the log only grows |
| Api.Request | apps/web/src/lib/api.ts:38-78 | at most three requests, the log only grows |
| Api.ForbiddenAttempt | apps/web/src/lib/api.ts:66-69 | against a server that always answers 403, an attempt sends one request, refreshes once and goes again |
| Api.AlwaysForbidden | apps/web/src/lib/api.ts:45-69 | a server that always answers 403 gets exactly three requests and three refreshes, then the max-attempts error |
| Api.StaleAuthorizationOnRetry | apps/web/src/lib/api.ts:47-53 | as written, with caller headers the retry after a 403 resends the old bearer token |
| Api.StaleAuthorizationExample | apps/web/src/lib/api.ts:66-68 | concretely, a refresh to token `b` still retries with `Bearer a` |
| Api.RetryCarriesRefreshedToken | apps/web/src/lib/api.ts:66-68 | corrected, the retry carries the refreshed token |
| Notifications.Complete | apps/web/src/lib/components/notifications/index.ts:23-31 | given fields are kept and missing ones take their defaults: info, dismissible, 10 seconds, empty message |
| Notifications.Add | apps/web/src/lib/components/notifications/index.ts:20-32 | the completed notification goes first, and the rest follow unchanged |
| Notifications.DismissAfter | apps/web/src/lib/components/notifications/index.ts:34 | a dismissal is scheduled exactly for a non-zero timeout |
| Notifications.Dismiss | apps/web/src/lib/components/notifications/index.ts:16-18 | no survivor has the id, and a list without it is unchanged |
| Notifications.DismissMembers | apps/web/src/lib/components/notifications/index.ts:17 | a notification survives exactly when it was present with another id |
| Notifications.DismissAppend | apps/web/src/lib/components/notifications/index.ts:17 | dismissing from a concatenation concatenates the dismissals, so order is kept |
| Notifications.AddThenDismiss | apps/web/src/lib/components/notifications/index.ts:16-32 | adding with a fresh id and dismissing it gives back the list |
| Notifications.Notify | apps/web/src/lib/components/notifications/index.ts:37-39 | `info`, `success` and `error` prepend a dismissible ten-second notification of that kind |
| Modals.Create | apps/web/src/lib/components/modalService/index.ts:20-22 | the key holds the modal, and other keys are unchanged |
| Modals.Remove | apps/web/src/lib/components/modalService/index.ts:24-27 | the key is gone, other keys are unchanged, and an absent key changes nothing |
| Modals.CreateOverwrites | apps/web/src/lib/components/modalService/index.ts:21 | creating twice under one key keeps the second modal |
| Modals.CreateThenRemove | apps/web/src/lib/components/modalService/index.ts:20-27 | creating a new key and removing it gives back the store |
| Ui.Repeat | packages/ui/index.ts:9 | the indices `0 .. n-1`, none for a negative count |
| Ui.RepeatIncreases | packages/ui/index.ts:9 | the indices strictly increase, and there are none for zero |

## Left out

- Prisma, the file system, ffmpeg, yt-dlp, bcrypt, TOTP, JWT signing and `fetch` are not modelled; their results are parameters.
- Cookies, JWT encoding and response headers other than Retry-After and the media headers are not modelled.
- Request-schema validation and body parsers are taken as passed; the body arrives as its typed record.
- `FileService.getFileSize` and `deleteFile` are not part of this model. The size of a file is the length of its contents, and deletion removes it.
- `MediaService.deleteMediaFile`, which the user deletion route calls, is not part of this model. It is taken to delete the media row's file, as `Users.DeleteUserCascade` states.
- `hasRoles` is declared `async`, so it hands the router a Promise of the middleware rather than the middleware. Only the role check inside it is modelled (`Authentication.RoleGate`), as a guard that runs after `isAuthenticated`. What Express does with the Promise is left out.
- Setting values that are numbers are integers (`SettingValue.Int`). A fractional JSON number, which the schema accepts and `parseInt` truncates, is left out; `SettingsService.StoredValueRoundTrip`, `SettingsService.SetThenGet` and `SettingsRoutes.PutCorrected` rely on this.
- SettingsService.StoredValueRoundTrip: promised only for integers within ±(2^53 − 1) (`IsSafeNumber`). Beyond them JSON parsing rounds the number, and from 1e21 on `String` writes an exponent form that `parseInt` stops at.
- SettingsService.SetThenGet: promised only for values that satisfy `IsSafeNumber`, for the reason above.
- SettingsRoutes.PutCorrected: requires `IsSafeNumber` of the value, for the reason above.
- SettingsService.SetSettingAsWritten: `Stringify` writes every integer in decimal, which is JavaScript's `String` only below 10^21 in magnitude; from there on the source stores the exponent form (`"1e+21"`) and caches its `parseInt`, the leading digit, so the stored text and the cached value are promised only below 10^21.
- SettingsService.SetSetting: the stored text and the cached value are promised only for integers below 10^21 in magnitude, for the same reason.
- SettingsRoutes.Put: the stored text and the value read back are promised only for integers below 10^21 in magnitude, for the same reason.
- Formatter.SecondsAsWritten: durations are natural numbers. A negative duration is left out. A fractional one formats as its floor does, so it is given as the floor.
- Formatter.Seconds: takes natural numbers, as Formatter.SecondsAsWritten does; negative durations are left out.
- The REFRESH_TOKEN_EXPIRY_DURATION value is a parameter of issuing a session. The cache fill that reading it causes in the settings service is left out of the auth routes. The `ms` parser is an oracle that answers whole milliseconds.
- The signed refresh and access tokens are not built. Their expiry comes from the same lifetime, and a failure of JWT signing is left out.
- The database default of `processing` for thumbnail media is not part of this model; thumbnails are taken as not processing.
- The media and video converters and their signed URLs are not modelled: replies carry ids and rows.
- Upload.Publish: the duration is the value the route stores, `duration ? +duration : null`, given as a whole number or null. A probed duration of 0 therefore arrives as null. A fractional duration, which the route stores as a float, is left out. So is a probe result with an empty `streams` array, on which `streams[0].duration` throws before any write.
- The streaming part of `/upload/url` and the `/upload/info` route are left out. They are driven by download-stream events, and only the duplicate guard is modelled.
- Negative or non-numeric `count` and `skip` query values of `GET /videos` are left out; they are taken as natural numbers.
- The title search is a case-sensitive substring match, as Prisma's `contains` is on its default collation.
- Which routes carry which rate limiter is left out, apart from the login and registration options; the middleware is modelled on its own.
- Notifications.Complete: a field passed explicitly as `undefined` overrides the default in the spread, but the model treats it as missing.
- Notifications.DismissAfter: only the decision to schedule is modelled, not the timer firing.
- Header-name case folding of `Headers` is left out; names are kept lower-case.
- The request body (`JSON.stringify` or raw) is left out.
- `getAuthorizationToken` is an oracle, and the requests it makes itself are not counted.
- After the call, a change to a `Headers` object owned by the caller is visible to that caller; this is left out.
- Modal button `onClick` callbacks are left out.
- Upload.CreateUpload: every name that does not resolve to a file directly in the media directory is taken to fail the write with a missing-directory error. In the source, a name that climbs into a directory that exists (`data`, `data/keys`, the working directory or above it) is written there, and a name that resolves to a directory fails with a different error.
- Upload.AppendPart: the same: an append outside the media directory is taken to throw, where the source appends to a file in an existing directory.
- Paths.Resolve: paths are relative to the working directory, whose own ancestry is not modelled; steps above it are kept as a leading run of "..", and an empty result stays empty rather than becoming ".".
- Upload.UploadsKeepFiles: the cancel step is promised only when no other processing upload resolves to the cancelled file (`Upload.Unshared`), because `Upload.DotDotExtensionReachesAnotherUpload` shows that one can; `Upload.PlainUploadsUnshared` gives the condition for minted ids and '/'-free extensions.
- Videos.ReplaceThumbnail: the image is written at its resolved name without the media-directory test of the upload routes. The multipart parser hands over only the base name of the uploaded file, so the extension has no '/' and the name, with a minted id, is one segment (`Db.PlainFileName`); the parser is not part of this model.
- Modals.Create: the store is modelled as a map, so the insertion order of the store object's keys, in which the modal list renders the modals, is left out.
- Ui.Repeat: a non-integer count is left out.
- Api.RequestAsWritten: states only the bounds of the loop; what each result is lies in Api.SendResult.
- Logger.Log: states the prefix only; `console.log`'s formatting of non-string arguments is left out, and so is `util.format`'s reading of a prefix with a `%` in its padded name as a template when arguments follow. `Logger.WebserverNameIsPlain` shows the backend's only name has none.

## Findings

| source | as written | input that shows it | evidently intended | confidence | as-written member | corrected member |
|---|---|---|---|---|---|---|
| apps/backend/src/services/settingsService.ts:77-83 | the cache gets `parseValue(value, typeof value)`, so a boolean `true` is compared with the string "true" | PUT /settings/ENABLE_REGISTRATION with `true` | the cache holds what the table gives back | high, not executed | SettingsService.SetSettingAsWritten, SettingsService.BooleanTrueCachedFalse, SettingsRoutes.Put, SettingsRoutes.PutAsWrittenMisbehaves | SettingsService.SetSetting, SettingsService.SetThenGet, SettingsRoutes.PutCorrected |
| apps/backend/src/services/settingsService.ts:75 | `DEFAULT_SETTINGS[key].label` throws for a key without a default when no label is given, unless the key names a member of `Object.prototype` | PUT /settings/INSTANCE_TITLE | fall back to the key | high, not executed | SettingsService.UndefaultedKeyCannotBeSet, SettingsRoutes.PutAsWrittenMisbehaves | SettingsService.SetSetting, SettingsService.SetThenGet, SettingsRoutes.PutCorrected |
| apps/backend/src/services/settingsService.ts:30 | the defaults are passed to a `Cache` that has no constructor, so they are dropped | reading ENABLE_REGISTRATION before any settings load, on an empty table | the cache starts with the defaults | high, not executed | SettingsService.Start, SettingsService.DefaultsUnseenBeforeLoad | SettingsService.StartPrimed, SettingsService.PrimedServesDefaults |
| apps/backend/src/routes/auth.ts:30-33 | the window `60 * 60` is read in milliseconds, i.e. 3.6 seconds | five logins at 0-4 ms from one address and a sixth at 3605 ms: the sixth is admitted | an hour, `60 * 60 * 1000` | medium, not executed | RateLimit.HourlyAsWrittenAdmitsBurst | RateLimit.HourlyBoundsAnHour |
| apps/backend/src/routes/auth.ts:129-131 | a present refresh cookie is decoded outside any error handling | logout with an expired refresh cookie | always clear the cookie and answer 200 | high, not executed | AuthRoutes.Logout, AuthRoutes.LogoutWithExpiredCookieFails | AuthRoutes.LogoutCorrected, AuthRoutes.LogoutRevokesNamedRecord |
| apps/web/src/lib/formatting.ts:8 | a zero minute is `0`, even after hours | 3605 seconds give `1:0:05` | `1:00:05` | high, not executed | Formatter.SecondsAsWritten, Formatter.HourWithoutMinutesAsWritten | Formatter.Seconds, Formatter.SecondsReadBack |
| apps/web/src/lib/api.ts:47-53 | when the caller supplies headers, the retry after a 403 reuses them with the old Authorization | a request with caller headers answered 403, then refreshed from token `a` to `b` | the retry carries the refreshed token | medium, not executed | Api.RequestAsWritten, Api.StaleAuthorizationOnRetry, Api.StaleAuthorizationExample | Api.Request, Api.RetryCarriesRefreshedToken |

=== FILE: api.dfy ===
/** `API` of the web client: every call goes to `/api/<path>` with credentials, an
    Authorization header carrying the held access token (fetched from /auth/refresh when
    none is held), and a JSON Content-Type for POST and PUT. A 403 refreshes the token and
    tries again, at most three fetches in all. `fetch` and the token refresh are oracles:
    `fetch(i, sent)` answers the `i`-th request the client sends, `refresh(k)` is the
    outcome of the `k`-th call to `getAuthorizationToken`. */
module Api {
  import opened Types
  import opened Strings
  import opened Authentication

  datatype Method = Get | Post | Put | Delete

  /** A Fetch `Headers` object; it keeps header names lower-cased. */
  type Headers = map<string, string>

  const AuthorizationHeader := "authorization"
  const ContentTypeHeader := "content-type"
  const WithCredentialsHeader := "withcredentials"
  const JsonType := "application/json"
  const MaxAttempts := 3
  const MaxAttemptsMessage := "[API] Failed to perform request, exceeded max attempts"

  /** The caller's options: its own headers object, if any, and `noAuth`. */
  datatype Options = Options(headers: Option<Headers>, noAuth: bool)

  /** A request as it leaves the client. */
  datatype Sent = Sent(url: string, verb: Method, headers: Headers)

  /** A response: its status, and the error envelope's message when it is not ok. */
  datatype Response = Response(status: int, errorMessage: string) {
    predicate Ok() {
      200 <= status <= 299
    }
  }

  /** A promise's settlement: a value or a thrown error's message. */
  datatype Outcome<T> = Returned(value: T) | Threw(message: string)

  /** The static token, the requests sent so far and the token refreshes made so far. */
  datatype Client = Client(token: Option<string>, sent: seq<Sent>, refreshes: nat)

  /** What one `request` leaves behind. */
  datatype Call = Call(client: Client, result: Outcome<Response>)

  function Lookup(h: Headers, name: string): Option<string> {
    if name in h then Some(h[name]) else None
  }

  predicate SetsBody(m: Method) {
    m == Post || m == Put
  }

  // ---------------------------------------------------------------------------
  // URLs and the development proxy

  /** `API.buildUrl`: the path under `/api`, with a '/' between them. */
  function BuildUrl(path: string): (url: string)
    ensures StartsWith(url, "/api/")
    ensures StartsWith(path, "/") ==> url == "/api" + path
    ensures !StartsWith(path, "/") ==> url == "/api/" + path
  {
    "/api" + (if StartsWith(path, "/") then "" else "/") + path
  }

  /** The development proxy's `rewrite`: one leading `/api` is removed. */
  function Rewrite(path: string): (r: string)
    ensures StartsWith(path, "/api") ==> path == "/api" + r
    ensures !StartsWith(path, "/api") ==> r == path
  {
    if StartsWith(path, "/api") then path[4..] else path
  }

  /** The proxy hands the backend the path the client asked for, with a leading '/'. */
  lemma ProxyRoundTrip(path: string)
    ensures Rewrite(BuildUrl(path)) == if StartsWith(path, "/") then path else "/" + path
  {
    var url := BuildUrl(path);
    assert StartsWith(url, "/api");
  }

  // ---------------------------------------------------------------------------
  // one attempt's headers

  /** The headers an attempt sends, and the client after any token fetch. */
  datatype Prepared = Prepared(client: Client, headers: Outcome<Headers>)

  /** The token to send, and the client after fetching it if none was held. */
  datatype Held = Held(client: Client, token: Outcome<string>)

  /** Lines 47-57 of `request`: `withCredentials` is set; an absent Authorization header
      is added unless `noAuth`, after fetching a token when none is held (`??=` keeps even
      an empty held token); a POST or PUT with no or an empty Content-Type gets JSON. */
  function Prepare(verb: Method, given: Headers, noAuth: bool, c: Client,
                   refresh: nat -> Outcome<string>): (r: Prepared)
    ensures r.client.sent == c.sent
  {
    var h := given[WithCredentialsHeader := "true"];
    if AuthorizationHeader in h || noAuth then
      Prepared(c, Returned(WithContentType(verb, h)))
    else
      var held :=
        if c.token.Some? then Held(c, Returned(c.token.value))
        else match refresh(c.refreshes)
          case Threw(m) => Held(c.(refreshes := c.refreshes + 1), Threw(m))
          case Returned(t) => Held(c.(token := Some(t), refreshes := c.refreshes + 1), Returned(t));
      match held.token
      case Threw(m) => Prepared(held.client, Threw(m))
      case Returned(t) => Prepared(held.client, Returned(WithContentType(verb, h[AuthorizationHeader := "Bearer " + t])))
  }

  /** When `Prepare` fetches a token, and what fetching costs: nothing is fetched when the
      caller set Authorization, asked for `noAuth`, or a token is held; otherwise one
      refresh is made, whose token is then held, or whose error is the attempt's. */
  lemma PrepareToken(verb: Method, given: Headers, noAuth: bool, c: Client, refresh: nat -> Outcome<string>,
                     r: Prepared)
    requires r == Prepare(verb, given, noAuth, c, refresh)
    ensures AuthorizationHeader in given || noAuth || c.token.Some? ==> r.client == c && r.headers.Returned?
    ensures r.headers.Threw? <==>
      AuthorizationHeader !in given && !noAuth && c.token.None? && refresh(c.refreshes).Threw?
    ensures r.headers.Threw? ==> r.headers.message == refresh(c.refreshes).message
    ensures AuthorizationHeader !in given && !noAuth && c.token.None? ==>
      r.client.refreshes == c.refreshes + 1
    ensures r.headers.Returned? && AuthorizationHeader !in given && !noAuth && c.token.None? ==>
      r.client == c.(token := Some(refresh(c.refreshes).value), refreshes := c.refreshes + 1)
  {
  }

  /** The headers `Prepare` sends: credentials always; the caller's Authorization, or with
      none and no `noAuth` the held token as a Bearer credential; JSON for a body without a
      Content-Type; every other header as the caller gave it. */
  lemma PrepareHeaders(verb: Method, given: Headers, noAuth: bool, c: Client, refresh: nat -> Outcome<string>,
                       r: Prepared)
    requires r == Prepare(verb, given, noAuth, c, refresh) && r.headers.Returned?
    ensures Lookup(r.headers.value, WithCredentialsHeader) == Some("true")
    ensures AuthorizationHeader in given || noAuth ==>
      Lookup(r.headers.value, AuthorizationHeader) == Lookup(given, AuthorizationHeader)
    ensures AuthorizationHeader !in given && !noAuth ==>
      r.client.token.Some? && Lookup(r.headers.value, AuthorizationHeader) == Some("Bearer " + r.client.token.value)
    ensures SetsBody(verb) ==> Truthy(Lookup(r.headers.value, ContentTypeHeader))
    ensures !SetsBody(verb) || Truthy(Lookup(given, ContentTypeHeader)) ==>
      Lookup(r.headers.value, ContentTypeHeader) == Lookup(given, ContentTypeHeader)
    ensures forall k :: k != AuthorizationHeader && k != ContentTypeHeader && k != WithCredentialsHeader ==>
      Lookup(r.headers.value, k) == Lookup(given, k)
  {
  }

  /** Lines 55-57: JSON for a POST or PUT whose Content-Type is missing or empty. */
  function WithContentType(verb: Method, h: Headers): (r: Headers)
    ensures SetsBody(verb) ==> Truthy(Lookup(r, ContentTypeHeader))
    ensures !SetsBody(verb) || Truthy(Lookup(h, ContentTypeHeader)) ==> r == h
    ensures SetsBody(verb) && !Truthy(Lookup(h, ContentTypeHeader)) ==> r == h[ContentTypeHeader := JsonType]
  {
    if SetsBody(verb) && !Truthy(Lookup(h, ContentTypeHeader)) then h[ContentTypeHeader := JsonType] else h
  }

  // ---------------------------------------------------------------------------
  // request

  /** What one attempt's sending produced: the headers it sent and the response. */
  datatype Exchange = Exchange(headers: Headers, response: Response)

  /** One attempt's headers and fetch, and the client after them. */
  datatype Tried = Tried(client: Client, outcome: Outcome<Exchange>)

  /** The headers of any request sent with `given` and `noAuth`. */
  predicate WellFormed(verb: Method, noAuth: bool, h: Headers) {
    && Lookup(h, WithCredentialsHeader) == Some("true")
    && (SetsBody(verb) ==> Truthy(Lookup(h, ContentTypeHeader)))
    && (!noAuth ==> AuthorizationHeader in h)
  }

  /** Lines 47-64 of `request`: the headers are prepared and, unless fetching a token
      threw, the request is sent and recorded. */
  function Attempt(url: string, verb: Method, given: Headers, noAuth: bool, c: Client,
                   fetch: (nat, Sent) -> Response, refresh: nat -> Outcome<string>): (r: Tried)
    ensures r.outcome.Threw? ==> r.client.sent == c.sent
    ensures r.outcome.Returned? ==>
      var x := r.outcome.value;
      && r.client.sent == c.sent + [Sent(BuildUrl(url), verb, x.headers)]
      && x.response == fetch(|c.sent|, Sent(BuildUrl(url), verb, x.headers))
      && WellFormed(verb, noAuth, x.headers)
  {
    var p := Prepare(verb, given, noAuth, c, refresh);
    match p.headers
    case Threw(m) => Tried(p.client, Threw(m))
    case Returned(h) =>
      PrepareHeaders(verb, given, noAuth, c, refresh, p);
      var sent := Sent(BuildUrl(url), verb, h);
      Tried(p.client.(sent := p.client.sent + [sent]), Returned(Exchange(h, fetch(|c.sent|, sent))))
  }

  /** An attempt sends the caller's Authorization, or the token it holds afterwards; it
      always sends when the caller set Authorization, asked for `noAuth`, or a token is
      held, and then holds the same token. */
  lemma AttemptAuthorization(url: string, verb: Method, given: Headers, noAuth: bool, c: Client,
                             fetch: (nat, Sent) -> Response, refresh: nat -> Outcome<string>, r: Tried)
    requires r == Attempt(url, verb, given, noAuth, c, fetch, refresh)
    ensures AuthorizationHeader in given || noAuth || c.token.Some? ==>
      r.outcome.Returned? && r.client.token == c.token && r.client.refreshes == c.refreshes
    ensures r.outcome.Returned? && (AuthorizationHeader in given || noAuth) ==>
      Lookup(r.outcome.value.headers, AuthorizationHeader) == Lookup(given, AuthorizationHeader)
    ensures r.outcome.Returned? && AuthorizationHeader !in given && !noAuth ==>
      r.client.token.Some? && Lookup(r.outcome.value.headers, AuthorizationHeader) == Some("Bearer " + r.client.token.value)
  {
    var p := Prepare(verb, given, noAuth, c, refresh);
    PrepareToken(verb, given, noAuth, c, refresh, p);
    if p.headers.Returned? {
      PrepareHeaders(verb, given, noAuth, c, refresh, p);
    }
  }

  /** The options the next attempt starts from: with `reuseHeaders`, a caller's headers
      object as this attempt filled it in. */
  function NextOptions(options: Options, sentHeaders: Headers, reuseHeaders: bool): (o: Options)
    ensures o.noAuth == options.noAuth
    ensures !reuseHeaders || options.headers.None? ==> o == options
  {
    if reuseHeaders && options.headers.Some? then options.(headers := Some(sentHeaders)) else options
  }

  /** What one attempt leaves to do: the call is over with this outcome, or it is made
      again from these options with this client. */
  datatype Next = Done(call: Call) | Again(options: Options, client: Client)

  /** The client after an attempt, whichever way it went. */
  function After(n: Next): Client {
    if n.Done? then n.call.client else n.client
  }

  /** Lines 47-77 of `request`, one attempt: the headers are prepared and the request is
      sent; a 403 fetches a new token and goes again (with `reuseHeaders`, from the
      caller's headers object as this attempt filled it in); any other failing status
      throws the envelope's message; an ok response is returned. */
  function Step(url: string, verb: Method, options: Options, c: Client,
                fetch: (nat, Sent) -> Response, refresh: nat -> Outcome<string>,
                reuseHeaders: bool): (n: Next)
    ensures |c.sent| <= |After(n).sent| <= |c.sent| + 1
    ensures n.Again? ==> |n.client.sent| == |c.sent| + 1 && n.options.noAuth == options.noAuth
  {
    var a := Attempt(url, verb, options.headers.GetOr(map[]), options.noAuth, c, fetch, refresh);
    match a.outcome
    case Threw(m) => Done(Call(a.client, Threw(m)))
    case Returned(x) =>
      if x.response.status == 403 then
        match refresh(a.client.refreshes)
        case Threw(m) => Done(Call(a.client.(refreshes := a.client.refreshes + 1), Threw(m)))
        case Returned(t) =>
          Again(NextOptions(options, x.headers, reuseHeaders),
                a.client.(token := Some(t), refreshes := a.client.refreshes + 1))
      else if !x.response.Ok() then Done(Call(a.client, Threw(x.response.errorMessage)))
      else Done(Call(a.client, Returned(x.response)))
  }

  /** The request an attempt sends is recorded after those sent before it; when fetching
      a token threw, nothing is sent. */
  lemma StepSends(url: string, verb: Method, options: Options, c: Client,
                  fetch: (nat, Sent) -> Response, refresh: nat -> Outcome<string>, reuseHeaders: bool)
    ensures var a := Attempt(url, verb, options.headers.GetOr(map[]), options.noAuth, c, fetch, refresh);
      var n := Step(url, verb, options, c, fetch, refresh, reuseHeaders);
      && (a.outcome.Threw? ==> After(n).sent == c.sent)
      && (a.outcome.Returned? ==> After(n).sent == c.sent + [Sent(BuildUrl(url), verb, a.outcome.value.headers)])
  {
  }

  /** An attempt goes again exactly when its response was a 403 and the token refresh
      that follows returned; the next attempt holds the new token and starts from the
      next options. */
  lemma StepAgain(url: string, verb: Method, options: Options, c: Client,
                  fetch: (nat, Sent) -> Response, refresh: nat -> Outcome<string>, reuseHeaders: bool)
    ensures var a := Attempt(url, verb, options.headers.GetOr(map[]), options.noAuth, c, fetch, refresh);
      var n := Step(url, verb, options, c, fetch, refresh, reuseHeaders);
      && (n.Again? <==>
            a.outcome.Returned? && a.outcome.value.response.status == 403 && refresh(a.client.refreshes).Returned?)
      && (n.Again? ==>
            && n.options == NextOptions(options, a.outcome.value.headers, reuseHeaders)
            && n.client == a.client.(token := Some(refresh(a.client.refreshes).value),
                                     refreshes := a.client.refreshes + 1))
  {
  }

  /** An attempt that does not go again ends the call: an error from fetching the token
      is passed on, a 403 whose refresh threw throws, any other failing status throws
      the envelope's message, and an ok response is returned. */
  lemma StepDone(url: string, verb: Method, options: Options, c: Client,
                 fetch: (nat, Sent) -> Response, refresh: nat -> Outcome<string>, reuseHeaders: bool)
    ensures var a := Attempt(url, verb, options.headers.GetOr(map[]), options.noAuth, c, fetch, refresh);
      var n := Step(url, verb, options, c, fetch, refresh, reuseHeaders);
      n.Done? ==>
      && (a.outcome.Threw? ==> n.call.result == Threw(a.outcome.message))
      && (a.outcome.Returned? ==>
            var resp := a.outcome.value.response;
            && (resp.status == 403 ==> n.call.result.Threw?)
            && (resp.status != 403 && !resp.Ok() ==> n.call.result == Threw(resp.errorMessage))
            && (resp.Ok() ==> n.call.result == Returned(resp)))
  {
  }

  /** `request(url, verb, body, options, attempt)`: attempts from `attempt` on, until one
      ends the call or the third has been made. With `reuseHeaders` the caller's headers
      object, once an attempt has filled it in, is the one the next attempt starts from,
      as written; without it every attempt starts from the caller's headers as given. */
  function Send(url: string, verb: Method, options: Options, attempt: nat, c: Client,
                fetch: (nat, Sent) -> Response, refresh: nat -> Outcome<string>,
                reuseHeaders: bool): (r: Call)
    ensures |c.sent| <= |r.client.sent| <= |c.sent| + (if attempt < MaxAttempts then MaxAttempts - attempt else 0)
    ensures attempt >= MaxAttempts ==> r == Call(c, Threw(MaxAttemptsMessage))
    decreases MaxAttempts - attempt
  {
    if attempt >= MaxAttempts then Call(c, Threw(MaxAttemptsMessage))
    else
      match Step(url, verb, options, c, fetch, refresh, reuseHeaders)
      case Done(call) => call
      case Again(o, c2) => Send(url, verb, o, attempt + 1, c2, fetch, refresh, reuseHeaders)
  }

  /** Below the limit a call is its first attempt, followed by the rest of the call when
      that attempt goes again. */
  lemma SendUnfolds(url: string, verb: Method, options: Options, attempt: nat, c: Client,
                    fetch: (nat, Sent) -> Response, refresh: nat -> Outcome<string>, reuseHeaders: bool)
    requires attempt < MaxAttempts
    ensures var n := Step(url, verb, options, c, fetch, refresh, reuseHeaders);
      var r := Send(url, verb, options, attempt, c, fetch, refresh, reuseHeaders);
      && (n.Done? ==> r == n.call)
      && (n.Again? ==> r == Send(url, verb, n.options, attempt + 1, n.client, fetch, refresh, reuseHeaders))
  {
  }

  /** A call only appends to the requests sent before it. */
  lemma {:induction false} SendKeepsSent(url: string, verb: Method, options: Options, attempt: nat, c: Client,
                                         fetch: (nat, Sent) -> Response, refresh: nat -> Outcome<string>,
                                         reuseHeaders: bool)
    ensures var r := Send(url, verb, options, attempt, c, fetch, refresh, reuseHeaders);
      r.client.sent[..|c.sent|] == c.sent
    decreases MaxAttempts - attempt
  {
    if attempt < MaxAttempts {
      var n := Step(url, verb, options, c, fetch, refresh, reuseHeaders);
      SendUnfolds(url, verb, options, attempt, c, fetch, refresh, reuseHeaders);
      StepSends(url, verb, options, c, fetch, refresh, reuseHeaders);
      var r := Send(url, verb, options, attempt, c, fetch, refresh, reuseHeaders);
      if n.Again? {
        SendKeepsSent(url, verb, n.options, attempt + 1, n.client, fetch, refresh, reuseHeaders);
        assert r.client.sent[..|c.sent|] == r.client.sent[..|n.client.sent|][..|c.sent|];
      } else {
        assert r.client.sent == After(n).sent;
      }
    }
  }

  /** A request of the call to `url` with `verb`: it goes to the built URL with the verb
      and carries credentials, a Content-Type for a body, and an Authorization header
      unless `noAuth`. */
  predicate SentBy(url: string, verb: Method, noAuth: bool, s: Sent) {
    s.url == BuildUrl(url) && s.verb == verb && WellFormed(verb, noAuth, s.headers)
  }

  /** The request an attempt sends is one of the call's. */
  lemma StepSendsWellFormed(url: string, verb: Method, options: Options, c: Client,
                            fetch: (nat, Sent) -> Response, refresh: nat -> Outcome<string>, reuseHeaders: bool)
    ensures var n := Step(url, verb, options, c, fetch, refresh, reuseHeaders);
      |After(n).sent| > |c.sent| ==> SentBy(url, verb, options.noAuth, After(n).sent[|c.sent|])
  {
    StepSends(url, verb, options, c, fetch, refresh, reuseHeaders);
  }

  /** Every request a call sends is one of the call's. */
  lemma {:induction false} SentRequests(url: string, verb: Method, options: Options, attempt: nat, c: Client,
                                        fetch: (nat, Sent) -> Response, refresh: nat -> Outcome<string>,
                                        reuseHeaders: bool)
    ensures var r := Send(url, verb, options, attempt, c, fetch, refresh, reuseHeaders);
      forall i :: |c.sent| <= i < |r.client.sent| ==> SentBy(url, verb, options.noAuth, r.client.sent[i])
    decreases MaxAttempts - attempt
  {
    if attempt < MaxAttempts {
      var n := Step(url, verb, options, c, fetch, refresh, reuseHeaders);
      if n.Again? {
        SentRequests(url, verb, n.options, attempt + 1, n.client, fetch, refresh, reuseHeaders);
        SentRequestsAgain(url, verb, options, attempt, c, fetch, refresh, reuseHeaders);
      } else {
        SentRequestsDone(url, verb, options, attempt, c, fetch, refresh, reuseHeaders);
      }
    }
  }

  lemma SentRequestsAgain(url: string, verb: Method, options: Options, attempt: nat, c: Client,
                          fetch: (nat, Sent) -> Response, refresh: nat -> Outcome<string>, reuseHeaders: bool)
    requires attempt < MaxAttempts
    requires var n := Step(url, verb, options, c, fetch, refresh, reuseHeaders);
      && n.Again?
      && var rest := Send(url, verb, n.options, attempt + 1, n.client, fetch, refresh, reuseHeaders);
         forall i :: |n.client.sent| <= i < |rest.client.sent| ==> SentBy(url, verb, n.options.noAuth, rest.client.sent[i])
    ensures var r := Send(url, verb, options, attempt, c, fetch, refresh, reuseHeaders);
      forall i :: |c.sent| <= i < |r.client.sent| ==> SentBy(url, verb, options.noAuth, r.client.sent[i])
  {
    var n := Step(url, verb, options, c, fetch, refresh, reuseHeaders);
    SendUnfolds(url, verb, options, attempt, c, fetch, refresh, reuseHeaders);
    StepSendsWellFormed(url, verb, options, c, fetch, refresh, reuseHeaders);
    SendKeepsSent(url, verb, n.options, attempt + 1, n.client, fetch, refresh, reuseHeaders);
    var r := Send(url, verb, options, attempt, c, fetch, refresh, reuseHeaders);
    AllSentBy(url, verb, options.noAuth, c.sent, n.client.sent, r.client.sent);
  }

  lemma SentRequestsDone(url: string, verb: Method, options: Options, attempt: nat, c: Client,
                         fetch: (nat, Sent) -> Response, refresh: nat -> Outcome<string>, reuseHeaders: bool)
    requires attempt < MaxAttempts
    requires Step(url, verb, options, c, fetch, refresh, reuseHeaders).Done?
    ensures var r := Send(url, verb, options, attempt, c, fetch, refresh, reuseHeaders);
      forall i :: |c.sent| <= i < |r.client.sent| ==> SentBy(url, verb, options.noAuth, r.client.sent[i])
  {
    var n := Step(url, verb, options, c, fetch, refresh, reuseHeaders);
    SendUnfolds(url, verb, options, attempt, c, fetch, refresh, reuseHeaders);
    StepSendsWellFormed(url, verb, options, c, fetch, refresh, reuseHeaders);
    var r := Send(url, verb, options, attempt, c, fetch, refresh, reuseHeaders);
    assert r.client.sent == After(n).sent;
    AllSentBy(url, verb, options.noAuth, c.sent, r.client.sent, r.client.sent);
  }

  /** The requests after `before` are the call's when the first of them is and the
      requests after `middle` are. */
  lemma AllSentBy(url: string, verb: Method, noAuth: bool, before: seq<Sent>, middle: seq<Sent>, all: seq<Sent>)
    requires |before| <= |middle| <= |before| + 1 && |middle| <= |all|
    requires all[..|middle|] == middle
    requires |middle| > |before| ==> SentBy(url, verb, noAuth, middle[|before|])
    requires forall i :: |middle| <= i < |all| ==> SentBy(url, verb, noAuth, all[i])
    ensures forall i :: |before| <= i < |all| ==> SentBy(url, verb, noAuth, all[i])
  {
    if |middle| > |before| {
      assert all[|before|] == middle[|before|];
    }
  }

  /** The outcome of a call that started from `c`, read against the last response it got:
      it returns exactly when that response was ok, and returns it; a last response
      neither ok nor 403 is thrown as its envelope's message; a call that sent nothing
      threw. */
  predicate Settled(r: Call, c: Client, fetch: (nat, Sent) -> Response)
    requires |c.sent| <= |r.client.sent|
  {
    && (|r.client.sent| == |c.sent| ==> r.result.Threw?)
    && (|r.client.sent| > |c.sent| ==>
          var last := |r.client.sent| - 1;
          var resp := fetch(last, r.client.sent[last]);
          && (resp.Ok() <==> r.result.Returned?)
          && (resp.Ok() ==> r.result.value == resp)
          && (!resp.Ok() && resp.status != 403 ==> r.result == Threw(resp.errorMessage)))
  }

  /** The first request a call sends is its first attempt's. */
  lemma SendRecordsAttempt(url: string, verb: Method, options: Options, attempt: nat, c: Client,
                           fetch: (nat, Sent) -> Response, refresh: nat -> Outcome<string>, reuseHeaders: bool)
    requires attempt < MaxAttempts
    ensures var a := Attempt(url, verb, options.headers.GetOr(map[]), options.noAuth, c, fetch, refresh);
      var r := Send(url, verb, options, attempt, c, fetch, refresh, reuseHeaders);
      a.outcome.Returned? ==>
        |r.client.sent| > |c.sent| && r.client.sent[|c.sent|] == Sent(BuildUrl(url), verb, a.outcome.value.headers)
  {
    var n := Step(url, verb, options, c, fetch, refresh, reuseHeaders);
    SendUnfolds(url, verb, options, attempt, c, fetch, refresh, reuseHeaders);
    StepSends(url, verb, options, c, fetch, refresh, reuseHeaders);
    if n.Again? {
      SendKeepsSent(url, verb, n.options, attempt + 1, n.client, fetch, refresh, reuseHeaders);
      var r := Send(url, verb, options, attempt, c, fetch, refresh, reuseHeaders);
      assert r.client.sent[|c.sent|] == n.client.sent[|c.sent|] by {
        assert r.client.sent[..|n.client.sent|] == n.client.sent;
      }
    }
  }

  /** A call whose first attempt ends it is settled. */
  lemma StopSettles(url: string, verb: Method, options: Options, attempt: nat, c: Client,
                    fetch: (nat, Sent) -> Response, refresh: nat -> Outcome<string>, reuseHeaders: bool)
    requires attempt < MaxAttempts
    requires Step(url, verb, options, c, fetch, refresh, reuseHeaders).Done?
    ensures Settled(Send(url, verb, options, attempt, c, fetch, refresh, reuseHeaders), c, fetch)
  {
    var a := Attempt(url, verb, options.headers.GetOr(map[]), options.noAuth, c, fetch, refresh);
    SendUnfolds(url, verb, options, attempt, c, fetch, refresh, reuseHeaders);
    StepSends(url, verb, options, c, fetch, refresh, reuseHeaders);
    StepDone(url, verb, options, c, fetch, refresh, reuseHeaders);
    if a.outcome.Returned? {
      assert a.client.sent[|c.sent|] == Sent(BuildUrl(url), verb, a.outcome.value.headers);
    }
  }

  /** A settled retry settles the call that made it. */
  lemma RetrySettles(c: Client, c2: Client, r: Call, fetch: (nat, Sent) -> Response)
    requires |c2.sent| == |c.sent| + 1 && |c2.sent| <= |r.client.sent|
    requires r.client.sent[..|c2.sent|] == c2.sent
    requires fetch(|c.sent|, c2.sent[|c.sent|]).status == 403
    requires Settled(r, c2, fetch)
    ensures Settled(r, c, fetch)
  {
    if |r.client.sent| == |c2.sent| {
      assert r.client.sent == c2.sent;
    }
  }

  lemma {:induction false} SendResult(url: string, verb: Method, options: Options, attempt: nat, c: Client,
                                      fetch: (nat, Sent) -> Response, refresh: nat -> Outcome<string>,
                                      reuseHeaders: bool)
    ensures Settled(Send(url, verb, options, attempt, c, fetch, refresh, reuseHeaders), c, fetch)
    decreases MaxAttempts - attempt
  {
    if attempt < MaxAttempts {
      var n := Step(url, verb, options, c, fetch, refresh, reuseHeaders);
      if n.Again? {
        var a := Attempt(url, verb, options.headers.GetOr(map[]), options.noAuth, c, fetch, refresh);
        SendUnfolds(url, verb, options, attempt, c, fetch, refresh, reuseHeaders);
        StepSends(url, verb, options, c, fetch, refresh, reuseHeaders);
        StepAgain(url, verb, options, c, fetch, refresh, reuseHeaders);
        assert n.client.sent[|c.sent|] == Sent(BuildUrl(url), verb, a.outcome.value.headers);
        var rest := Send(url, verb, n.options, attempt + 1, n.client, fetch, refresh, reuseHeaders);
        SendResult(url, verb, n.options, attempt + 1, n.client, fetch, refresh, reuseHeaders);
        SendKeepsSent(url, verb, n.options, attempt + 1, n.client, fetch, refresh, reuseHeaders);
        RetrySettles(c, n.client, rest, fetch);
      } else {
        StopSettles(url, verb, options, attempt, c, fetch, refresh, reuseHeaders);
      }
    }
  }

  /** `request` as written: a caller's headers object keeps the Authorization header the
      first attempt set, so a retry after a 403 sends the token that was refused. */
  function RequestAsWritten(url: string, verb: Method, options: Options, c: Client,
                            fetch: (nat, Sent) -> Response, refresh: nat -> Outcome<string>): (r: Call)
    ensures |c.sent| <= |r.client.sent| <= |c.sent| + MaxAttempts
    ensures r.client.sent[..|c.sent|] == c.sent
  {
    SendKeepsSent(url, verb, options, 0, c, fetch, refresh, true);
    Send(url, verb, options, 0, c, fetch, refresh, true)
  }

  /** `request` with each attempt starting from the caller's headers as given, so that a
      retry carries the refreshed token. */
  function Request(url: string, verb: Method, options: Options, c: Client,
                   fetch: (nat, Sent) -> Response, refresh: nat -> Outcome<string>): (r: Call)
    ensures |c.sent| <= |r.client.sent| <= |c.sent| + MaxAttempts
    ensures r.client.sent[..|c.sent|] == c.sent
  {
    SendKeepsSent(url, verb, options, 0, c, fetch, refresh, false);
    Send(url, verb, options, 0, c, fetch, refresh, false)
  }

  // ---------------------------------------------------------------------------
  // properties

  /** A server that refuses every request gets exactly three, each followed by a token
      refresh, and the caller sees the max-attempts error. */
  lemma {:induction false} AlwaysForbidden(url: string, verb: Method, options: Options, attempt: nat,
                                           c: Client, fetch: (nat, Sent) -> Response,
                                           refresh: nat -> Outcome<string>, reuseHeaders: bool)
    requires attempt <= MaxAttempts
    requires forall i, s :: fetch(i, s).status == 403
    requires forall k :: refresh(k).Returned?
    requires c.token.Some? || options.noAuth
    ensures var r := Send(url, verb, options, attempt, c, fetch, refresh, reuseHeaders);
      && |r.client.sent| == |c.sent| + MaxAttempts - attempt
      && r.client.refreshes == c.refreshes + MaxAttempts - attempt
      && r.result == Threw(MaxAttemptsMessage)
    decreases MaxAttempts - attempt
  {
    if attempt < MaxAttempts {
      var n := Step(url, verb, options, c, fetch, refresh, reuseHeaders);
      ForbiddenAttempt(url, verb, options, c, fetch, refresh, reuseHeaders);
      AlwaysForbidden(url, verb, n.options, attempt + 1, n.client, fetch, refresh, reuseHeaders);
      ForbiddenRetry(url, verb, options, attempt, c, fetch, refresh, reuseHeaders);
    }
  }

  /** The count of requests and refreshes of the retry, plus the attempt's one each. */
  lemma ForbiddenRetry(url: string, verb: Method, options: Options, attempt: nat, c: Client,
                       fetch: (nat, Sent) -> Response, refresh: nat -> Outcome<string>, reuseHeaders: bool)
    requires attempt < MaxAttempts
    requires var n := Step(url, verb, options, c, fetch, refresh, reuseHeaders);
      && n.Again? && |n.client.sent| == |c.sent| + 1 && n.client.refreshes == c.refreshes + 1
      && var rest := Send(url, verb, n.options, attempt + 1, n.client, fetch, refresh, reuseHeaders);
         && |rest.client.sent| == |n.client.sent| + MaxAttempts - (attempt + 1)
         && rest.client.refreshes == n.client.refreshes + MaxAttempts - (attempt + 1)
         && rest.result == Threw(MaxAttemptsMessage)
    ensures var r := Send(url, verb, options, attempt, c, fetch, refresh, reuseHeaders);
      && |r.client.sent| == |c.sent| + MaxAttempts - attempt
      && r.client.refreshes == c.refreshes + MaxAttempts - attempt
      && r.result == Threw(MaxAttemptsMessage)
  {
    SendUnfolds(url, verb, options, attempt, c, fetch, refresh, reuseHeaders);
  }

  /** Against such a server an attempt sends one request, refreshes the token once, and
      goes again holding a token. */
  lemma ForbiddenAttempt(url: string, verb: Method, options: Options, c: Client,
                         fetch: (nat, Sent) -> Response, refresh: nat -> Outcome<string>, reuseHeaders: bool)
    requires forall i, s :: fetch(i, s).status == 403
    requires forall k :: refresh(k).Returned?
    requires c.token.Some? || options.noAuth
    ensures var n := Step(url, verb, options, c, fetch, refresh, reuseHeaders);
      && n.Again? && |n.client.sent| == |c.sent| + 1 && n.client.refreshes == c.refreshes + 1
      && (n.client.token.Some? || n.options.noAuth)
  {
    var given := options.headers.GetOr(map[]);
    var a := Attempt(url, verb, given, options.noAuth, c, fetch, refresh);
    AttemptAuthorization(url, verb, given, options.noAuth, c, fetch, refresh, a);
    StepAgain(url, verb, options, c, fetch, refresh, reuseHeaders);
  }

  /** The token a request sent in the `i`-th place carried. */
  function Bearer(r: Call, i: nat): Option<string>
    requires i < |r.client.sent|
  {
    Lookup(r.client.sent[i].headers, AuthorizationHeader)
  }

  /** With the caller's own headers object, the retry after a 403 sends the held token
      again, not the one the refresh returned. */
  lemma StaleAuthorizationOnRetry(url: string, verb: Method, given: Headers, c: Client,
                                  fetch: (nat, Sent) -> Response, refresh: nat -> Outcome<string>)
    requires AuthorizationHeader !in given && c.token.Some?
    requires forall s :: fetch(|c.sent|, s).status == 403
    requires refresh(c.refreshes).Returned?
    ensures var r := RequestAsWritten(url, verb, Options(Some(given), false), c, fetch, refresh);
      && |r.client.sent| >= |c.sent| + 2
      && Bearer(r, |c.sent|) == Bearer(r, |c.sent| + 1) == Some("Bearer " + c.token.value)
  {
    var o := Options(Some(given), false);
    var a := Attempt(url, verb, given, false, c, fetch, refresh);
    AttemptAuthorization(url, verb, given, false, c, fetch, refresh, a);
    var n := Step(url, verb, o, c, fetch, refresh, true);
    StepAgain(url, verb, o, c, fetch, refresh, true);
    SendRecordsAttempt(url, verb, o, 0, c, fetch, refresh, true);
    SendUnfolds(url, verb, o, 0, c, fetch, refresh, true);
    var x := a.outcome.value;
    assert n.options == Options(Some(x.headers), false);
    SendRecordsAttempt(url, verb, n.options, 1, n.client, fetch, refresh, true);
    var a2 := Attempt(url, verb, x.headers, false, n.client, fetch, refresh);
    AttemptAuthorization(url, verb, x.headers, false, n.client, fetch, refresh, a2);
  }

  /** A server that refuses the first request and answers every later one. */
  function RefuseFirst(i: nat, s: Sent): Response {
    if i == 0 then Response(403, "") else Response(200, "")
  }

  /** A refresh that always hands out the token "b". */
  function RefreshToB(k: nat): Outcome<string> {
    Returned("b")
  }

  /** One concrete run: a held token "a" is refused, the refresh returns "b", and the
      retry still says "Bearer a". */
  lemma StaleAuthorizationExample()
    ensures var r := RequestAsWritten("/videos", Get, Options(Some(map[]), false), Client(Some("a"), [], 0),
                                      RefuseFirst, RefreshToB);
      |r.client.sent| >= 2 && Bearer(r, 1) == Some("Bearer a")
  {
    var c := Client(Some("a"), [], 0);
    assert forall s :: RefuseFirst(|c.sent|, s).status == 403;
    StaleAuthorizationOnRetry("/videos", Get, map[], c, RefuseFirst, RefreshToB);
    var r := RequestAsWritten("/videos", Get, Options(Some(map[]), false), c, RefuseFirst, RefreshToB);
    assert Bearer(r, |c.sent| + 1) == Some("Bearer " + c.token.value);
    assert "Bearer " + "a" == "Bearer a";
  }

  /** Corrected: whether or not the caller gave headers, a retry after a 403 carries the
      token the refresh returned. */
  lemma RetryCarriesRefreshedToken(url: string, verb: Method, options: Options, c: Client,
                                   fetch: (nat, Sent) -> Response, refresh: nat -> Outcome<string>)
    requires AuthorizationHeader !in options.headers.GetOr(map[]) && !options.noAuth && c.token.Some?
    requires forall s :: fetch(|c.sent|, s).status == 403
    requires refresh(c.refreshes).Returned?
    ensures var r := Request(url, verb, options, c, fetch, refresh);
      && |r.client.sent| >= |c.sent| + 2
      && Bearer(r, |c.sent|) == Some("Bearer " + c.token.value)
      && Bearer(r, |c.sent| + 1) == Some("Bearer " + refresh(c.refreshes).value)
  {
    var given := options.headers.GetOr(map[]);
    var a := Attempt(url, verb, given, false, c, fetch, refresh);
    AttemptAuthorization(url, verb, given, false, c, fetch, refresh, a);
    var n := Step(url, verb, options, c, fetch, refresh, false);
    StepAgain(url, verb, options, c, fetch, refresh, false);
    SendRecordsAttempt(url, verb, options, 0, c, fetch, refresh, false);
    SendUnfolds(url, verb, options, 0, c, fetch, refresh, false);
    SendRecordsAttempt(url, verb, options, 1, n.client, fetch, refresh, false);
    var a2 := Attempt(url, verb, given, false, n.client, fetch, refresh);
    AttemptAuthorization(url, verb, given, false, n.client, fetch, refresh, a2);
  }
}

=== FILE: auth_routes.dfy ===
/** The `/auth` routes: password login with an optional TOTP second factor, refresh-token
    rotation, logout, registration, and TOTP enrolment and removal. Each route is a
    transition from the database before the request to the database after it and the
    reply. */
module AuthRoutes {
  import opened Types
  import opened Strings
  import opened Db
  import opened Failures
  import opened Authentication
  import opened TokenService

  /** The password and one-time-code checks: bcrypt's `compareSync(password, hash)`
      and TOTP validation (RFC 6238, with a window of two steps) of `code` against
      `secret`. */
  datatype Crypto = Crypto(passwordMatches: (string, string) -> bool, totpAccepts: (string, string) -> bool)

  /** What issuing a session needs besides the user: the clock, what reading the
      REFRESH_TOKEN_EXPIRY_DURATION setting resolved to and the duration parser `ms` that
      reads it, the random 16-character token drawn for the record, and the device name
      read from the User-Agent header. */
  datatype IssueEnv = IssueEnv(now: int, setting: Option<SettingValue>, ms: string -> Option<int>,
                               token: string, deviceName: string)

  /** The expiry a session issued in `env` gets, `None` when it is not a valid date. */
  function SessionExpiry(env: IssueEnv): Option<int> {
    Expiry(env.setting, env.ms, env.now)
  }

  /** A successful login, registration or refresh: an access token for `userId` and a
      refresh cookie whose `jti` is `refreshJti`, the token of the session record
      `sessionId`. */
  datatype Grant = Grant(userId: string, sessionId: string, refreshJti: string)

  datatype LoginBody = LoginBody(username: string, password: string, totpCode: Option<string>,
                                 deviceType: Option<DeviceType>)

  /** Issues a session for `userId` and answers with the grant; when the expiry is not a
      valid date the insert throws, which the route does not catch, and nothing changes. */
  ghost function GrantSession(db: Db, userId: string, deviceType: Option<DeviceType>, env: IssueEnv): (s: Step<Grant>)
    ensures s.reply.Ok? <==> SessionExpiry(env).Some?
    ensures s.reply.Err? ==> s.db == db && s.reply.failure.errorType.None? && s.reply.failure.status == 200
    ensures s.reply.Ok? ==> s.reply.value.userId == userId && s.reply.value.refreshJti == env.token
    ensures s.db == db.(tokens := s.db.tokens)
    ensures s.reply.Ok? ==> s.reply.value.sessionId !in db.tokens
    ensures s.reply.Ok? ==>
      s.db.tokens == db.tokens[s.reply.value.sessionId := RefreshRecord(env.token, userId, env.deviceName,
                                                           deviceType.GetOr(Desktop), env.now, SessionExpiry(env).value)]
  {
    match IssueRefreshToken(db.tokens, userId, env.deviceName, deviceType, env.token, env.now, env.setting, env.ms)
    case Err(f) => Step(db, Err(f))
    case Ok(issued) => Step(db.(tokens := issued.tokens), Ok(Grant(userId, issued.id, env.token)))
  }

  /** POST /auth/login. A failure changes nothing and is a 401, except that accepted
      credentials meet an unusable refresh lifetime as an uncaught throw; a success adds
      exactly one session record, owned by the user and carrying the new refresh token's
      `jti`. */
  ghost function Login(db: Db, body: LoginBody, crypto: Crypto, env: IssueEnv): (s: Step<Grant>)
    ensures s.reply.Err? ==> s.db == db
    ensures s.reply.Err? && s.reply.failure.status != 401 ==>
      SessionExpiry(env).None? && s.reply.failure.status == 200 && s.reply.failure.errorType.None?
    ensures SessionExpiry(env).None? ==> s.reply.Err?
    ensures s.reply.Ok? ==>
      var g := s.reply.value;
      && g.userId in db.users && db.users[g.userId].username == body.username
      && g.sessionId !in db.tokens
      && s.db == db.(tokens := db.tokens[g.sessionId := RefreshRecord(env.token, g.userId, env.deviceName,
                                                                       body.deviceType.GetOr(Desktop), env.now,
                                                                       SessionExpiry(env).value)])
  {
    var found := FindUserByName(db.users, body.username);
    if found.None? || !crypto.passwordMatches(body.password, db.users[found.value].passwordHash) then
      Step(db, Fail(InvalidCredentials, 401, "invalid credentials"))
    else
      var user := db.users[found.value];
      if Truthy(user.totpSecret) && !Truthy(body.totpCode) then
        Step(db, Fail(TotpRequired, 401, "totp code required"))
      else if Truthy(user.totpSecret) && !crypto.totpAccepts(user.totpSecret.value, body.totpCode.value) then
        Step(db, Fail(TotpInvalid, 401, "totp code invalid"))
      else
        GrantSession(db, found.value, body.deviceType, env)
  }

  /** The login failure kinds: INVALID_CREDENTIALS exactly when no user has the name or
      the password does not match; for a user with a TOTP secret, TOTP_REQUIRED without
      a code and TOTP_INVALID when the code is rejected. */
  lemma LoginFailureKinds(db: Db, body: LoginBody, crypto: Crypto, env: IssueEnv)
    ensures var s := Login(db, body, crypto, env);
      var found := FindUserByName(db.users, body.username);
      var known := found.Some? && crypto.passwordMatches(body.password, db.users[found.value].passwordHash);
      && (s.reply.Err? && s.reply.failure.errorType == Some(InvalidCredentials) <==> !known)
      && (s.reply.Err? && s.reply.failure.errorType == Some(TotpRequired) <==>
            known && Truthy(db.users[found.value].totpSecret) && !Truthy(body.totpCode))
      && (s.reply.Err? && s.reply.failure.errorType == Some(TotpInvalid) <==>
            known && Truthy(db.users[found.value].totpSecret) && Truthy(body.totpCode)
            && !crypto.totpAccepts(db.users[found.value].totpSecret.value, body.totpCode.value))
  {
  }

  /** A user without a TOTP secret who gives the right password is logged in, whatever
      code accompanies the request, exactly when the refresh expiry is a valid date. */
  lemma LoginWithoutSecondFactor(db: Db, body: LoginBody, crypto: Crypto, env: IssueEnv)
    requires forall id :: id in db.users && db.users[id].username == body.username ==>
               crypto.passwordMatches(body.password, db.users[id].passwordHash) && !Truthy(db.users[id].totpSecret)
    requires exists id :: id in db.users && db.users[id].username == body.username
    ensures Login(db, body, crypto, env).reply.Ok? <==> SessionExpiry(env).Some?
  {
  }

  /** POST /auth/refresh. The cookie must be present and decode, its `jti` must name a
      stored record that has not expired and whose owner is the token's subject. Every
      failure is INVALID_CREDENTIALS/401; once the cookie is present, every failure is
      raised inside the handler's `try` and the `catch` answers "failed to verify refresh
      token" in place of the inner message. On success the prev record is deleted and one
      new record for the same user and device type is issued. A failure changes nothing,
      except when the new record cannot be issued: the prev record is already deleted. */
  ghost function Refresh(db: Db, cookie: Option<string>, decode: string -> Decoded, env: IssueEnv): (s: Step<Grant>)
    ensures s.reply.Err? ==> s.reply.failure.errorType == Some(InvalidCredentials) && s.reply.failure.status == 401
    ensures !Truthy(cookie) ==> s.db == db && s.reply == Fail(InvalidCredentials, 401, "refresh cookie missing")
    ensures Truthy(cookie) && s.reply.Err? ==> s.reply.failure.message == "failed to verify refresh token"
    ensures s.reply.Err? && SessionExpiry(env).Some? ==> s.db == db
    ensures s.reply.Err? && s.db != db ==>
      && Truthy(cookie) && decode(cookie.value).Valid?
      && FindByToken(db.tokens, decode(cookie.value).claims.jti).Some?
      && s.db == db.(tokens := Without(db.tokens, FindByToken(db.tokens, decode(cookie.value).claims.jti).value))
  {
    if !Truthy(cookie) then Step(db, Fail(InvalidCredentials, 401, "refresh cookie missing"))
    else
      match decode(cookie.value)
      case Valid(claims) =>
        var found := FindByToken(db.tokens, claims.jti);
        if found.None? then Step(db, RefreshFailed())
        else
          var prev := db.tokens[found.value];
          if prev.expiresAt < env.now || claims.sub != Some(prev.userId) then Step(db, RefreshFailed())
          else
            var g := GrantSession(db.(tokens := Without(db.tokens, found.value)), prev.userId, Some(prev.deviceType), env);
            if g.reply.Err? then Step(g.db, RefreshFailed()) else g
      case _ => Step(db, RefreshFailed())
  }

  /** The answer of the refresh route's `catch`. */
  function RefreshFailed(): Reply<Grant> {
    Fail(InvalidCredentials, 401, "failed to verify refresh token")
  }

  /** A refresh whose cookie passes every check but whose new record cannot be issued
      still consumes the prev record: the cookie is spent and no new one is handed out. */
  lemma RefreshWithUnusableExpiryBurnsRecord(db: Db, cookie: Option<string>, decode: string -> Decoded, env: IssueEnv)
    requires Truthy(cookie) && decode(cookie.value).Valid?
    requires var found := FindByToken(db.tokens, decode(cookie.value).claims.jti);
      && found.Some? && db.tokens[found.value].expiresAt >= env.now
      && decode(cookie.value).claims.sub == Some(db.tokens[found.value].userId)
    requires SessionExpiry(env).None?
    ensures var s := Refresh(db, cookie, decode, env);
      var found := FindByToken(db.tokens, decode(cookie.value).claims.jti).value;
      && s.reply == RefreshFailed()
      && s.db == db.(tokens := Without(db.tokens, found))
      && found !in s.db.tokens
  {
  }

  /** A successful refresh replaced the record named by the cookie by one new record
      for the same user on the same device type (the new record's id may reuse the
      freed one), and touched no other table. */
  lemma RefreshRotates(db: Db, cookie: Option<string>, decode: string -> Decoded, env: IssueEnv)
    requires Refresh(db, cookie, decode, env).reply.Ok?
    ensures var s := Refresh(db, cookie, decode, env);
      var claims := decode(cookie.value).claims;
      var prev := FindByToken(db.tokens, claims.jti).value;
      var g := s.reply.value;
      && g.sessionId in s.db.tokens
      && s.db.tokens.Keys == db.tokens.Keys - {prev} + {g.sessionId}
      && s.db.tokens[g.sessionId].userId == db.tokens[prev].userId == g.userId
      && s.db.tokens[g.sessionId].deviceType == db.tokens[prev].deviceType
      && Some(g.userId) == claims.sub && db.tokens[prev].expiresAt >= env.now
      && s.db.users == db.users && s.db.media == db.media && s.db.videos == db.videos
  {
    var claims := decode(cookie.value).claims;
    var prev := FindByToken(db.tokens, claims.jti).value;
    var g := GrantSession(db.(tokens := Without(db.tokens, prev)), db.tokens[prev].userId,
                          Some(db.tokens[prev].deviceType), env);
    assert g == Refresh(db, cookie, decode, env);
    assert g.db.tokens.Keys == db.tokens.Keys - {prev} + {g.reply.value.sessionId};
  }

  /** Rotation is single-use: with unique tokens and a newly drawn token different from
      the consumed one, replaying the same cookie fails and changes nothing. */
  lemma RefreshIsSingleUse(db: Db, cookie: Option<string>, decode: string -> Decoded, env: IssueEnv, env2: IssueEnv)
    requires TokensUnique(db.tokens)
    requires Refresh(db, cookie, decode, env).reply.Ok?
    requires decode(cookie.value).claims.jti.Some?
    requires env.token != decode(cookie.value).claims.jti.value
    ensures var s1 := Refresh(db, cookie, decode, env);
      var s2 := Refresh(s1.db, cookie, decode, env2);
      s2.reply.Err? && s2.reply.failure.errorType == Some(InvalidCredentials) && s2.db == s1.db
  {
    RefreshRotates(db, cookie, decode, env);
    var s1 := Refresh(db, cookie, decode, env);
    var jti := decode(cookie.value).claims.jti;
    var prev := FindByToken(db.tokens, jti).value;
    forall k | k in s1.db.tokens ensures s1.db.tokens[k].token != jti.value {
      if k != s1.reply.value.sessionId {
        assert k in db.tokens && k != prev && s1.db.tokens[k] == db.tokens[k];
      }
    }
    assert FindByToken(s1.db.tokens, jti).None?;
  }

  /** POST /auth/logout as written: a present cookie is decoded outside any error
      handling, so an expired or undecodable cookie makes the route throw (a 500 without
      clearing the cookie); otherwise the record the `jti` names, if any, is deleted and
      the cookie is cleared with 200. */
  ghost function Logout(db: Db, cookie: Option<string>, decode: string -> Decoded): (s: Step<()>)
    ensures s.reply.Err? <==> Truthy(cookie) && !decode(cookie.value).Valid?
    ensures s.reply.Err? ==> s.db == db
    ensures forall k :: k in s.db.tokens ==> k in db.tokens && s.db.tokens[k] == db.tokens[k]
    ensures forall k, k' :: k in db.tokens && k !in s.db.tokens && k' in db.tokens && k' !in s.db.tokens ==> k == k'
    ensures s.db == db.(tokens := s.db.tokens)
  {
    if !Truthy(cookie) then Step(db, Ok(()))
    else
      match decode(cookie.value)
      case Expired => Step(db, Throw(200, "jwt expired"))
      case Invalid => Step(db, Throw(200, "invalid token"))
      case Valid(claims) =>
        match FindByToken(db.tokens, claims.jti)
        case None => Step(db, Ok(()))
        case Some(id) => Step(db.(tokens := Without(db.tokens, id)), Ok(()))
  }

  /** Logout with an expired refresh cookie ends in a 500 envelope instead of clearing
      the cookie. */
  lemma LogoutWithExpiredCookieFails(db: Db, cookie: string, decode: string -> Decoded, stack: string)
    requires cookie != "" && decode(cookie) == Expired
    ensures var s := Logout(db, Some(cookie), decode);
      s.reply.Err? && HandleError(s.reply.failure, None, stack, Some("production")).status == 500
  {
  }

  /** Logout as evidently intended: the cookie is always cleared with 200, and only a
      cookie that decodes can revoke its record. */
  ghost function LogoutCorrected(db: Db, cookie: Option<string>, decode: string -> Decoded): (s: Step<()>)
    ensures s.reply.Ok?
    ensures !Truthy(cookie) || !decode(cookie.value).Valid? ==> s.db == db
    ensures s.db == db.(tokens := s.db.tokens)
  {
    if Truthy(cookie) && decode(cookie.value).Valid? then Logout(db, cookie, decode)
    else Step(db, Ok(()))
  }

  /** A cookie whose `jti` names a record revokes exactly that record. */
  lemma LogoutRevokesNamedRecord(db: Db, cookie: Option<string>, decode: string -> Decoded)
    requires Truthy(cookie) && decode(cookie.value).Valid?
    requires decode(cookie.value).claims.jti.Some?
    ensures var s := LogoutCorrected(db, cookie, decode);
      var jti := decode(cookie.value).claims.jti.value;
      && (forall k :: k in s.db.tokens ==> k in db.tokens && s.db.tokens[k] == db.tokens[k])
      && (forall k :: k in db.tokens && k !in s.db.tokens ==> db.tokens[k].token == jti)
      && ((exists k :: k in db.tokens && db.tokens[k].token == jti) ==> |s.db.tokens| == |db.tokens| - 1)
  {
  }

  datatype RegisterBody = RegisterBody(username: string, password: string, deviceType: Option<DeviceType>)

  /** The roles a new account gets: ADMIN and USER for the very first account, USER for
      every later one. */
  function InitialRoles(userCount: nat): (roles: seq<UserRole>)
    ensures |roles| >= 1 && User in roles
    ensures Admin in roles <==> userCount == 0
  {
    if userCount == 0 then [Admin, User] else [User]
  }

  function RoleNames(roles: seq<UserRole>): (names: seq<string>)
    ensures |names| == |roles|
    ensures forall i :: 0 <= i < |roles| ==> names[i] == RoleName(roles[i])
  {
    seq(|roles|, i requires 0 <= i < |roles| => RoleName(roles[i]))
  }

  /** The row a registration creates: roles stored comma-joined, no TOTP secret. */
  function NewUserRow(db: Db, body: RegisterBody, passwordHash: string, now: int): UserRow {
    UserRow(body.username, passwordHash, Join(RoleNames(InitialRoles(|db.users|)), ','), None, now)
  }

  /** POST /auth/register. A taken username fails USERNAME_TAKEN/409 and changes
      nothing; otherwise one user row (roles stored comma-joined, no TOTP secret) and
      one session for it are created, and nothing else. When the session cannot be
      issued the insert throws after the user row is written, so the account exists
      without a session. `passwordHash` is the bcrypt hash of the password. The check
      that registration is enabled tests a pending Promise, which is always truthy, so it
      never rejects and is not part of the transition. */
  ghost function Register(db: Db, body: RegisterBody, passwordHash: string, env: IssueEnv): (s: Step<Grant>)
    ensures s.reply.Err? <==> (exists id :: id in db.users && db.users[id].username == body.username)
                              || SessionExpiry(env).None?
    ensures (exists id :: id in db.users && db.users[id].username == body.username) ==>
      s.db == db && s.reply.failure.errorType == Some(UsernameTaken) && s.reply.failure.status == 409
    ensures s.reply.Ok? ==>
      var id := s.reply.value.userId;
      && id !in db.users && s.reply.value.sessionId !in db.tokens
      && s.db == db.(users := db.users[id := NewUserRow(db, body, passwordHash, env.now)],
                     tokens := db.tokens[s.reply.value.sessionId := RefreshRecord(env.token, id, env.deviceName,
                                           body.deviceType.GetOr(Desktop), env.now, SessionExpiry(env).value)])
    ensures s.reply.Err? && s.db != db ==>
      && SessionExpiry(env).None? && s.reply.failure.errorType.None? && s.reply.failure.status == 200
      && s.db.tokens == db.tokens && s.db == db.(users := s.db.users)
      && s.db.users == db.users[FreshKey(db.users) := NewUserRow(db, body, passwordHash, env.now)]
  {
    if FindUserByName(db.users, body.username).Some? then
      Step(db, Fail(UsernameTaken, 409, "username already taken"))
    else
      CreateAccount(db, body, passwordHash, env)
  }

  /** The account-creating half of registration: the user row is written first, then the
      session is issued for it. */
  ghost function CreateAccount(db: Db, body: RegisterBody, passwordHash: string, env: IssueEnv): (s: Step<Grant>)
    ensures s.reply.Err? <==> SessionExpiry(env).None?
    ensures s.reply.Ok? ==>
      var id := s.reply.value.userId;
      && id !in db.users && s.reply.value.sessionId !in db.tokens
      && s.db == db.(users := db.users[id := NewUserRow(db, body, passwordHash, env.now)],
                     tokens := db.tokens[s.reply.value.sessionId := RefreshRecord(env.token, id, env.deviceName,
                                           body.deviceType.GetOr(Desktop), env.now, SessionExpiry(env).value)])
    ensures s.reply.Err? ==>
      && s.reply.failure.errorType.None? && s.reply.failure.status == 200
      && s.db == db.(users := db.users[FreshKey(db.users) := NewUserRow(db, body, passwordHash, env.now)])
  {
    var id := FreshKey(db.users);
    GrantSession(db.(users := db.users[id := NewUserRow(db, body, passwordHash, env.now)]), id, body.deviceType, env)
  }

  /** The first account passes the ADMIN gate and every later account does not; both
      pass the USER gate. */
  lemma RegisteredRoles(db: Db, body: RegisterBody, passwordHash: string, env: IssueEnv)
    requires Register(db, body, passwordHash, env).reply.Ok?
    ensures var s := Register(db, body, passwordHash, env);
      var u := s.db.users[s.reply.value.userId];
      && (RoleGate(Some(u), OneRole(RoleName(Admin))).Ok? <==> |db.users| == 0)
      && RoleGate(Some(u), OneRole(RoleName(User))).Ok?
  {
    var s := Register(db, body, passwordHash, env);
    var u := s.db.users[s.reply.value.userId];
    var roles := InitialRoles(|db.users|);
    assert RoleNames(roles) == seq(|roles|, i requires 0 <= i < |roles| => RoleName(roles[i]));
    RoleGateOnJoinedRoles(u, roles, Admin);
    RoleGateOnJoinedRoles(u, roles, User);
  }

  datatype TotpBody = TotpBody(secret: string, verifyCode: string)

  /** POST /auth/totp (authenticated). Fails 403 when a secret is already set and
      TOTP_INVALID/401 when the code does not verify against the offered secret, changing
      nothing; otherwise stores the secret on the caller's row only. */
  function EnrolTotp(db: Db, credentials: Credentials, body: TotpBody, crypto: Crypto): (s: Step<()>)
    ensures s.reply.Err? ==> s.db == db
    ensures var a := IsAuthenticated(credentials.header, credentials.decode, db.users);
      && (a.Err? ==> s.reply == Err(a.failure))
      && (a.Ok? && Truthy(a.value.user.totpSecret) ==>
            s.reply == Fail(InsufficientPermissions, 403, "totp already enabled"))
      && (a.Ok? && !Truthy(a.value.user.totpSecret) && !crypto.totpAccepts(body.secret, body.verifyCode) ==>
            s.reply == Fail(TotpInvalid, 401, "invalid totp code"))
      && (a.Ok? && !Truthy(a.value.user.totpSecret) && crypto.totpAccepts(body.secret, body.verifyCode) ==>
            s.reply.Ok?)
    ensures s.reply.Ok? ==>
      var a := IsAuthenticated(credentials.header, credentials.decode, db.users);
      a.Ok? && var p := a.value;
      && !Truthy(p.user.totpSecret) && crypto.totpAccepts(body.secret, body.verifyCode)
      && s.db == db.(users := db.users[p.id := p.user.(totpSecret := Some(body.secret))])
  {
    match IsAuthenticated(credentials.header, credentials.decode, db.users)
    case Err(f) => Step(db, Err(f))
    case Ok(p) =>
      if Truthy(p.user.totpSecret) then Step(db, Fail(InsufficientPermissions, 403, "totp already enabled"))
      else if !crypto.totpAccepts(body.secret, body.verifyCode) then Step(db, Fail(TotpInvalid, 401, "invalid totp code"))
      else Step(db.(users := db.users[p.id := p.user.(totpSecret := Some(body.secret))]), Ok(()))
  }

  /** DELETE /auth/totp (authenticated). Fails 403 when no secret is set; otherwise
      clears the caller's secret and nothing else. */
  function DisenrolTotp(db: Db, credentials: Credentials): (s: Step<()>)
    ensures s.reply.Err? ==> s.db == db
    ensures var a := IsAuthenticated(credentials.header, credentials.decode, db.users);
      && (a.Err? ==> s.reply == Err(a.failure))
      && (a.Ok? && !Truthy(a.value.user.totpSecret) ==> s.reply == Fail(InsufficientPermissions, 403, "totp not enabled"))
      && (a.Ok? && Truthy(a.value.user.totpSecret) ==> s.reply.Ok?)
    ensures s.reply.Ok? ==>
      var a := IsAuthenticated(credentials.header, credentials.decode, db.users);
      a.Ok? && var p := a.value;
      && Truthy(p.user.totpSecret)
      && s.db == db.(users := db.users[p.id := p.user.(totpSecret := None)])
  {
    match IsAuthenticated(credentials.header, credentials.decode, db.users)
    case Err(f) => Step(db, Err(f))
    case Ok(p) =>
      if !Truthy(p.user.totpSecret) then Step(db, Fail(InsufficientPermissions, 403, "totp not enabled"))
      else Step(db.(users := db.users[p.id := p.user.(totpSecret := None)]), Ok(()))
  }

  /** Enrolling and then logging in without a code asks for one; with a code the TOTP
      check accepts, the login succeeds. */
  lemma EnrolThenLogin(db: Db, credentials: Credentials, body: TotpBody, crypto: Crypto,
                       login: LoginBody, env: IssueEnv)
    requires EnrolTotp(db, credentials, body, crypto).reply.Ok?
    requires body.secret != ""
    requires var p := IsAuthenticated(credentials.header, credentials.decode, db.users).value;
      p.user.username == login.username && crypto.passwordMatches(login.password, p.user.passwordHash)
    requires forall id :: id in db.users && db.users[id].username == login.username ==>
               id == IsAuthenticated(credentials.header, credentials.decode, db.users).value.id
    ensures var s := EnrolTotp(db, credentials, body, crypto);
      && (!Truthy(login.totpCode) ==> Login(s.db, login, crypto, env).reply == Fail(TotpRequired, 401, "totp code required"))
      && (Truthy(login.totpCode) && crypto.totpAccepts(body.secret, login.totpCode.value) ==>
            (Login(s.db, login, crypto, env).reply.Ok? <==> SessionExpiry(env).Some?))
  {
    var s := EnrolTotp(db, credentials, body, crypto);
    var p := IsAuthenticated(credentials.header, credentials.decode, db.users).value;
    var found := FindUserByName(s.db.users, login.username);
    assert p.id in s.db.users && s.db.users[p.id].username == login.username;
    assert found == Some(p.id);
  }

  /** Disenrolling lets the caller log in with the password alone again: with the
      password matching and the name their own, the login succeeds exactly when the
      session expiry is usable, whatever code is sent. */
  lemma DisenrolThenLogin(db: Db, credentials: Credentials, crypto: Crypto, login: LoginBody, env: IssueEnv)
    requires DisenrolTotp(db, credentials).reply.Ok?
    requires var p := IsAuthenticated(credentials.header, credentials.decode, db.users).value;
      p.user.username == login.username && crypto.passwordMatches(login.password, p.user.passwordHash)
    requires forall id :: id in db.users && db.users[id].username == login.username ==>
               id == IsAuthenticated(credentials.header, credentials.decode, db.users).value.id
    ensures Login(DisenrolTotp(db, credentials).db, login, crypto, env).reply.Ok? <==> SessionExpiry(env).Some?
  {
    var d := DisenrolTotp(db, credentials).db;
    var p := IsAuthenticated(credentials.header, credentials.decode, db.users).value;
    assert p.id in d.users && d.users[p.id].username == login.username;
    LoginWithoutSecondFactor(d, login, crypto, env);
  }
}

=== FILE: authentication.dfy ===
/** The request guards: bearer-token authentication, the media-token guard, and the
    role check. Token signatures are not modelled: decoding is an oracle from the token
    text to a decode outcome carrying the claims this code reads. */
module Authentication {
  import opened Types
  import opened Strings
  import opened Db
  import opened Failures

  /** The claims the guards and the refresh flow read: `jti` (the JWT ID, section 4.1.7
      of RFC 7519), `sub` (the subject, section 4.1.2), the `type` discriminator and the
      `mediaId` of a media token. Any of them may be missing. */
  datatype Claims = Claims(jti: Option<string>, sub: Option<string>, typ: Option<string>, mediaId: Option<string>)

  /** The outcome of verifying and decoding a token. */
  datatype Decoded = Valid(claims: Claims) | Expired | Invalid

  /** The Authorization header of a request and the decoder its token is checked with. */
  datatype Credentials = Credentials(header: Option<string>, decode: string -> Decoded)

  /** The authenticated user attached to the request. */
  datatype Principal = Principal(id: string, user: UserRow)

  /** A JavaScript string is truthy when present and non-empty. */
  predicate Truthy(s: Option<string>) {
    s.Some? && s.value != ""
  }

  /** The token part of the Authorization header: the header with the first occurrence of
      `Bearer ` removed (the bearer scheme of section 2.1 of RFC 6750); missing when the
      header is absent or nothing is left. */
  function BearerToken(header: Option<string>): (t: Option<string>)
    ensures t.Some? ==> header.Some? && t.value != ""
    ensures header.Some? && !Contains(header.value, "Bearer ") && header.value != "" ==> t == header
  {
    match header
    case None => None
    case Some(h) =>
      var t := ReplaceFirst(h, "Bearer ", "");
      if t == "" then None else Some(t)
  }

  /** A header `Bearer <t>` yields exactly `t`. */
  lemma BearerTokenOfScheme(t: string)
    requires t != ""
    ensures BearerToken(Some("Bearer " + t)) == Some(t)
  {
    var h := "Bearer " + t;
    assert h[0..7] == "Bearer ";
    assert IndexOfFrom(h, "Bearer ", 0) == Some(0);
    assert h[7..] == t;
    assert ReplaceFirst(h, "Bearer ", "") == h[..0] + "" + h[0 + |"Bearer "|..];
    assert ReplaceFirst(h, "Bearer ", "") == t;
  }

  /** `isAuthenticated`: resolves the bearer token into a principal. Every failure is a
      403: a missing token and any unusable token are INVALID_CREDENTIALS, an expired
      one ACCESS_TOKEN_EXPIRED. */
  function IsAuthenticated(header: Option<string>, decode: string -> Decoded,
                           users: map<string, UserRow>): (r: Reply<Principal>)
    ensures r.Ok? ==> r.value.id in users && users[r.value.id] == r.value.user
    ensures r.Err? ==> r.failure.status == 403
    ensures r.Err? ==> r.failure.errorType == Some(InvalidCredentials) || r.failure.errorType == Some(AccessTokenExpired)
  {
    match BearerToken(header)
    case None => Fail(InvalidCredentials, 403, "authorization header not found")
    case Some(token) =>
      match decode(token)
      case Expired => Fail(AccessTokenExpired, 403, "authorization token expired")
      case Invalid => Fail(InvalidCredentials, 403, "failed to decode authorization token")
      case Valid(c) =>
        if c.typ != Some("access") || !Truthy(c.sub) then
          Fail(InvalidCredentials, 403, "invalid authorization token")
        else if c.sub.value !in users then
          Fail(InvalidCredentials, 403, "failed to find user")
        else
          Ok(Principal(c.sub.value, users[c.sub.value]))
  }

  /** The guard admits exactly a present token that decodes to an access token whose
      subject is an existing user, and the principal is that user; the error kind tells an
      expired token apart from every other failure. */
  lemma IsAuthenticatedDecision(header: Option<string>, decode: string -> Decoded, users: map<string, UserRow>)
    ensures var r := IsAuthenticated(header, decode, users);
      var t := BearerToken(header);
      && (r.Ok? <==> t.Some? && decode(t.value).Valid? && decode(t.value).claims.typ == Some("access")
                     && Truthy(decode(t.value).claims.sub) && decode(t.value).claims.sub.value in users)
      && (r.Ok? ==> r.value.id == decode(t.value).claims.sub.value)
      && (r.Err? && r.failure.errorType == Some(AccessTokenExpired) <==> t.Some? && decode(t.value).Expired?)
  {
  }

  /** `media`: admits a request only with a present media token that decodes and names
      the route's media id; every failure is INVALID_CREDENTIALS with status 403. The
      token's type is not checked. */
  function MediaGuard(token: Option<string>, decode: string -> Decoded, mediaId: string): (r: Reply<()>)
    ensures r.Ok? <==> Truthy(token) && decode(token.value).Valid?
                       && decode(token.value).claims.mediaId == Some(mediaId)
    ensures r.Err? ==> r.failure.errorType == Some(InvalidCredentials) && r.failure.status == 403
  {
    if !Truthy(token) then Fail(InvalidCredentials, 403, "media token not found")
    else
      match decode(token.value)
      case Valid(c) =>
        if c.mediaId != Some(mediaId) then Fail(InvalidCredentials, 403, "invalid media token")
        else Ok(())
      case _ => Fail(InvalidCredentials, 403, "failed to decode authorization token")
  }

  /** The roles a gate accepts: a lone role name counts as a one-element list. */
  datatype RequiredRoles = OneRole(role: string) | AnyOf(roles: seq<string>)

  function Accepted(required: RequiredRoles): seq<string> {
    match required
    case OneRole(r) => [r]
    case AnyOf(rs) => rs
  }

  /** Some comma-separated entry of `roles` is accepted. */
  predicate HoldsAcceptedRole(roles: string, required: RequiredRoles) {
    var held := Split(roles, ',');
    exists i :: 0 <= i < |held| && held[i] in Accepted(required)
  }

  /** The check inside `hasRoles`: some comma-separated entry of the attached user's
      roles must be accepted, otherwise INSUFFICIENT_PERMISSIONS with status 403. */
  function RoleGate(user: Option<UserRow>, required: RequiredRoles): (r: Reply<()>)
    ensures r.Ok? <==> user.Some? && HoldsAcceptedRole(user.value.roles, required)
    ensures r.Err? ==> r.failure.errorType == Some(InsufficientPermissions) && r.failure.status == 403
  {
    if user.Some? && HoldsAcceptedRole(user.value.roles, required) then Ok(())
    else Fail(InsufficientPermissions, 403, "insufficient permissions")
  }

  /** `isAuthenticated` followed by the inner predicate of `hasRoles`: the route runs for
      the authenticated caller only when one of its roles is accepted. */
  function Authorize(credentials: Credentials, users: map<string, UserRow>, required: RequiredRoles): (r: Reply<Principal>)
    ensures r.Ok? <==> IsAuthenticated(credentials.header, credentials.decode, users).Ok?
                       && HoldsAcceptedRole(IsAuthenticated(credentials.header, credentials.decode, users).value.user.roles, required)
    ensures r.Ok? ==> r == IsAuthenticated(credentials.header, credentials.decode, users)
    ensures r.Err? ==> r.failure.status == 403
  {
    match IsAuthenticated(credentials.header, credentials.decode, users)
    case Err(f) => Err(f)
    case Ok(p) =>
      match RoleGate(Some(p.user), required)
      case Ok(_) => Ok(p)
      case Err(f) => Err(f)
  }

  /** A user whose stored roles are the join of `roles` passes the gate for `role` exactly
      when `role` is one of them. */
  lemma {:induction false} RoleGateOnJoinedRoles(u: UserRow, roles: seq<UserRole>, role: UserRole)
    requires |roles| >= 1
    requires u.roles == Join(seq(|roles|, i requires 0 <= i < |roles| => RoleName(roles[i])), ',')
    ensures RoleGate(Some(u), OneRole(RoleName(role))).Ok? <==> role in roles
  {
    var names := seq(|roles|, i requires 0 <= i < |roles| => RoleName(roles[i]));
    SplitJoin(names, ',');
    if role in roles {
      var i :| 0 <= i < |roles| && roles[i] == role;
      assert Split(u.roles, ',')[i] in Accepted(OneRole(RoleName(role)));
    } else {
      forall i | 0 <= i < |names| ensures names[i] !in Accepted(OneRole(RoleName(role))) {
        assert ParseRole(names[i]) == Some(roles[i]);
      }
    }
  }
}

=== FILE: cache.dfy ===
/** The process-wide key/value cache (`Cache<T, TKey>`). `set` with a falsy or missing
    value stores the key as its own value, so a slot holds either a value or an echo of
    its key. */
module Cache {
  import opened Types

  datatype Slot<K, V> = Held(value: V) | Echo(key: K)

  datatype Cache<K, V> = Cache(entries: map<K, Slot<K, V>>)

  /** `new Cache(initial)`. The class declares no constructor, so whatever is passed at
      construction is dropped and the cache starts empty. */
  function New<K, V>(initial: map<K, V>): (c: Cache<K, V>)
    ensures c.entries == map[]
  {
    Cache(map[])
  }

  /** A cache that starts out holding `initial`, as a constructor taking data would
      build it. */
  function NewPrimed<K, V>(initial: map<K, V>): (c: Cache<K, V>)
    ensures c.entries.Keys == initial.Keys
    ensures forall k :: k in initial ==> c.entries[k] == Held(initial[k])
  {
    Cache(map k | k in initial :: Held(initial[k]))
  }

  function Get<K, V>(c: Cache<K, V>, k: K): (r: Option<Slot<K, V>>)
    ensures r.Some? <==> k in c.entries
    ensures r.Some? ==> r.value == c.entries[k]
  {
    if k in c.entries then Some(c.entries[k]) else None
  }

  /** The live map itself, not a copy. */
  function GetAll<K, V>(c: Cache<K, V>): map<K, Slot<K, V>> {
    c.entries
  }

  /** `set(k, value)`: a truthy value is stored as given; a falsy or missing one stores
      the key in its place. `truthy` is JavaScript truthiness on the value type. */
  function Set<K, V>(c: Cache<K, V>, k: K, value: Option<V>, truthy: V -> bool): (r: Cache<K, V>)
    ensures r.entries.Keys == c.entries.Keys + {k}
    ensures forall other :: other in c.entries && other != k ==> r.entries[other] == c.entries[other]
    ensures value.Some? && truthy(value.value) ==> r.entries[k] == Held(value.value)
    ensures !(value.Some? && truthy(value.value)) ==> r.entries[k] == Echo(k)
  {
    if value.Some? && truthy(value.value) then Cache(c.entries[k := Held(value.value)])
    else Cache(c.entries[k := Echo(k)])
  }

  function Delete<K, V>(c: Cache<K, V>, k: K): (r: Cache<K, V>)
    ensures r.entries.Keys == c.entries.Keys - {k}
    ensures forall other :: other in r.entries ==> r.entries[other] == c.entries[other]
  {
    Cache(map other | other in c.entries && other != k :: c.entries[other])
  }

  /** `clear()`: every key the cache held reads absent afterwards. */
  function Clear<K, V>(c: Cache<K, V>): (r: Cache<K, V>)
    ensures r.entries == map[]
    ensures forall k :: k in c.entries ==> Get(r, k).None?
  {
    Cache(map[])
  }

  /** Reading a key back after setting it with a truthy value gives that value, and every
      other key reads as before. */
  lemma GetAfterSet<K, V>(c: Cache<K, V>, k: K, v: V, truthy: V -> bool, other: K)
    requires truthy(v)
    ensures Get(Set(c, k, Some(v), truthy), k) == Some(Held(v))
    ensures other != k ==> Get(Set(c, k, Some(v), truthy), other) == Get(c, other)
  {
  }

  /** Deleting a key makes it read as absent and leaves the others alone; clearing makes
      every key absent. */
  lemma GetAfterDelete<K, V>(c: Cache<K, V>, k: K, other: K)
    ensures Get(Delete(c, k), k).None?
    ensures other != k ==> Get(Delete(c, k), other) == Get(c, other)
    ensures Get(Clear(c), other).None?
  {
  }

  /** The argument given at construction is invisible: a key it holds reads as absent. */
  lemma NewDropsInitial<K, V>(initial: map<K, V>, k: K)
    requires k in initial
    ensures Get(New(initial), k).None?
    ensures Get(NewPrimed(initial), k) == Some(Held(initial[k]))
  {
  }
}

=== FILE: db.dfy ===
/** The database as in-memory tables: one map per table, keyed by primary id, plus the
    files as a map from path (relative to the working directory) to contents. Lookups by a column other than
    the key stand for `findFirst`, which returns some matching row. */
module Db {
  import opened Types
  import opened Failures
  import Paths

  datatype UserRow = UserRow(
    username: string,
    passwordHash: string,
    roles: string,              // comma-joined role names
    totpSecret: Option<string>,
    createdAt: int)

  /** One login session. */
  datatype RefreshRecord = RefreshRecord(
    token: string,              // the refresh JWT's `jti`
    userId: string,
    deviceName: string,
    deviceType: DeviceType,
    createdAt: int,
    expiresAt: int)

  datatype MediaRow = MediaRow(
    extension: string,
    kind: MediaType,
    mimeType: string,
    processing: bool,
    fileSize: Option<int>,
    duration: Option<int>)

  datatype VideoRow = VideoRow(
    title: string,
    description: Option<string>,
    tags: string,               // comma-joined
    sourceUrl: Option<string>,
    authorId: string,
    mediaId: string,
    thumbnailId: Option<string>)

  datatype Db = Db(
    users: map<string, UserRow>,
    tokens: map<string, RefreshRecord>,
    media: map<string, MediaRow>,
    videos: map<string, VideoRow>,
    files: map<string, seq<byte>>)

  /** A request handler's effect: the database afterwards and the reply. */
  datatype Step<+T> = Step(db: Db, reply: Reply<T>)

  /** An id as `randomUUID()` mints it: non-empty, with no '.' or '/'. */
  predicate PlainId(id: string) {
    id != "" && '.' !in id && '/' !in id
  }

  /** The name the routes give a media row's file: `<id>.<extension>`. */
  function LocalName(id: string, extension: string): string {
    id + "." + extension
  }

  /** The path of a media row's file: its name joined onto the media directory. */
  function FileName(id: string, extension: string): string {
    Paths.PathText(Paths.Resolve(LocalName(id, extension)))
  }

  /** The file of a media row lies directly in the media directory. Any other path
      resolves into a directory the upload routes never create, or names a directory. */
  predicate IsMediaFile(id: string, extension: string) {
    Paths.InMedia(Paths.Resolve(LocalName(id, extension)))
  }

  /** A minted id with a '/'-free extension names `data/media/<id>.<extension>`. */
  lemma PlainFileName(id: string, extension: string)
    requires PlainId(id) && '/' !in extension
    ensures FileName(id, extension) == "data/media/" + LocalName(id, extension)
    ensures IsMediaFile(id, extension)
  {
    PlainLocalName(id, extension);
    Paths.PlainNameResolves(LocalName(id, extension));
  }

  /** The local name of a minted id with a '/'-free extension is one plain segment. */
  lemma PlainLocalName(id: string, extension: string)
    requires PlainId(id) && '/' !in extension
    ensures Paths.PlainName(LocalName(id, extension))
  {
    var name := LocalName(id, extension);
    assert name[0] == id[0] && |name| >= 2;
    assert '/' !in name by {
      forall i | 0 <= i < |name|
        ensures name[i] != '/'
      {
        if i < |id| {
          assert name[i] == id[i];
        } else if i > |id| {
          assert name[i] == extension[i - |id| - 1];
        }
      }
    }
  }

  /** An upper bound on the lengths of a finite set of strings. */
  ghost function MaxLength(keys: set<string>): (n: nat)
    ensures forall k :: k in keys ==> |k| <= n
    decreases keys
  {
    if keys == {} then 0
    else
      var k :| k in keys;
      var m := MaxLength(keys - {k});
      if |k| > m then |k| else m
  }

  /** An id the database can assign to a new row: one no row of the table has. */
  ghost function FreshKey<V>(table: map<string, V>): (k: string)
    ensures k !in table
  {
    var long := seq(MaxLength(table.Keys) + 1, _ => 'x');
    assert long !in table;
    var k :| k !in table;
    k
  }

  /** `findFirst` on the user table by username. */
  ghost function FindUserByName(users: map<string, UserRow>, name: string): (r: Option<string>)
    ensures r.Some? ==> r.value in users && users[r.value].username == name
    ensures r.None? <==> forall id :: id in users ==> users[id].username != name
  {
    if exists id :: id in users && users[id].username == name then
      var id :| id in users && users[id].username == name;
      Some(id)
    else None
  }

  /** `findFirst({where: {token: jti}})` on the refresh-token table. A missing claim
      (`undefined`) leaves the filter out, so then any row matches. */
  ghost function FindByToken(tokens: map<string, RefreshRecord>, jti: Option<string>): (r: Option<string>)
    ensures r.Some? ==> r.value in tokens && (jti.Some? ==> tokens[r.value].token == jti.value)
    ensures r.None? <==> forall id :: id in tokens ==> jti.Some? && tokens[id].token != jti.value
  {
    if exists id :: id in tokens && (jti.None? || tokens[id].token == jti.value) then
      var id :| id in tokens && (jti.None? || tokens[id].token == jti.value);
      Some(id)
    else None
  }

  /** No two refresh records share a token. */
  ghost predicate TokensUnique(tokens: map<string, RefreshRecord>) {
    forall a, b :: a in tokens && b in tokens && tokens[a].token == tokens[b].token ==> a == b
  }
}

=== FILE: failures.dfy ===
/** How a request fails and how the failure reaches the client: `req.fail` records an
    error type and a status on the response and throws; the top-level error handler
    turns whatever was thrown into the uniform `{error: {type, code, message, ...}}`
    envelope. */
module Failures {
  import opened Types

  /** What a failing handler leaves behind: the error type recorded on the response
      (if any), the response's status code at the time of the throw, and the thrown
      message. */
  datatype Failure = Failure(errorType: Option<ErrorType>, status: int, message: string)

  /** A handler either answers normally or throws. */
  datatype Reply<+T> = Ok(value: T) | Err(failure: Failure)

  /** `req.fail(t, status, message)`: never returns normally. */
  function Fail<T>(t: ErrorType, status: int, message: string): (r: Reply<T>)
    ensures r.Err? && r.failure == Failure(Some(t), status, message)
  {
    Err(Failure(Some(t), status, message))
  }

  /** A bare `throw new Error(message)` after the handler set only `res.statusCode`
      (200 when the handler did not touch it). */
  function Throw<T>(status: int, message: string): (r: Reply<T>)
    ensures r.Err? && r.failure.errorType.None?
  {
    Err(Failure(None, status, message))
  }

  /** The body sent for a failed request. */
  datatype Envelope = Envelope(
    errorType: ErrorType,
    code: int,
    message: string,
    details: map<string, string>,
    trace: Option<string>)

  datatype ErrorResponse = ErrorResponse(status: int, body: Envelope)

  /** The top-level error handler. `details` is `res.errorDetails`, `stack` the thrown
      error's stack and `nodeEnv` the `NODE_ENV` variable. */
  function HandleError(f: Failure, details: Option<map<string, string>>, stack: string,
                       nodeEnv: Option<string>): (r: ErrorResponse)
    ensures r.status == r.body.code && r.body.code != 200
    ensures f.status != 200 ==> r.body.code == f.status
    ensures r.body.message == f.message
    ensures f.errorType.Some? ==> r.body.errorType == f.errorType.value
    ensures r.body.trace.Some? <==> nodeEnv != Some("production")
    ensures details.None? ==> r.body.details == map[]
  {
    var code := if f.status == 200 then 500 else f.status;
    var body := Envelope(f.errorType.GetOr(Unknown), code, f.message, details.GetOr(map[]),
                         if nodeEnv != Some("production") then Some(stack) else None);
    ErrorResponse(code, body)
  }

  /** The catch-all handler for unmatched routes: status 404, then throw. */
  function NotFoundHandler<T>(): (r: Reply<T>)
    ensures r.Err? && r.failure.status == 404
  {
    Throw(404, "not found")
  }

  /** `req.fail(t, s, m)` followed by the error handler produces the envelope
      `{type: t, code: s, message: m}`, with 500 in place of a status of 200. */
  lemma FailThenHandle(t: ErrorType, s: int, m: string, stack: string, env: Option<string>)
    ensures var e := HandleError(Fail<()>(t, s, m).failure, None, stack, env).body;
      e.errorType == t && e.code == (if s == 200 then 500 else s) && e.message == m
      && e.details == map[]
  {
  }

  /** An unmatched route is answered 404 with the UNKNOWN error type. */
  lemma NotFoundEnvelope(stack: string, env: Option<string>)
    ensures var r := HandleError(NotFoundHandler<()>().failure, None, stack, env);
      r.status == 404 && r.body.errorType == Unknown && r.body.message == "not found"
  {
  }

  /** A handler that throws without touching the status is reported as a 500 of
      unknown type. */
  lemma BareThrowIsInternal(m: string, stack: string, env: Option<string>)
    ensures var r := HandleError(Throw<()>(200, m).failure, None, stack, env);
      r.status == 500 && r.body.errorType == Unknown && r.body.message == m
  {
  }
}

=== FILE: formatter.dfy ===
/** `Formatter.seconds` of the web client: a duration in whole seconds as a clock,
    `m:ss` below an hour and `h:mm:ss` from an hour up. */
module Formatter {
  import opened Types
  import opened Strings

  /** The three clock fields of `n` seconds. */
  function Hours(n: nat): nat { n / 3600 }
  function Minutes(n: nat): nat { (n % 3600) / 60 }
  function Secs(n: nat): nat { n % 60 }

  lemma FieldsRecompose(n: nat)
    ensures Minutes(n) < 60 && Secs(n) < 60
    ensures n == Hours(n) * 3600 + Minutes(n) * 60 + Secs(n)
  {
    var r := n % 3600;
    assert n == Hours(n) * 3600 + r;
    assert r == Minutes(n) * 60 + r % 60;
    assert r % 60 == Secs(n) by {
      assert n == (Hours(n) * 60) * 60 + r;
    }
  }

  lemma NatToStringShort(v: nat)
    ensures v < 100 ==> |NatToString(v)| <= 2
  {
    if 10 <= v < 100 {
      assert NatToString(v) == NatToString(v / 10) + [DigitChar(v % 10)];
    }
  }

  /** A field printed with at least two digits. */
  function TwoDigits(v: nat): (t: string)
    ensures |t| >= 2 && forall i :: 0 <= i < |t| ==> IsDigit(t[i])
    ensures v < 100 ==> |t| == 2
  {
    NatToStringShort(v);
    PadStart(NatToString(v), 2, '0')
  }

  /** The hours field with its colon, present only for a positive hour count. */
  function HoursField(h: nat): string {
    if h > 0 then NatToString(h) + ":" else ""
  }

  /** The minutes field: "0" when zero, unless `padMinutes` asks for two digits after an
      hours field; otherwise at least two digits. */
  function MinutesField(h: nat, m: nat, padMinutes: bool): string {
    if m > 0 || (padMinutes && h > 0) then TwoDigits(m) else "0"
  }

  /** The clock for the fields `h`, `m`, `s`. */
  function Clock(h: nat, m: nat, s: nat, padMinutes: bool): string {
    HoursField(h) + MinutesField(h, m, padMinutes) + ":" + TwoDigits(s)
  }

  lemma ClockColons(h: nat, m: nat, s: nat, padMinutes: bool)
    ensures Count(Clock(h, m, s, padMinutes), ':') == if h > 0 then 2 else 1
  {
    CountDigitsAndColons(HoursField(h), MinutesField(h, m, padMinutes), TwoDigits(s), h);
  }

  lemma ClockShape(h: nat, m: nat, s: nat, padMinutes: bool)
    ensures StartsWith(Clock(h, m, s, padMinutes), HoursField(h) + MinutesField(h, m, padMinutes) + ":")
    ensures s < 100 ==> var t := Clock(h, m, s, padMinutes); |t| >= 3 && t[|t| - 3..] == ":" + TwoDigits(s)
  {
    var hm, ss := HoursField(h) + MinutesField(h, m, padMinutes), TwoDigits(s);
    FieldAfterColon(hm, ss);
  }

  lemma FieldAfterColon(head: string, field: string)
    ensures StartsWith(head + ":" + field, head + ":")
    ensures |field| == 2 ==> var t := head + ":" + field; |t| >= 3 && t[|t| - 3..] == ":" + field
  {
    var t := head + ":" + field;
    assert t[..|head| + 1] == head + ":";
    if |field| == 2 {
      assert t[|t| - 3..] == [t[|t| - 3]] + field;
    }
  }

  /** `Formatter.seconds(n)` as written: minutes print as "0" whenever they are zero,
      even after an hours field. Below an hour there is one ':', from an hour up two, and
      the seconds always come last with two digits. */
  function SecondsAsWritten(n: nat): (t: string)
    ensures Count(t, ':') == if Hours(n) > 0 then 2 else 1
    ensures Minutes(n) == 0 ==> StartsWith(t, HoursField(Hours(n)) + "0:")
    ensures Minutes(n) > 0 ==> StartsWith(t, HoursField(Hours(n)) + TwoDigits(Minutes(n)) + ":")
    ensures |t| >= 3 && t[|t| - 3..] == ":" + TwoDigits(Secs(n))
  {
    var h, m, s := Hours(n), Minutes(n), Secs(n);
    ClockColons(h, m, s, false);
    ClockShape(h, m, s, false);
    Clock(h, m, s, false)
  }

  /** One hour and five seconds prints as "1:0:05": the minutes lose their second digit. */
  lemma HourWithoutMinutesAsWritten()
    ensures SecondsAsWritten(3605) == "1:0:05"
  {
    assert Hours(3605) == 1 && Minutes(3605) == 0 && Secs(3605) == 5;
    assert SecondsAsWritten(3605) == Clock(1, 0, 5, false);
    assert HoursField(1) == "1:" by {
      assert NatToString(1) == "1";
    }
    assert MinutesField(1, 0, false) == "0";
    assert TwoDigits(5) == "05" by {
      assert NatToString(5) == "5";
    }
  }

  /** `Formatter.seconds(n)` with the minutes padded whenever an hours field precedes
      them: from an hour up the clock is always `h:mm:ss`; below an hour it is the
      as-written clock. */
  function Seconds(n: nat): (t: string)
    ensures Count(t, ':') == if Hours(n) > 0 then 2 else 1
    ensures Hours(n) > 0 ==> StartsWith(t, NatToString(Hours(n)) + ":" + TwoDigits(Minutes(n)) + ":")
    ensures |t| >= 3 && t[|t| - 3..] == ":" + TwoDigits(Secs(n))
    ensures Hours(n) == 0 ==> t == SecondsAsWritten(n)
  {
    FieldsRecompose(n);
    var h, m, s := Hours(n), Minutes(n), Secs(n);
    ClockColons(h, m, s, true);
    ClockShape(h, m, s, true);
    Clock(h, m, s, true)
  }

  lemma {:induction false} CountAppend(a: string, b: string, c: char)
    ensures Count(a + b, c) == Count(a, c) + Count(b, c)
    decreases |a|
  {
    if |a| > 0 {
      assert (a + b)[0] == a[0];
      assert (a + b)[1..] == a[1..] + b;
      CountAppend(a[1..], b, c);
    } else {
      assert a + b == b;
    }
  }

  lemma {:induction false} CountNone(s: string, c: char)
    requires c !in s
    ensures Count(s, c) == 0
    decreases |s|
  {
    if |s| > 0 {
      CountNone(s[1..], c);
    }
  }

  lemma CountDigitsAndColons(hours: string, minutes: string, secs: string, h: nat)
    requires hours == (if h > 0 then NatToString(h) + ":" else "")
    requires forall i :: 0 <= i < |minutes| ==> IsDigit(minutes[i])
    requires forall i :: 0 <= i < |secs| ==> IsDigit(secs[i])
    ensures Count(hours + minutes + ":" + secs, ':') == if h > 0 then 2 else 1
  {
    CountNone(minutes, ':');
    CountNone(secs, ':');
    CountAroundColon(hours, minutes, secs);
    if h > 0 {
      CountNone(NatToString(h), ':');
      CountAppend(NatToString(h), ":", ':');
      assert Count(":", ':') == 1;
    }
  }

  /** Fields without a colon add none to the one between them. */
  lemma CountAroundColon(hours: string, minutes: string, secs: string)
    requires Count(minutes, ':') == 0 && Count(secs, ':') == 0
    ensures Count(hours + minutes + ":" + secs, ':') == Count(hours, ':') + 1
  {
    assert hours + minutes + ":" + secs == (hours + minutes) + (":" + secs);
    CountAppend(hours + minutes, ":" + secs, ':');
    CountAppend(hours, minutes, ':');
    CountAppend(":", secs, ':');
    assert Count(":", ':') == 1;
  }

  // ---------------------------------------------------------------------------
  // reading a clock back

  predicate AllDigits(s: string) {
    forall i :: 0 <= i < |s| ==> IsDigit(s[i])
  }

  /** The seconds a `m:ss` or `h:mm:ss` clock stands for. */
  function ReadClock(t: string): Option<nat> {
    ReadFields(Split(t, ':'))
  }

  /** The seconds the colon-separated fields of a clock stand for. */
  function ReadFields(parts: seq<string>): Option<nat> {
    if |parts| == 2 && AllDigits(parts[0]) && AllDigits(parts[1]) then
      Some(DecimalValue(parts[0]) * 60 + DecimalValue(parts[1]))
    else if |parts| == 3 && AllDigits(parts[0]) && AllDigits(parts[1]) && AllDigits(parts[2]) then
      Some(DecimalValue(parts[0]) * 3600 + DecimalValue(parts[1]) * 60 + DecimalValue(parts[2]))
    else None
  }

  lemma {:induction false} LeadingZero(ds: string)
    requires AllDigits(ds)
    ensures AllDigits("0" + ds) && DecimalValue("0" + ds) == DecimalValue(ds)
    decreases |ds|
  {
    if |ds| > 0 {
      var z := "0" + ds;
      assert z[..|z| - 1] == "0" + ds[..|ds| - 1];
      LeadingZero(ds[..|ds| - 1]);
    }
  }

  lemma TwoDigitsValue(v: nat)
    ensures AllDigits(TwoDigits(v)) && DecimalValue(TwoDigits(v)) == v
  {
    DecimalValueOfNatToString(v);
    if |NatToString(v)| < 2 {
      assert TwoDigits(v) == "0" + NatToString(v);
      LeadingZero(NatToString(v));
    }
  }

  lemma DigitsLackColon(ds: string)
    requires AllDigits(ds)
    ensures ':' !in ds
  {
  }

  lemma SplitTwo(mm: string, ss: string)
    requires ':' !in mm && ':' !in ss
    ensures Split(mm + ":" + ss, ':') == [mm, ss]
  {
    SplitWithoutSeparator(ss, ':');
    SplitAfterPiece(mm, ':', ss);
  }

  lemma SplitThree(hh: string, mm: string, ss: string)
    requires ':' !in hh && ':' !in mm && ':' !in ss
    ensures Split(hh + ":" + mm + ":" + ss, ':') == [hh, mm, ss]
  {
    var tail := mm + ":" + ss;
    ColonAfterHours(hh, mm, ss);
    SplitTwo(mm, ss);
    SplitAfterPiece(hh, ':', tail);
  }

  lemma ColonAfterHours(hh: string, mm: string, ss: string)
    ensures hh + ":" + mm + ":" + ss == hh + [':'] + (mm + ":" + ss)
  {
    assert ":" == [':'];
  }

  lemma ReadTwoFields(mm: string, ss: string, n: nat)
    requires AllDigits(mm) && AllDigits(ss)
    requires n == DecimalValue(mm) * 60 + DecimalValue(ss)
    ensures ReadClock(mm + ":" + ss) == Some(n)
  {
    DigitsLackColon(mm);
    DigitsLackColon(ss);
    SplitTwo(mm, ss);
    ReadTwo(mm, ss, n);
  }

  lemma ReadTwo(mm: string, ss: string, n: nat)
    requires AllDigits(mm) && AllDigits(ss)
    requires n == DecimalValue(mm) * 60 + DecimalValue(ss)
    ensures ReadFields([mm, ss]) == Some(n)
  {
  }

  lemma ReadThree(hh: string, mm: string, ss: string, n: nat)
    requires AllDigits(hh) && AllDigits(mm) && AllDigits(ss)
    requires n == DecimalValue(hh) * 3600 + DecimalValue(mm) * 60 + DecimalValue(ss)
    ensures ReadFields([hh, mm, ss]) == Some(n)
  {
    var parts := [hh, mm, ss];
    assert |parts| == 3 && parts[0] == hh && parts[1] == mm && parts[2] == ss;
  }

  lemma ReadThreeFields(hh: string, mm: string, ss: string, n: nat)
    requires AllDigits(hh) && AllDigits(mm) && AllDigits(ss)
    requires n == DecimalValue(hh) * 3600 + DecimalValue(mm) * 60 + DecimalValue(ss)
    ensures ReadClock(hh + ":" + mm + ":" + ss) == Some(n)
  {
    DigitsLackColon(hh);
    DigitsLackColon(mm);
    DigitsLackColon(ss);
    SplitThree(hh, mm, ss);
    ReadThree(hh, mm, ss, n);
  }

  lemma MinutesFieldValue(h: nat, m: nat, padMinutes: bool)
    ensures AllDigits(MinutesField(h, m, padMinutes)) && DecimalValue(MinutesField(h, m, padMinutes)) == m
  {
    if m > 0 || (padMinutes && h > 0) {
      TwoDigitsValue(m);
    } else {
      assert DecimalValue("0") == DecimalValue("") * 10 + 0;
    }
  }

  lemma ClockFields(h: nat, m: nat, s: nat, padMinutes: bool)
    ensures h > 0 ==> Clock(h, m, s, padMinutes) == NatToString(h) + ":" + MinutesField(h, m, padMinutes) + ":" + TwoDigits(s)
    ensures h == 0 ==> Clock(h, m, s, padMinutes) == MinutesField(h, m, padMinutes) + ":" + TwoDigits(s)
  {
    var mm, ss := MinutesField(h, m, padMinutes), TwoDigits(s);
    if h == 0 {
      assert HoursField(h) + mm == mm;
    }
  }

  lemma ClockWithHoursReadBack(h: nat, m: nat, s: nat, padMinutes: bool, n: nat)
    requires h > 0 && n == h * 3600 + m * 60 + s
    ensures ReadClock(Clock(h, m, s, padMinutes)) == Some(n)
  {
    var hh, mm, ss := NatToString(h), MinutesField(h, m, padMinutes), TwoDigits(s);
    MinutesFieldValue(h, m, padMinutes);
    TwoDigitsValue(s);
    DecimalValueOfNatToString(h);
    ClockFields(h, m, s, padMinutes);
    ReadThreeFields(hh, mm, ss, n);
  }

  lemma ClockWithoutHoursReadBack(h: nat, m: nat, s: nat, padMinutes: bool, n: nat)
    requires h == 0 && n == h * 3600 + m * 60 + s
    ensures ReadClock(Clock(h, m, s, padMinutes)) == Some(n)
  {
    var mm, ss := MinutesField(h, m, padMinutes), TwoDigits(s);
    MinutesFieldValue(h, m, padMinutes);
    TwoDigitsValue(s);
    ClockFields(h, m, s, padMinutes);
    ReadTwoFields(mm, ss, n);
  }

  /** A clock reads back as the total its fields stand for: `h` hours, `m` minutes and
      `s` seconds. */
  lemma ClockReadBack(h: nat, m: nat, s: nat, padMinutes: bool, n: nat)
    requires n == h * 3600 + m * 60 + s
    ensures ReadClock(Clock(h, m, s, padMinutes)) == Some(n)
  {
    if h > 0 {
      ClockWithHoursReadBack(h, m, s, padMinutes, n);
    } else {
      ClockWithoutHoursReadBack(h, m, s, padMinutes, n);
    }
  }

  /** The clock reads back as the duration it was printed from. */
  lemma SecondsReadBack(n: nat)
    ensures ReadClock(Seconds(n)) == Some(n)
  {
    var h, m, s := Hours(n), Minutes(n), Secs(n);
    FieldsRecompose(n);
    ClockReadBack(h, m, s, true, n);
    assert Seconds(n) == Clock(h, m, s, true);
  }
}

=== FILE: generators.dfy ===
/** `Generators.uid` of the shared utilities package: a string of random alphanumeric
    characters. `Math.random()` is an oracle `pick(i, n)` giving the index, in `[0, n)`,
    drawn for the `i`-th character from an alphabet of `n` characters. */
module Generators {

  /** The 62-character alphabet: upper-case letters, lower-case letters, digits. */
  const Alphanumeric: string := "ABCDEFGHIJKLMNOPQRSTUVWXYZabcdefghijklmnopqrstuvwxyz0123456789"

  const DefaultLength := 16

  /** `pick(i, n)` is an index into an alphabet of `n > 0` characters. */
  ghost predicate PicksInRange(pick: (nat, nat) -> nat) {
    forall i, n :: n > 0 ==> pick(i, n) < n
  }

  /** The characters drawn for positions `from` up to `length`. */
  function Draw(from: nat, length: nat, pick: (nat, nat) -> nat): (r: string)
    requires from <= length
    requires PicksInRange(pick)
    ensures |r| == length - from
    ensures forall i :: 0 <= i < |r| ==> r[i] == Alphanumeric[pick(from + i, 62)]
    decreases length - from
  {
    if from == length then "" else [Alphanumeric[pick(from, 62)]] + Draw(from + 1, length, pick)
  }

  /** `Generators.uid(length)`: `Array.from({length})` makes a negative length 0. */
  function Uid(length: int, pick: (nat, nat) -> nat): (r: string)
    requires PicksInRange(pick)
    ensures |r| == if length < 0 then 0 else length
    ensures forall i :: 0 <= i < |r| ==> r[i] in Alphanumeric
    ensures length <= 0 ==> r == ""
  {
    Draw(0, if length < 0 then 0 else length, pick)
  }

  /** Called with no argument, `uid` gives 16 characters drawn from 62. */
  lemma DefaultUid(pick: (nat, nat) -> nat)
    requires PicksInRange(pick)
    ensures |Uid(DefaultLength, pick)| == 16 && |Alphanumeric| == 62
  {
  }
}

=== FILE: key_service.dfy ===
/** The RSA key pair used to sign and verify tokens: each half is served from a
    process-wide cache, else read from its file under `keys/`, else a new pair is
    generated, written to both files and cached. Key generation is an oracle. */
module KeyService {
  import opened Types
  import opened Authentication

  const PublicKeyPath := "public.pem"
  const PrivateKeyPath := "private.pem"

  /** The two cached halves and the `keys/` directory. */
  datatype KeyState = KeyState(cachedPublic: Option<string>, cachedPrivate: Option<string>, files: map<string, string>)

  /** What `generateKeyPairSync` produced. */
  datatype KeyPair = KeyPair(publicKey: string, privateKey: string)

  /** A getter's answer and the state it leaves. */
  datatype Served = Served(state: KeyState, key: string)

  /** `loadKeyFromFile`: the file's text, or nothing when reading throws. An empty file
      reads as the empty string, which the getters treat as missing. */
  function LoadKey(files: map<string, string>, path: string): Option<string> {
    if path in files then Some(files[path]) else None
  }

  /** `saveKeys`: both files are overwritten and both halves cached. */
  function SaveKeys(st: KeyState, pair: KeyPair): (r: KeyState)
    ensures r.files.Keys == st.files.Keys + {PublicKeyPath, PrivateKeyPath}
    ensures r.files[PublicKeyPath] == pair.publicKey && r.files[PrivateKeyPath] == pair.privateKey
    ensures forall p :: p in st.files && p != PublicKeyPath && p != PrivateKeyPath ==> r.files[p] == st.files[p]
    ensures r.cachedPublic == Some(pair.publicKey) && r.cachedPrivate == Some(pair.privateKey)
  {
    KeyState(Some(pair.publicKey), Some(pair.privateKey),
             st.files[PublicKeyPath := pair.publicKey][PrivateKeyPath := pair.privateKey])
  }

  /** `getPublicKey`: a non-empty cached key is returned with nothing read or written; else
      a non-empty key file is cached and returned; else `generated` is saved and its
      public half returned. */
  function GetPublicKey(st: KeyState, generated: KeyPair): (r: Served)
    ensures Truthy(st.cachedPublic) ==> r == Served(st, st.cachedPublic.value)
    ensures !Truthy(st.cachedPublic) && Truthy(LoadKey(st.files, PublicKeyPath)) ==>
      r == Served(st.(cachedPublic := Some(st.files[PublicKeyPath])), st.files[PublicKeyPath])
    ensures !Truthy(st.cachedPublic) && !Truthy(LoadKey(st.files, PublicKeyPath)) ==>
      r == Served(SaveKeys(st, generated), generated.publicKey)
  {
    if Truthy(st.cachedPublic) then Served(st, st.cachedPublic.value)
    else
      var loaded := LoadKey(st.files, PublicKeyPath);
      if Truthy(loaded) then Served(st.(cachedPublic := loaded), loaded.value)
      else Served(SaveKeys(st, generated), generated.publicKey)
  }

  /** `getPrivateKey`, the mirror image of `GetPublicKey`. */
  function GetPrivateKey(st: KeyState, generated: KeyPair): (r: Served)
    ensures Truthy(st.cachedPrivate) ==> r == Served(st, st.cachedPrivate.value)
    ensures !Truthy(st.cachedPrivate) && Truthy(LoadKey(st.files, PrivateKeyPath)) ==>
      r == Served(st.(cachedPrivate := Some(st.files[PrivateKeyPath])), st.files[PrivateKeyPath])
    ensures !Truthy(st.cachedPrivate) && !Truthy(LoadKey(st.files, PrivateKeyPath)) ==>
      r == Served(SaveKeys(st, generated), generated.privateKey)
  {
    if Truthy(st.cachedPrivate) then Served(st, st.cachedPrivate.value)
    else
      var loaded := LoadKey(st.files, PrivateKeyPath);
      if Truthy(loaded) then Served(st.(cachedPrivate := loaded), loaded.value)
      else Served(SaveKeys(st, generated), generated.privateKey)
  }

  /** Generated keys are PEM text, never empty. */
  predicate NonEmptyPair(pair: KeyPair) {
    pair.publicKey != "" && pair.privateKey != ""
  }

  /** Once a getter has answered, asking it again answers the same key and changes
      nothing, whatever a second generation would have produced. */
  lemma GettersAreStable(st: KeyState, generated: KeyPair, again: KeyPair)
    requires NonEmptyPair(generated)
    ensures var first := GetPublicKey(st, generated);
      first.key != "" ==> GetPublicKey(first.state, again) == first
    ensures var first := GetPrivateKey(st, generated);
      first.key != "" ==> GetPrivateKey(first.state, again) == first
  {
  }

  /** When neither file holds a key, the first getter generates, and the other getter
      then serves the other half of the same pair without generating again. */
  lemma FirstUseServesOnePair(st: KeyState, generated: KeyPair, again: KeyPair)
    requires NonEmptyPair(generated)
    requires !Truthy(st.cachedPublic) && !Truthy(st.cachedPrivate)
    requires !Truthy(LoadKey(st.files, PublicKeyPath))
    ensures var p := GetPublicKey(st, generated);
      var q := GetPrivateKey(p.state, again);
      KeyPair(p.key, q.key) == generated && q.state == p.state
    ensures var q := GetPrivateKey(st, generated);
      var p := GetPublicKey(q.state, again);
      !Truthy(LoadKey(st.files, PrivateKeyPath)) ==> KeyPair(p.key, q.key) == generated && p.state == q.state
  {
  }

  /** Generation by the private-key getter overwrites an existing public key file too:
      after the public half was read from its file, a missing private file replaces it,
      so the public key served before is not the partner of the private key served now. */
  lemma GenerationOverwritesBoth(st: KeyState, generated: KeyPair, again: KeyPair)
    requires NonEmptyPair(generated)
    requires !Truthy(st.cachedPublic) && !Truthy(st.cachedPrivate)
    requires Truthy(LoadKey(st.files, PublicKeyPath)) && !Truthy(LoadKey(st.files, PrivateKeyPath))
    requires generated.publicKey != st.files[PublicKeyPath]
    ensures var p := GetPublicKey(st, again);
      var q := GetPrivateKey(p.state, generated);
      && p.key == st.files[PublicKeyPath]
      && q.key == generated.privateKey
      && q.state.files[PublicKeyPath] == generated.publicKey != p.key
      && GetPublicKey(q.state, again).key == generated.publicKey
  {
  }
}

=== FILE: logger.dfy ===
/** The backend's console logger: every line starts with the resource name cut or padded
    to ten characters in square brackets, and a writable stream forwards non-blank chunks
    to it. Console output is modelled as the printed line; values are already strings. */
module Logger {
  import opened Types
  import opened Strings

  const NameWidth := 10

  /** `resource.slice(0, 10).padEnd(10, ' ')`. */
  function PaddedName(resource: string): (name: string)
    ensures |name| == NameWidth
    ensures |resource| >= NameWidth ==> name == resource[..NameWidth]
    ensures |resource| < NameWidth ==>
      name[..|resource|] == resource && forall i :: |resource| <= i < NameWidth ==> name[i] == ' '
  {
    var cut := if |resource| <= NameWidth then resource else resource[..NameWidth];
    PadEnd(cut, NameWidth, ' ')
  }

  /** `[<name>]`. */
  function Prefix(resource: string): (p: string)
    ensures |p| == NameWidth + 2 && p[0] == '[' && p[NameWidth + 1] == ']'
    ensures p[1..NameWidth + 1] == PaddedName(resource)
  {
    "[" + PaddedName(resource) + "]"
  }

  /** `log(resource, ...args)`: `console.log` prints its arguments separated by spaces. */
  function Log(resource: string, args: seq<string>): (line: string)
    ensures StartsWith(line, Prefix(resource))
    ensures args == [] ==> line == Prefix(resource)
  {
    Join([Prefix(resource)] + args, ' ')
  }

  /** A prefix `console.log` prints as it is even when arguments follow: with a `%` in it,
      Node would read the prefix as a `util.format` template. */
  predicate PlainName(resource: string) {
    '%' !in PaddedName(resource)
  }

  /** The one resource the backend logs under, `webserver`, is plain: its lines are the
      space-joined prefix and arguments that `Log` describes. */
  lemma WebserverNameIsPlain()
    ensures PaddedName("webserver") == "webserver "
    ensures PlainName("webserver")
  {
  }

  /** Logging the same arguments under two resources that agree on their first ten
      characters prints the same line. */
  lemma LongNamesShareAPrefix(a: string, b: string, args: seq<string>)
    requires |a| >= NameWidth && |b| >= NameWidth && a[..NameWidth] == b[..NameWidth]
    ensures Log(a, args) == Log(b, args)
  {
  }

  /** `createLogger(resource)`: a function that logs its arguments under `resource`. */
  function CreateLogger(resource: string): (logger: seq<string> -> string)
    ensures forall args :: logger(args) == Log(resource, args)
  {
    args => Log(resource, args)
  }

  /** What one `_write` does: the line printed, if any, and how often the callback ran. */
  datatype Written = Written(printed: Option<string>, callbacks: nat)

  /** `LoggerStream._write`: the chunk is trimmed and logged when something is left; the
      callback runs once either way. */
  function Write(resource: string, chunk: string): (w: Written)
    ensures w.callbacks == 1
    ensures w.printed.Some? <==> !AllSpace(chunk)
    ensures w.printed.Some? ==> w.printed.value == Log(resource, [Trim(chunk)])
  {
    TrimEmptyIffAllSpace(chunk);
    if |Trim(chunk)| > 0 then Written(Some(Log(resource, [Trim(chunk)])), 1) else Written(None, 1)
  }
}

=== FILE: media.dfy ===
/** GET /media/:mediaId behind the media-token guard: a byte-range response in the sense
    of RFC 7233 (206 Partial Content with Content-Range, section 4.1; 416 Range Not
    Satisfiable with an unsatisfied-range Content-Range, section 4.4). The Range header
    parser is an oracle. */
module MediaRoute {
  import opened Types
  import opened Strings
  import opened Db
  import opened Failures
  import opened Authentication

  /** One inclusive byte range. */
  datatype ByteRange = ByteRange(start: int, end: int)

  /** The parser's answer: -1 (unsatisfiable), -2 (malformed), or a unit and ranges. */
  datatype RangeResult = Unsatisfiable | Malformed | Ranges(unit: string, ranges: seq<ByteRange>)

  /** The parser only returns ranges inside the file. */
  predicate InsideFile(r: RangeResult, size: int) {
    r.Ranges? ==> forall i :: 0 <= i < |r.ranges| ==> 0 <= r.ranges[i].start <= r.ranges[i].end < size
  }

  ghost predicate ParserInsideFile(parse: (int, string) -> RangeResult) {
    forall size, header :: InsideFile(parse(size, header), size)
  }

  /** What is sent: 206 with its headers and the bytes, or 416 with only a Content-Range. */
  datatype MediaResponse =
    | Partial(contentType: string, contentLength: int, contentRange: string, body: seq<byte>)
    | NotSatisfiable(contentRange: string)
  {
    function Status(): int {
      if Partial? then 206 else 416
    }
  }

  /** `bytes <start>-<end>/<size>`. */
  function ContentRange(start: nat, end: nat, size: nat): string {
    "bytes " + NatToString(start) + "-" + NatToString(end) + "/" + NatToString(size)
  }

  /** `bytes *\/<size>`. */
  function UnsatisfiedRange(size: nat): string {
    "bytes */" + NatToString(size)
  }

  /** The Range header used: the request's, or `bytes=0-` when it is absent or empty. */
  function RangeHeader(header: Option<string>): string {
    if Truthy(header) then header.value else "bytes=0-"
  }

  /** The response for a file of the given contents, once the guard and the lookup passed. */
  function Respond(mimeType: string, file: seq<byte>, header: Option<string>,
                   parse: (int, string) -> RangeResult): (r: MediaResponse)
    requires InsideFile(parse(|file|, RangeHeader(header)), |file|)
    ensures var p := parse(|file|, RangeHeader(header));
      r.Partial? <==> p.Ranges? && p.unit == "bytes" && |p.ranges| == 1
    ensures r.NotSatisfiable? ==> r.contentRange == UnsatisfiedRange(|file|)
    ensures r.Partial? ==>
      var g := parse(|file|, RangeHeader(header)).ranges[0];
      && r.contentType == mimeType
      && r.contentLength == g.end - g.start + 1 == |r.body|
      && 1 <= |r.body| <= |file|
      && r.body == file[g.start..g.end + 1]
      && r.contentRange == ContentRange(g.start, g.end, |file|)
  {
    var p := parse(|file|, RangeHeader(header));
    if !p.Ranges? || p.unit != "bytes" || |p.ranges| != 1 then NotSatisfiable(UnsatisfiedRange(|file|))
    else
      var g := p.ranges[0];
      Partial(mimeType, g.end - g.start + 1, ContentRange(g.start, g.end, |file|), file[g.start..g.end + 1])
  }

  /** GET /media/:mediaId?token=…: the media guard, then MEDIA_NOT_FOUND/404 for an unknown
      id before any range handling, then a stat of the file (which throws when the file is
      missing), then `Respond`. Nothing is written. */
  function ServeMedia(db: Db, token: Option<string>, decode: string -> Decoded, mediaId: string,
                      header: Option<string>, parse: (int, string) -> RangeResult): (r: Reply<MediaResponse>)
    requires ParserInsideFile(parse)
    ensures MediaGuard(token, decode, mediaId).Err? ==> r == Err(MediaGuard(token, decode, mediaId).failure)
    ensures MediaGuard(token, decode, mediaId).Ok? && mediaId !in db.media ==>
      r == Fail(MediaNotFound, 404, "media not found")
    ensures r.Ok? <==>
      && MediaGuard(token, decode, mediaId).Ok? && mediaId in db.media
      && FileName(mediaId, db.media[mediaId].extension) in db.files
    ensures r.Ok? ==>
      var m := db.media[mediaId];
      r.value == Respond(m.mimeType, db.files[FileName(mediaId, m.extension)], header, parse)
  {
    match MediaGuard(token, decode, mediaId)
    case Err(f) => Err(f)
    case Ok(_) =>
      if mediaId !in db.media then Fail(MediaNotFound, 404, "media not found")
      else
        var m := db.media[mediaId];
        var name := FileName(mediaId, m.extension);
        if name !in db.files then Throw(200, "ENOENT: no such file or directory")
        else
          var file := db.files[name];
          assert InsideFile(parse(|file|, RangeHeader(header)), |file|);
          Ok(Respond(m.mimeType, file, header, parse))
  }

  /** Without a Range header the whole file is asked for, so a parser that reads
      `bytes=0-` as the one range 0..size-1 makes the response the whole non-empty file. */
  lemma NoRangeServesWholeFile(mimeType: string, file: seq<byte>, parse: (int, string) -> RangeResult)
    requires |file| > 0
    requires parse(|file|, "bytes=0-") == Ranges("bytes", [ByteRange(0, |file| - 1)])
    ensures var r := Respond(mimeType, file, None, parse);
      r.Partial? && r.Status() == 206 && r.body == file && r.contentLength == |file|
  {
  }

  // ---------------------------------------------------------------------------
  // reading the Content-Range header back

  /** A client's reading of `bytes <start>-<end>/<size>`. */
  function ReadContentRange(h: string): Option<(nat, nat, nat)> {
    var words := Split(h, ' ');
    if |words| != 2 || words[0] != "bytes" then None
    else
      var slash := Split(words[1], '/');
      if |slash| != 2 then None
      else
        var dash := Split(slash[0], '-');
        if |dash| != 2 then None
        else
          match (ParseUnsigned(dash[0]), ParseUnsigned(dash[1]), ParseUnsigned(slash[1]))
          case (Some(a), Some(b), Some(c)) => Some((a, b, c))
          case _ => None
  }

  lemma DigitsLackSeparator(n: nat, sep: char)
    requires !IsDigit(sep)
    ensures sep !in NatToString(n)
  {
  }

  /** The Content-Range header of a 206 reads back as the range and the file size. */
  lemma ContentRangeReadsBack(start: nat, end: nat, size: nat)
    ensures ReadContentRange(ContentRange(start, end, size)) == Some((start, end, size))
  {
    var a, b, c := NatToString(start), NatToString(end), NatToString(size);
    DigitsLackSeparator(start, ' '); DigitsLackSeparator(end, ' '); DigitsLackSeparator(size, ' ');
    DigitsLackSeparator(start, '/'); DigitsLackSeparator(end, '/'); DigitsLackSeparator(size, '/');
    DigitsLackSeparator(start, '-'); DigitsLackSeparator(end, '-');
    ParseUnsignedOfNatToString(start);
    ParseUnsignedOfNatToString(end);
    ParseUnsignedOfNatToString(size);
    RangeFieldsSplit(a, b, c);
    ReadRangeFields(a, b, c, start, end, size);
    RangeWords(a, b, c);
  }

  lemma RangeWords(a: string, b: string, c: string)
    ensures "bytes " + a + "-" + b + "/" + c == "bytes" + [' '] + (a + ['-'] + b + ['/'] + c)
  {
    assert "bytes " == "bytes" + [' '];
  }

  /** Once the header splits into its words and numbers, the numbers are read back. */
  lemma ReadRangeFields(a: string, b: string, c: string, start: nat, end: nat, size: nat)
    requires ParseUnsigned(a) == Some(start) && ParseUnsigned(b) == Some(end) && ParseUnsigned(c) == Some(size)
    requires var tail := a + ['-'] + b + ['/'] + c;
      && Split("bytes" + [' '] + tail, ' ') == ["bytes", tail]
      && Split(tail, '/') == [a + ['-'] + b, c]
      && Split(a + ['-'] + b, '-') == [a, b]
    ensures ReadContentRange("bytes" + [' '] + (a + ['-'] + b + ['/'] + c)) == Some((start, end, size))
  {
  }

  /** `bytes a-b/c` splits at its space, slash and dash into its three numbers. */
  lemma RangeFieldsSplit(a: string, b: string, c: string)
    requires ' ' !in a && ' ' !in b && ' ' !in c
    requires '/' !in a && '/' !in b && '/' !in c
    requires '-' !in a && '-' !in b
    ensures var tail := a + ['-'] + b + ['/'] + c;
      && Split("bytes" + [' '] + tail, ' ') == ["bytes", tail]
      && Split(tail, '/') == [a + ['-'] + b, c]
      && Split(a + ['-'] + b, '-') == [a, b]
  {
    var head := a + ['-'] + b;
    var tail := head + ['/'] + c;
    assert ' ' !in tail;
    SplitPair("bytes", tail, ' ');
    SplitPair(head, c, '/');
    SplitPair(a, b, '-');
  }
}

=== FILE: modals.dfy ===
/** The web client's modal store: open modals by key. Button click handlers are
    callbacks into the page and are not modelled. */
module Modals {
  import opened Types

  datatype Button = Button(labelText: string, variant: Option<string>)

  datatype SimpleModal = SimpleModal(title: string, contents: string, raw: Option<bool>,
                                     buttons: Option<seq<Button>>, closable: Option<bool>)

  type Store = map<string, SimpleModal>

  /** `create`: the key now shows this modal; every other key is untouched. */
  function Create(all: Store, key: string, modal: SimpleModal): (r: Store)
    ensures r.Keys == all.Keys + {key}
    ensures r[key] == modal
    ensures forall k :: k in all && k != key ==> r[k] == all[k]
  {
    all[key := modal]
  }

  /** `remove`: the key is gone; every other key is untouched. */
  function Remove(all: Store, key: string): (r: Store)
    ensures r.Keys == all.Keys - {key}
    ensures forall k :: k in r ==> r[k] == all[k]
    ensures key !in all ==> r == all
  {
    map k | k in all && k != key :: all[k]
  }

  /** A second `create` with the same key replaces the first. */
  lemma CreateOverwrites(all: Store, key: string, first: SimpleModal, second: SimpleModal)
    ensures Create(Create(all, key, first), key, second) == Create(all, key, second)
  {
  }

  /** Removing what was just created leaves the store as it was, less that key. */
  lemma CreateThenRemove(all: Store, key: string, modal: SimpleModal)
    ensures Remove(Create(all, key, modal), key) == Remove(all, key)
    ensures key !in all ==> Remove(Create(all, key, modal), key) == all
  {
  }
}

=== FILE: notifications.dfy ===
/** The web client's notification store: a list, newest first, of notifications with a
    fresh id each; `crypto.randomUUID()` is the `id` parameter. */
module Notifications {
  import opened Types

  datatype Kind = Info | Success | Error

  datatype Notification = Notification(id: string, message: string, kind: Kind, dismissible: bool, timeout: int)

  /** The fields a caller hands to `add`; a missing one takes its default. */
  datatype Draft = Draft(message: Option<string>, kind: Option<Kind>, dismissible: Option<bool>, timeout: Option<int>)

  const DefaultTimeout := 10000

  /** `{ ...defaults, ...notification }` with `id` as the default id. */
  function Complete(d: Draft, id: string): (n: Notification)
    ensures n.id == id
    ensures d.message.Some? ==> n.message == d.message.value
    ensures d.message.None? ==> n.message == ""
    ensures d.kind.Some? ==> n.kind == d.kind.value
    ensures d.kind.None? ==> n.kind == Info
    ensures d.dismissible.Some? ==> n.dismissible == d.dismissible.value
    ensures d.dismissible.None? ==> n.dismissible
    ensures d.timeout.Some? ==> n.timeout == d.timeout.value
    ensures d.timeout.None? ==> n.timeout == DefaultTimeout
  {
    Notification(id, d.message.GetOr(""), d.kind.GetOr(Info), d.dismissible.GetOr(true), d.timeout.GetOr(DefaultTimeout))
  }

  predicate HasId(all: seq<Notification>, id: string) {
    exists i :: 0 <= i < |all| && all[i].id == id
  }

  /** `add`: the completed notification goes in front. */
  function Add(all: seq<Notification>, d: Draft, id: string): (r: seq<Notification>)
    ensures |r| == |all| + 1 && r[0] == Complete(d, id) && r[1..] == all
  {
    [Complete(d, id)] + all
  }

  /** The delay after which `add` schedules the notification's dismissal: its timeout when
      that is truthy, and none for a zero timeout. */
  function DismissAfter(n: Notification): (delay: Option<int>)
    ensures delay.Some? <==> n.timeout != 0
    ensures delay.Some? ==> delay.value == n.timeout
  {
    if n.timeout != 0 then Some(n.timeout) else None
  }

  /** `dismiss`: every notification with that id is dropped. */
  function Dismiss(all: seq<Notification>, id: string): (r: seq<Notification>)
    ensures |r| <= |all|
    ensures forall i :: 0 <= i < |r| ==> r[i].id != id
    ensures !HasId(all, id) ==> r == all
  {
    if |all| == 0 then []
    else
      var rest := Dismiss(all[1..], id);
      if all[0].id == id then rest
      else
        assert all == [all[0]] + all[1..];
        [all[0]] + rest
  }

  /** Dismissing keeps exactly the other notifications. */
  lemma {:induction false} DismissMembers(all: seq<Notification>, id: string, n: Notification)
    ensures n in Dismiss(all, id) <==> n in all && n.id != id
    decreases |all|
  {
    if |all| > 0 {
      DismissMembers(all[1..], id, n);
      assert all == [all[0]] + all[1..];
    }
  }

  /** Dismissing works piecewise, so the survivors keep their order. */
  lemma {:induction false} DismissAppend(a: seq<Notification>, b: seq<Notification>, id: string)
    ensures Dismiss(a + b, id) == Dismiss(a, id) + Dismiss(b, id)
    decreases |a|
  {
    if |a| == 0 {
      assert a + b == b;
    } else {
      assert (a + b)[1..] == a[1..] + b;
      assert (a + b)[0] == a[0];
      DismissAppend(a[1..], b, id);
    }
  }

  /** Dismissing the id `add` just used undoes the `add`, when the id was fresh. */
  lemma AddThenDismiss(all: seq<Notification>, d: Draft, id: string)
    requires !HasId(all, id)
    ensures Dismiss(Add(all, d, id), id) == all
  {
    var r := Add(all, d, id);
    assert r == [Complete(d, id)] + all;
    DismissAppend([Complete(d, id)], all, id);
    assert Dismiss([Complete(d, id)], id) == [];
  }

  /** `info`, `success`, `error`: a notification of that kind with the given message. */
  function Notify(all: seq<Notification>, kind: Kind, message: string, id: string): (r: seq<Notification>)
    ensures |r| == |all| + 1
    ensures r[0] == Notification(id, message, kind, true, DefaultTimeout)
    ensures r[1..] == all
  {
    Add(all, Draft(Some(message), Some(kind), None, None), id)
  }
}

=== FILE: paths.dfy ===
/** How the file service names a file: `path.join(getDirectoryPath('media'), name)`. The
    join is lexical: the name's '/'-separated segments are read after the media
    directory's, empty and "." segments vanish, and ".." takes back the segment before
    it, so a name can reach a file other than `<media>/<name>`. Paths are relative to the
    working directory. */
module Paths {
  import opened Strings

  /** The media directory, `data/media` under the working directory. */
  const MediaDir: seq<string> := ["data", "media"]

  /** A segment `path.normalize` drops: the empty one between doubled slashes, and ".". */
  predicate Vanishes(seg: string) {
    seg == "" || seg == "."
  }

  /** A normalised relative path: no vanishing segments, and ".." only in a leading run
      (it climbs above the working directory). */
  predicate Normal(p: seq<string>) {
    && (forall i :: 0 <= i < |p| ==> !Vanishes(p[i]))
    && (forall i, j :: 0 <= i < j < |p| && p[j] == ".." ==> p[i] == "..")
  }

  /** `path.normalize` reading the segments `rest` after the normal path `done`. */
  function Normalize(done: seq<string>, rest: seq<string>): (r: seq<string>)
    requires Normal(done)
    ensures Normal(r)
    decreases |rest|
  {
    if |rest| == 0 then done
    else if Vanishes(rest[0]) then Normalize(done, rest[1..])
    else if rest[0] == ".." && |done| > 0 && done[|done| - 1] != ".." then Normalize(done[..|done| - 1], rest[1..])
    else Normalize(done + [rest[0]], rest[1..])
  }

  /** Reading segments that already form a normal path changes nothing. */
  lemma {:induction false} NormalizeNormal(done: seq<string>, rest: seq<string>)
    requires Normal(done) && Normal(done + rest)
    ensures Normalize(done, rest) == done + rest
    decreases |rest|
  {
    if |rest| > 0 {
      var p := done + rest;
      assert p[|done|] == rest[0];
      if rest[0] == ".." && |done| > 0 {
        assert p[|done| - 1] == done[|done| - 1];
      }
      assert done + [rest[0]] + rest[1..] == p;
      assert Normal(done + [rest[0]]) by {
        forall i, j | 0 <= i < j < |done| + 1 && (done + [rest[0]])[j] == ".."
          ensures (done + [rest[0]])[i] == ".."
        {
          assert (done + [rest[0]])[i] == p[i] && (done + [rest[0]])[j] == p[j];
        }
      }
      NormalizeNormal(done + [rest[0]], rest[1..]);
    }
  }

  /** A normal prefix of the segments is read first and carried over as it is. */
  lemma {:induction false} NormalizeSteps(done: seq<string>, p: seq<string>, rest: seq<string>)
    requires Normal(done) && Normal(done + p)
    ensures Normalize(done, p + rest) == Normalize(done + p, rest)
    decreases |p|
  {
    if |p| > 0 {
      var q := done + p;
      assert q[|done|] == p[0];
      if p[0] == ".." && |done| > 0 {
        assert q[|done| - 1] == done[|done| - 1];
      }
      assert (p + rest)[0] == p[0] && (p + rest)[1..] == p[1..] + rest;
      assert done + [p[0]] + p[1..] == q;
      assert Normal(done + [p[0]]) by {
        forall i, j | 0 <= i < j < |done| + 1 && (done + [p[0]])[j] == ".."
          ensures (done + [p[0]])[i] == ".."
        {
          assert (done + [p[0]])[i] == q[i] && (done + [p[0]])[j] == q[j];
        }
      }
      NormalizeSteps(done + [p[0]], p[1..], rest);
    } else {
      assert p + rest == rest && done + p == done;
    }
  }

  /** Normalising is idempotent. */
  lemma NormalizeIdempotent(p: seq<string>)
    ensures Normalize([], Normalize([], p)) == Normalize([], p)
  {
    NormalizeNormal([], Normalize([], p));
  }

  /** What a joined path names: its normalised segments, and whether it keeps a trailing
      '/', which `path.join` does when the name ends with one and which makes the path a
      directory's. */
  datatype Resolved = Resolved(segments: seq<string>, trailingSlash: bool)

  /** `path.join(getDirectoryPath('media'), name)`. */
  function Resolve(name: string): (r: Resolved)
    ensures Normal(r.segments)
    ensures r.trailingSlash <==> |name| > 0 && name[|name| - 1] == '/'
  {
    Resolved(Normalize([], MediaDir + Split(name, '/')), |name| > 0 && name[|name| - 1] == '/')
  }

  /** The path as the string the file system receives. */
  function PathText(r: Resolved): string {
    Join(r.segments, '/') + (if r.trailingSlash then "/" else "")
  }

  /** A path naming a file directly inside the media directory, the one directory the
      upload routes create files in. */
  predicate InMedia(r: Resolved) {
    |r.segments| == 3 && r.segments[..2] == MediaDir && !r.trailingSlash
  }

  /** A name of one segment: no '/', and neither "", "." nor "..". */
  predicate PlainName(name: string) {
    '/' !in name && !Vanishes(name) && name != ".."
  }

  /** A plain name is the file of that name in the media directory. */
  lemma PlainNameResolves(name: string)
    requires PlainName(name)
    ensures Resolve(name) == Resolved(MediaDir + [name], false)
    ensures PathText(Resolve(name)) == "data/media/" + name
    ensures InMedia(Resolve(name))
  {
    PlainNameSegments(name);
    assert MediaDir + [name] == ["data", "media", name];
    MediaText(name);
  }

  /** A plain name joined onto the media directory adds just its own segment. */
  lemma PlainNameSegments(name: string)
    requires PlainName(name)
    ensures Resolve(name) == Resolved(MediaDir + [name], false)
  {
    SplitWithoutSeparator(name, '/');
    assert Normal(MediaDir + [name]);
    NormalizeNormal([], MediaDir + [name]);
    assert name[|name| - 1] in name;
  }

  /** The text of a file directly in the media directory. */
  lemma MediaText(name: string)
    ensures Join(["data", "media", name], '/') == "data/media/" + name
  {
    assert Join(["media", name], '/') == "media/" + name;
    assert Join(["data", "media", name], '/') == "data/" + Join(["media", name], '/');
  }

  /** `a/../b` reaches the file `b`: the step back cancels `a`. */
  lemma StepBackAliases(a: string, b: string)
    requires PlainName(a) && PlainName(b)
    ensures Resolve(a + "/../" + b) == Resolve(b)
  {
    var name := a + "/../" + b;
    StepBackSplits(a, b);
    StepBackNormalizes(a, b);
    PlainNameSegments(b);
    assert b[|b| - 1] in b && name[|name| - 1] == b[|b| - 1];
  }

  /** The segments of `a/../b`. */
  lemma StepBackSplits(a: string, b: string)
    requires PlainName(a) && PlainName(b)
    ensures Split(a + "/../" + b, '/') == [a, "..", b]
  {
    assert a + "/../" + b == a + ['/'] + (".." + ['/'] + b);
    SplitAfterPiece(a, '/', ".." + ['/'] + b);
    SplitPair("..", b, '/');
  }

  /** In the media directory, `a` followed by ".." and `b` normalises to `b`. */
  lemma StepBackNormalizes(a: string, b: string)
    requires PlainName(a) && PlainName(b)
    ensures Normalize([], MediaDir + [a, "..", b]) == MediaDir + [b]
  {
    assert MediaDir + [a, "..", b] == ["data", "media", a] + ["..", b];
    assert [] + ["data", "media", a] == ["data", "media", a];
    assert Normal(["data", "media", a]);
    NormalizeSteps([], ["data", "media", a], ["..", b]);
    assert ["data", "media", a][..2] == ["data", "media"];
    assert Normalize(["data", "media", a], ["..", b]) == Normalize(["data", "media"], [b]);
    assert Normal(["data", "media"] + [b]);
    NormalizeNormal(["data", "media"], [b]);
  }

  /** `a/b` names a file in a subdirectory `a` of the media directory, not a file in it. */
  lemma SubdirectoryIsNotMedia(a: string, b: string)
    requires PlainName(a) && PlainName(b)
    ensures Resolve(a + "/" + b).segments == MediaDir + [a, b]
    ensures !InMedia(Resolve(a + "/" + b))
  {
    SplitPair(a, b, '/');
    assert a + "/" + b == a + ['/'] + b;
    assert Normal(MediaDir + [a, b]);
    NormalizeNormal([], MediaDir + [a, b]);
  }
}

=== FILE: rate_limit.dfy ===
/** The sliding-window rate limiter (`rateLimit`): each limiter owns a map from request
    identifier to the times of its admitted requests. A request is admitted when fewer
    than `max` of those lie within `window` milliseconds of now; otherwise it is answered
    429 Too Many Requests (section 4 of RFC 6585) with a Retry-After header in seconds
    (section 7.1.3 of RFC 7231). */
module RateLimit {
  import opened Types
  import opened Failures

  /** What identification sees of a request: the client address, if known, and the
      random UUID `randomUUID()` would return for it. */
  datatype RequestInfo = RequestInfo(clientIp: Option<string>, uuid: string)

  /** The options a route passes; absent fields keep the defaults. */
  datatype Options = Options(window: Option<int>, max: Option<int>, identify: Option<RequestInfo -> string>)

  /** The options in force after merging. */
  datatype Config = Config(window: int, max: int, identify: RequestInfo -> string)

  const DefaultWindow: int := 5 * 1000
  const DefaultMax: int := 10

  /** By default a request is identified by its client address, or else by a fresh
      random id, which puts it in a list of its own. */
  function DefaultIdentify(req: RequestInfo): (id: string)
    ensures req.clientIp.Some? ==> id == req.clientIp.value
    ensures req.clientIp.None? ==> id == req.uuid
  {
    req.clientIp.GetOr(req.uuid)
  }

  /** `merge({...defaults}, options ?? {})`: every supplied field overrides its default. */
  function Configure(options: Option<Options>): (c: Config)
    ensures options.None? ==> c == Config(DefaultWindow, DefaultMax, DefaultIdentify)
    ensures options.Some? ==>
      && c.window == options.value.window.GetOr(DefaultWindow)
      && c.max == options.value.max.GetOr(DefaultMax)
      && c.identify == options.value.identify.GetOr(DefaultIdentify)
  {
    var o := options.GetOr(Options(None, None, None));
    Config(o.window.GetOr(DefaultWindow), o.max.GetOr(DefaultMax), o.identify.GetOr(DefaultIdentify))
  }

  /** Supplying only some fields leaves the others at their defaults. */
  lemma PartialOptionsKeepDefaults(window: int, max: int)
    ensures Configure(Some(Options(Some(window), None, None))) == Config(window, DefaultMax, DefaultIdentify)
    ensures Configure(Some(Options(None, Some(max), None))) == Config(DefaultWindow, max, DefaultIdentify)
  {
  }

  type Queue = map<string, seq<int>>

  function Get(q: Queue, id: string): seq<int> {
    if id in q then q[id] else []
  }

  /** The entries still inside the window: `now - t <= window`, in their original order. */
  function Prune(entry: seq<int>, now: int, window: int): (r: seq<int>)
    ensures |r| <= |entry|
    ensures forall t :: t in r ==> t in entry && now - t <= window
    ensures forall t :: t in entry && now - t <= window ==> t in r
  {
    if entry == [] then []
    else
      var last := entry[|entry| - 1];
      Prune(entry[..|entry| - 1], now, window) + (if now - last <= window then [last] else [])
  }

  /** `Math.ceil(x / d)` for integer `x` and positive `d`. */
  function CeilDiv(x: int, d: int): (q: int)
    requires d > 0
    ensures d * q >= x && d * (q - 1) < x
  {
    0 - ((0 - x) / d)
  }

  /** The limiter's verdict on one request: the map afterwards, and either `next()` or a
      failure with, for a 429, the Retry-After value. */
  datatype Decision = Decision(queue: Queue, reply: Reply<()>, retryAfter: Option<int>)

  const TooManyRequests: string := "Too many requests, please try again later."

  /** The middleware. With `max <= 0` and no entries left there is no oldest entry to
      read and the middleware fails with a TypeError before setting a status. */
  function Limit(config: Config, queue: Queue, req: RequestInfo, now: int): (d: Decision)
    ensures var id := config.identify(req);
      var kept := Prune(Get(queue, id), now, config.window);
      && (d.reply.Ok? <==> |kept| < config.max)
      && (d.reply.Ok? ==> d.queue == queue[id := kept + [now]] && d.retryAfter.None?)
      && (d.reply.Err? ==> d.queue == queue)
      && (d.reply.Err? && kept != [] ==>
            && d.reply.failure == Failure(None, 429, TooManyRequests)
            && d.retryAfter.Some?
            && 1000 * d.retryAfter.value >= now - kept[0] + config.window
            && 1000 * (d.retryAfter.value - 1) < now - kept[0] + config.window)
      && (d.reply.Err? && kept == [] ==> d.reply.failure.status == 200 && d.retryAfter.None?)
    ensures forall other :: other != config.identify(req) ==> Get(d.queue, other) == Get(queue, other)
  {
    var id := config.identify(req);
    var kept := Prune(Get(queue, id), now, config.window);
    if |kept| < config.max then Decision(queue[id := kept + [now]], Ok(()), None)
    else if kept == [] then Decision(queue, Throw(200, "Cannot read properties of undefined (reading 'time')"), None)
    else Decision(queue, Err(Failure(None, 429, TooManyRequests)), Some(CeilDiv(now - kept[0] + config.window, 1000)))
  }

  /** Retry-After is at least the window in whole seconds whenever the oldest kept entry
      is not in the future. */
  lemma RetryAfterCoversWindow(config: Config, queue: Queue, req: RequestInfo, now: int)
    requires var kept := Prune(Get(queue, config.identify(req)), now, config.window);
      kept != [] && kept[0] <= now
    ensures var d := Limit(config, queue, req, now);
      d.retryAfter.Some? ==> d.retryAfter.value >= CeilDiv(config.window, 1000)
  {
  }

  // ---- Counting admitted requests --------------------------------------------------

  /** How many entries of `s` lie in `[lo, hi]`. */
  function CountIn(s: seq<int>, lo: int, hi: int): nat {
    if s == [] then 0
    else CountIn(s[..|s| - 1], lo, hi) + (if lo <= s[|s| - 1] <= hi then 1 else 0)
  }

  /** How many entries of `s` lie in the window of length `w` ending at `t`. */
  function InWindow(s: seq<int>, t: int, w: int): nat {
    CountIn(s, t - w, t)
  }

  predicate AllAtMost(s: seq<int>, clock: int) {
    forall i :: 0 <= i < |s| ==> s[i] <= clock
  }

  lemma {:induction false} CountInMonotone(s: seq<int>, lo1: int, hi1: int, lo2: int, hi2: int)
    requires lo1 <= lo2 && hi2 <= hi1
    ensures CountIn(s, lo2, hi2) <= CountIn(s, lo1, hi1)
  {
    if s != [] {
      CountInMonotone(s[..|s| - 1], lo1, hi1, lo2, hi2);
    }
  }

  /** Nothing lies beyond the clock, so raising the upper bound past it changes no count. */
  lemma {:induction false} CountInPastClock(s: seq<int>, lo: int, clock: int, hi: int)
    requires AllAtMost(s, clock) && clock <= hi
    ensures CountIn(s, lo, hi) == CountIn(s, lo, clock)
  {
    if s != [] {
      CountInPastClock(s[..|s| - 1], lo, clock, hi);
    }
  }

  /** With no entry beyond `now`, pruning keeps exactly the entries in the window ending
      at `now`. */
  lemma {:induction false} PruneCounts(s: seq<int>, now: int, w: int)
    requires AllAtMost(s, now)
    ensures |Prune(s, now, w)| == InWindow(s, now, w)
  {
    if s != [] {
      PruneCounts(s[..|s| - 1], now, w);
    }
  }

  lemma {:induction false} PruneAppend(a: seq<int>, b: seq<int>, now: int, w: int)
    ensures Prune(a + b, now, w) == Prune(a, now, w) + Prune(b, now, w)
  {
    if b == [] {
      assert a + b == a;
    } else {
      assert (a + b)[..|a + b| - 1] == a + b[..|b| - 1];
      PruneAppend(a, b[..|b| - 1], now, w);
    }
  }

  /** Pruning at an earlier time and then at a later one is pruning at the later one. */
  lemma {:induction false} PruneTwice(s: seq<int>, earlier: int, later: int, w: int)
    requires earlier <= later
    ensures Prune(Prune(s, earlier, w), later, w) == Prune(s, later, w)
  {
    if s != [] {
      var init := s[..|s| - 1];
      var last := s[|s| - 1];
      PruneTwice(init, earlier, later, w);
      PruneAppend(Prune(init, earlier, w), if earlier - last <= w then [last] else [], later, w);
    }
  }

  /** The stored lists agree, from `clock` on, with the full history of admitted times. */
  ghost predicate Tracks(queue: Queue, hist: Queue, w: int, clock: int) {
    forall id, n :: n >= clock ==> Prune(Get(queue, id), n, w) == Prune(Get(hist, id), n, w)
  }

  ghost predicate HistoryBefore(hist: Queue, clock: int) {
    forall id :: AllAtMost(Get(hist, id), clock)
  }

  /** No window of length `w` holds more than `max` admitted times of one identifier. */
  ghost predicate WindowBounded(hist: Queue, w: int, max: int) {
    forall id, t :: InWindow(Get(hist, id), t, w) <= max
  }

  /** The history after one decision: the request's time is recorded when admitted. */
  function Record(hist: Queue, config: Config, req: RequestInfo, now: int, d: Decision): Queue {
    if d.reply.Ok? then hist[config.identify(req) := Get(hist, config.identify(req)) + [now]] else hist
  }

  /** One request keeps the counting invariant. */
  lemma LimitPreservesBound(config: Config, queue: Queue, hist: Queue, clock: int, req: RequestInfo, now: int)
    requires clock <= now
    requires Tracks(queue, hist, config.window, clock) && HistoryBefore(hist, clock)
    requires WindowBounded(hist, config.window, config.max)
    ensures var d := Limit(config, queue, req, now);
      var hist2 := Record(hist, config, req, now, d);
      Tracks(d.queue, hist2, config.window, now) && HistoryBefore(hist2, now)
      && WindowBounded(hist2, config.window, config.max)
  {
    var w := config.window;
    var d := Limit(config, queue, req, now);
    var id := config.identify(req);
    var kept := Prune(Get(queue, id), now, w);
    HistoryLater(hist, clock, now);
    if d.reply.Ok? {
      assert d.queue == queue[id := kept + [now]];
      AdmitTracks(queue, hist, w, clock, id, now);
      AdmitBounded(hist, w, config.max, id, now, |kept|);
    } else {
      TracksLater(queue, hist, w, clock, now);
    }
  }

  lemma HistoryLater(hist: Queue, clock: int, now: int)
    requires clock <= now && HistoryBefore(hist, clock)
    ensures HistoryBefore(hist, now)
    ensures forall id :: HistoryBefore(hist[id := Get(hist, id) + [now]], now)
  {
    forall other ensures AllAtMost(Get(hist, other), now) {
      assert AllAtMost(Get(hist, other), clock);
    }
    forall id ensures HistoryBefore(hist[id := Get(hist, id) + [now]], now) {
      var hist2 := hist[id := Get(hist, id) + [now]];
      forall other ensures AllAtMost(Get(hist2, other), now) {
        if other != id {
          assert Get(hist2, other) == Get(hist, other);
        }
      }
    }
  }

  lemma TracksLater(queue: Queue, hist: Queue, w: int, clock: int, now: int)
    requires clock <= now && Tracks(queue, hist, w, clock)
    ensures Tracks(queue, hist, w, now)
  {
  }

  /** Admitting at `now` appends `now` both to the pruned stored list and to the history. */
  lemma AdmitTracks(queue: Queue, hist: Queue, w: int, clock: int, id: string, now: int)
    requires clock <= now && Tracks(queue, hist, w, clock)
    ensures Tracks(queue[id := Prune(Get(queue, id), now, w) + [now]], hist[id := Get(hist, id) + [now]], w, now)
  {
    var kept := Prune(Get(queue, id), now, w);
    var q2 := queue[id := kept + [now]];
    var hist2 := hist[id := Get(hist, id) + [now]];
    forall other, n | n >= now
      ensures Prune(Get(q2, other), n, w) == Prune(Get(hist2, other), n, w)
    {
      if other == id {
        PruneAppend(kept, [now], n, w);
        PruneTwice(Get(queue, id), now, n, w);
        PruneAppend(Get(hist, id), [now], n, w);
        assert Prune(Get(queue, id), n, w) == Prune(Get(hist, id), n, w);
      } else {
        assert Get(q2, other) == Get(queue, other) && Get(hist2, other) == Get(hist, other);
        assert Prune(Get(queue, other), n, w) == Prune(Get(hist, other), n, w);
      }
    }
  }

  /** A time admitted while fewer than `max` lie in the window ending at it keeps every
      window within `max`. */
  lemma AdmitBounded(hist: Queue, w: int, max: int, id: string, now: int, count: nat)
    requires HistoryBefore(hist, now) && WindowBounded(hist, w, max)
    requires count < max && count == |Prune(Get(hist, id), now, w)|
    ensures WindowBounded(hist[id := Get(hist, id) + [now]], w, max)
  {
    var h := Get(hist, id);
    var hist2 := hist[id := h + [now]];
    assert AllAtMost(h, now);
    PruneCounts(h, now, w);
    forall other, t ensures InWindow(Get(hist2, other), t, w) <= max {
      if other == id {
        var h2 := Get(hist2, id);
        assert h2[..|h2| - 1] == h && h2[|h2| - 1] == now;
        assert InWindow(h, t, w) <= max;
        if t - w <= now <= t {
          CountInPastClock(h, t - w, now, t);
          CountInMonotone(h, now - w, now, t - w, now);
        }
      } else {
        assert Get(hist2, other) == Get(hist, other);
      }
    }
  }

  /** A request reaching the limiter at a given time. */
  datatype Arrival = Arrival(req: RequestInfo, now: int)

  /** The limiter's map and the admitted history after a sequence of arrivals. */
  function Replay(config: Config, queue: Queue, hist: Queue, arrivals: seq<Arrival>): (Queue, Queue)
    decreases |arrivals|
  {
    if arrivals == [] then (queue, hist)
    else
      var a := arrivals[0];
      var d := Limit(config, queue, a.req, a.now);
      Replay(config, d.queue, Record(hist, config, a.req, a.now, d), arrivals[1..])
  }

  /** The clock never runs backwards: arrivals come at `clock` or later, in time order. */
  predicate Ordered(arrivals: seq<Arrival>, clock: int) {
    && (forall i :: 0 <= i < |arrivals| ==> clock <= arrivals[i].now)
    && (forall i, j :: 0 <= i < j < |arrivals| ==> arrivals[i].now <= arrivals[j].now)
  }

  lemma {:induction false} ReplayPreservesBound(config: Config, queue: Queue, hist: Queue, clock: int, arrivals: seq<Arrival>)
    requires Ordered(arrivals, clock)
    requires Tracks(queue, hist, config.window, clock) && HistoryBefore(hist, clock)
    requires WindowBounded(hist, config.window, config.max)
    ensures WindowBounded(Replay(config, queue, hist, arrivals).1, config.window, config.max)
    decreases |arrivals|
  {
    if arrivals != [] {
      var a := arrivals[0];
      var d := Limit(config, queue, a.req, a.now);
      LimitPreservesBound(config, queue, hist, clock, a.req, a.now);
      ReplayPreservesBound(config, d.queue, Record(hist, config, a.req, a.now, d), a.now, arrivals[1..]);
    }
  }

  /** The counting guarantee: starting from a fresh limiter and with a non-decreasing
      clock, no identifier gets more than `max` requests admitted within any interval of
      `window` milliseconds. */
  lemma AtMostMaxPerWindow(config: Config, arrivals: seq<Arrival>, id: string, t: int)
    requires config.max >= 0
    requires |arrivals| > 0 && Ordered(arrivals, arrivals[0].now)
    ensures InWindow(Get(Replay(config, map[], map[], arrivals).1, id), t, config.window) <= config.max
  {
    ReplayPreservesBound(config, map[], map[], arrivals[0].now, arrivals);
  }

  // ---- The hourly limit of the login, registration and upload routes -------------

  /** The options those routes pass: `window: 60 * 60`, read as milliseconds, so the
      window is 3.6 seconds rather than an hour. */
  const HourlyAsWritten: Options := Options(Some(60 * 60), Some(5), None)

  /** The evidently intended options: five requests per hour. */
  const Hourly: Options := Options(Some(60 * 60 * 1000), Some(5), None)

  /** Five requests in the last four milliseconds do not stop a sixth under the options
      as written, while the intended hourly window rejects it. */
  lemma HourlyAsWrittenAdmitsBurst(ip: string, uuid: string)
    ensures var q := map[ip := [0, 1, 2, 3, 4]];
      var req := RequestInfo(Some(ip), uuid);
      && Limit(Configure(Some(HourlyAsWritten)), q, req, 3605).reply.Ok?
      && Limit(Configure(Some(Hourly)), q, req, 3605).reply.Err?
      && Limit(Configure(Some(Hourly)), q, req, 3605).reply.failure.status == 429
  {
    HourlyAsWrittenConfig();
    HourlyConfig();
    var q := map[ip := [0, 1, 2, 3, 4]];
    var req := RequestInfo(Some(ip), uuid);
    assert DefaultIdentify(req) == ip;
    assert Get(q, ip) == [0, 1, 2, 3, 4];
    BurstPrunedBySeconds();
    BurstKeptByHour();
  }

  /** A window of 3600 milliseconds drops all five entries by time 3605. */
  lemma BurstPrunedBySeconds()
    ensures Prune([0, 1, 2, 3, 4], 3605, 3600) == []
  {
    var entry: seq<int> := [0, 1, 2, 3, 4];
    assert entry[..4] == [0, 1, 2, 3] && entry[..4][..3] == [0, 1, 2];
    assert entry[..4][..3][..2] == [0, 1] && entry[..4][..3][..2][..1] == [0];
    assert Prune([], 3605, 3600) == [];
    assert Prune([0], 3605, 3600) == [];
    assert Prune([0, 1], 3605, 3600) == [];
    assert Prune([0, 1, 2], 3605, 3600) == [];
    assert Prune([0, 1, 2, 3], 3605, 3600) == [];
  }

  /** An hour-long window keeps all five entries at time 3605. */
  lemma BurstKeptByHour()
    ensures Prune([0, 1, 2, 3, 4], 3605, 3600000) == [0, 1, 2, 3, 4]
  {
    var entry: seq<int> := [0, 1, 2, 3, 4];
    assert entry[..4] == [0, 1, 2, 3] && entry[..4][..3] == [0, 1, 2];
    assert entry[..4][..3][..2] == [0, 1] && entry[..4][..3][..2][..1] == [0];
    assert Prune([], 3605, 3600000) == [];
    assert Prune([0], 3605, 3600000) == [0];
    assert Prune([0, 1], 3605, 3600000) == [0, 1];
    assert Prune([0, 1, 2], 3605, 3600000) == [0, 1, 2];
    assert Prune([0, 1, 2, 3], 3605, 3600000) == [0, 1, 2, 3];
  }

  lemma HourlyAsWrittenConfig()
    ensures Configure(Some(HourlyAsWritten)) == Config(3600, 5, DefaultIdentify)
  {
  }

  /** Under the intended options no client gets more than five requests through in any
      hour. */
  lemma HourlyBoundsAnHour(arrivals: seq<Arrival>, id: string, t: int)
    requires |arrivals| > 0 && Ordered(arrivals, arrivals[0].now)
    ensures InWindow(Get(Replay(Configure(Some(Hourly)), map[], map[], arrivals).1, id), t, 3600000) <= 5
  {
    HourlyConfig();
    AtMostMaxPerWindow(Config(3600000, 5, DefaultIdentify), arrivals, id, t);
  }

  /** The intended options: an hour in milliseconds, five requests, the default key. */
  lemma HourlyConfig()
    ensures Configure(Some(Hourly)) == Config(3600000, 5, DefaultIdentify)
  {
  }
}

=== FILE: repeat.dfy ===
/** `Repeat` of the UI package: the indices `0 .. n-1`, used to render `n` placeholders.
    `Array.from({ length })` reads a negative length as 0. */
module Ui {

  function Repeat(number: int): (r: seq<nat>)
    ensures |r| == if number < 0 then 0 else number
    ensures forall i :: 0 <= i < |r| ==> r[i] == i
  {
    seq(if number < 0 then 0 else number, i => i)
  }

  /** The indices are strictly increasing, and there are none for zero. */
  lemma RepeatIncreases(number: int)
    ensures forall i, j :: 0 <= i < j < |Repeat(number)| ==> Repeat(number)[i] < Repeat(number)[j]
    ensures Repeat(0) == []
  {
  }
}

=== FILE: sessions.dfy ===
/** The `/sessions` routes: listing the caller's live sessions, newest first, with the
    session of the presented refresh cookie marked current; revoking one session; and
    revoking them all. */
module Sessions {
  import opened Types
  import opened Db
  import opened Failures
  import opened Authentication
  import opened TokenService
  import opened Sorting

  /** One row of the listing. */
  datatype SessionDisplay = SessionDisplay(id: string, deviceName: string, createdAt: int,
                                           current: bool, deviceType: DeviceType)

  /** A record is listed for `userId` at `now` when it is the user's and has not expired. */
  predicate Live(rec: RefreshRecord, userId: string, now: int) {
    rec.userId == userId && rec.expiresAt >= now
  }

  function Display(id: string, rec: RefreshRecord, current: bool): SessionDisplay {
    SessionDisplay(id, rec.deviceName, rec.createdAt, current, rec.deviceType)
  }

  ghost function LiveIds(tokens: map<string, RefreshRecord>, userId: string, now: int): (ids: set<string>)
    ensures forall k :: k in ids ==> k in tokens && Live(tokens[k], userId, now)
    ensures forall k :: k in tokens && Live(tokens[k], userId, now) ==> k in ids
  {
    set k | k in tokens && Live(tokens[k], userId, now)
  }

  function CreatedAt(d: SessionDisplay): int { d.createdAt }

  /** The listing row of each of `ids`, in the same order. */
  function Rows(ids: seq<string>, tokens: map<string, RefreshRecord>, found: Option<string>): (rows: seq<SessionDisplay>)
    requires forall i :: 0 <= i < |ids| ==> ids[i] in tokens
    ensures |rows| == |ids|
    ensures forall i :: 0 <= i < |ids| ==> rows[i] == Display(ids[i], tokens[ids[i]], found == Some(ids[i]))
  {
    if ids == [] then [] else [Display(ids[0], tokens[ids[0]], found == Some(ids[0]))] + Rows(ids[1..], tokens, found)
  }

  /** Every row is the display of one of the ids, marked current exactly for `found`. */
  lemma RowsMembers(ids: seq<string>, tokens: map<string, RefreshRecord>, found: Option<string>)
    requires forall i :: 0 <= i < |ids| ==> ids[i] in tokens
    ensures forall d :: d in Rows(ids, tokens, found) ==>
      d.id in ids && d.id in tokens && d == Display(d.id, tokens[d.id], found == Some(d.id))
  {
    var rows := Rows(ids, tokens, found);
    forall d | d in rows
      ensures d.id in ids && d.id in tokens && d == Display(d.id, tokens[d.id], found == Some(d.id))
    {
      var i :| 0 <= i < |rows| && rows[i] == d;
      assert d.id == ids[i];
    }
  }

  /** Sorting the rows of some ids keeps exactly those rows. */
  lemma SortedRowsMembers(ids: seq<string>, tokens: map<string, RefreshRecord>, found: Option<string>)
    requires forall i :: 0 <= i < |ids| ==> ids[i] in tokens
    ensures var r := SortDesc(Rows(ids, tokens, found), CreatedAt);
      && |r| == |ids|
      && (forall d :: d in r ==> d.id in ids && d.id in tokens && d == Display(d.id, tokens[d.id], found == Some(d.id)))
      && (forall k :: k in ids ==> exists d :: d in r && d.id == k)
  {
    var rows := Rows(ids, tokens, found);
    var r := SortDesc(rows, CreatedAt);
    RowsMembers(ids, tokens, found);
    forall k | k in ids ensures exists d :: d in r && d.id == k {
      var i :| 0 <= i < |ids| && ids[i] == k;
      assert rows[i] in rows;
    }
  }

  /** The caller's live records as listing rows, each once, newest first; `found` is the
      record the refresh cookie names. */
  ghost function Listing(tokens: map<string, RefreshRecord>, userId: string, now: int,
                         found: Option<string>): (r: seq<SessionDisplay>)
    ensures SortedDesc(r, CreatedAt)
    ensures |r| == |LiveIds(tokens, userId, now)|
    ensures forall d :: d in r ==>
      d.id in LiveIds(tokens, userId, now) && d == Display(d.id, tokens[d.id], found == Some(d.id))
    ensures forall k :: k in LiveIds(tokens, userId, now) ==> exists d :: d in r && d.id == k
  {
    var ids := Enumerate(LiveIds(tokens, userId, now));
    SortedRowsMembers(ids, tokens, found);
    SortDesc(Rows(ids, tokens, found), CreatedAt)
  }

  /** GET /sessions (authenticated). The refresh cookie is required (INVALID_CREDENTIALS/
      401 when missing or undecodable). The listing holds exactly the caller's live
      records, each once, newest first; a row is current exactly when it is the record
      the cookie's `jti` finds. Nothing changes. */
  ghost function ListSessions(db: Db, credentials: Credentials, cookie: Option<string>,
                              decode: string -> Decoded, now: int): (s: Step<seq<SessionDisplay>>)
    ensures s.db == db
    ensures s.reply.Ok? ==>
      var a := IsAuthenticated(credentials.header, credentials.decode, db.users);
      && a.Ok? && Truthy(cookie) && decode(cookie.value).Valid?
      && var found := FindByToken(db.tokens, decode(cookie.value).claims.jti);
      var r := s.reply.value;
      && SortedDesc(r, CreatedAt)
      && |r| == |LiveIds(db.tokens, a.value.id, now)|
      && (forall d :: d in r ==> d.id in db.tokens && Live(db.tokens[d.id], a.value.id, now)
                                 && d == Display(d.id, db.tokens[d.id], found == Some(d.id)))
      && (forall k :: k in LiveIds(db.tokens, a.value.id, now) ==> exists d :: d in r && d.id == k)
    ensures s.reply.Err? && IsAuthenticated(credentials.header, credentials.decode, db.users).Ok? ==>
      s.reply.failure.errorType == Some(InvalidCredentials) && s.reply.failure.status == 401
      && (!Truthy(cookie) || !decode(cookie.value).Valid?)
  {
    match IsAuthenticated(credentials.header, credentials.decode, db.users)
    case Err(f) => Step(db, Err(f))
    case Ok(p) =>
      if !Truthy(cookie) then Step(db, Fail(InvalidCredentials, 401, "refresh cookie missing"))
      else if !decode(cookie.value).Valid? then Step(db, Fail(InvalidCredentials, 401, "invalid refresh token"))
      else Step(db, Ok(Listing(db.tokens, p.id, now, FindByToken(db.tokens, decode(cookie.value).claims.jti))))
  }

  /** At most one listed session is current, and with unique tokens the one issued
      for the cookie's `jti` is. */
  lemma AtMostOneCurrent(db: Db, credentials: Credentials, cookie: Option<string>, decode: string -> Decoded, now: int)
    requires ListSessions(db, credentials, cookie, decode, now).reply.Ok?
    ensures var r := ListSessions(db, credentials, cookie, decode, now).reply.value;
      forall i, j :: 0 <= i < |r| && 0 <= j < |r| && r[i].current && r[j].current ==> r[i].id == r[j].id
  {
    var s := ListSessions(db, credentials, cookie, decode, now);
    var found := FindByToken(db.tokens, decode(cookie.value).claims.jti);
    CurrentRowsAgree(s.reply.value, db.tokens, found);
  }

  /** Rows marked current only for the record `found` names share that record's id. */
  lemma CurrentRowsAgree(r: seq<SessionDisplay>, tokens: map<string, RefreshRecord>, found: Option<string>)
    requires forall d :: d in r ==> d.id in tokens && d == Display(d.id, tokens[d.id], found == Some(d.id))
    ensures forall i, j :: 0 <= i < |r| && 0 <= j < |r| && r[i].current && r[j].current ==> r[i].id == r[j].id
  {
    forall i, j | 0 <= i < |r| && 0 <= j < |r| && r[i].current && r[j].current
      ensures r[i].id == r[j].id
    {
      assert r[i] in r && r[j] in r;
    }
  }

  /** DELETE /sessions/:sessionId (authenticated). A session that does not exist or is
      someone else's fails INVALID_CREDENTIALS/401; otherwise exactly that record is
      removed. */
  function DeleteSession(db: Db, credentials: Credentials, sessionId: string): (s: Step<()>)
    ensures s.reply.Err? ==> s.db == db
    ensures s.reply.Ok? ==>
      var a := IsAuthenticated(credentials.header, credentials.decode, db.users);
      && a.Ok? && sessionId in db.tokens && db.tokens[sessionId].userId == a.value.id
      && s.db == db.(tokens := Without(db.tokens, sessionId))
    ensures IsAuthenticated(credentials.header, credentials.decode, db.users).Ok? ==>
      var p := IsAuthenticated(credentials.header, credentials.decode, db.users).value;
      (s.reply.Err? <==> sessionId !in db.tokens || db.tokens[sessionId].userId != p.id)
  {
    match IsAuthenticated(credentials.header, credentials.decode, db.users)
    case Err(f) => Step(db, Err(f))
    case Ok(p) =>
      match GetById(db.tokens, sessionId)
      case None => Step(db, Fail(InvalidCredentials, 401, "invalid session id"))
      case Some(rec) =>
        if rec.userId != p.id then Step(db, Fail(InvalidCredentials, 401, "invalid session id"))
        else
          match DeleteById(db.tokens, sessionId)
          case Ok(rest) => Step(db.(tokens := rest), Ok(()))
          case Err(f) => Step(db, Err(f))
  }

  /** No caller can revoke another user's session: every record not owned by the caller
      survives the call unchanged. */
  lemma DeleteSessionSparesOthers(db: Db, credentials: Credentials, sessionId: string)
    requires IsAuthenticated(credentials.header, credentials.decode, db.users).Ok?
    ensures var p := IsAuthenticated(credentials.header, credentials.decode, db.users).value;
      var s := DeleteSession(db, credentials, sessionId);
      forall k :: k in db.tokens && db.tokens[k].userId != p.id ==> k in s.db.tokens && s.db.tokens[k] == db.tokens[k]
  {
  }

  /** DELETE /sessions (authenticated): removes every session of the caller and no
      other. */
  function DeleteAllSessions(db: Db, credentials: Credentials): (s: Step<()>)
    ensures s.reply.Err? ==> s.db == db
    ensures s.reply.Ok? ==>
      var a := IsAuthenticated(credentials.header, credentials.decode, db.users);
      && a.Ok?
      && s.db == db.(tokens := s.db.tokens)
      && (forall k :: k in s.db.tokens ==> k in db.tokens && s.db.tokens[k] == db.tokens[k])
      && (forall k :: k in db.tokens ==> (k in s.db.tokens <==> db.tokens[k].userId != a.value.id))
  {
    match IsAuthenticated(credentials.header, credentials.decode, db.users)
    case Err(f) => Step(db, Err(f))
    case Ok(p) => Step(db.(tokens := DeleteAllByUser(db.tokens, p.id)), Ok(()))
  }

  /** After revoking all sessions the caller's listing, if it can still be produced, is
      empty. */
  lemma ListingEmptyAfterDeleteAll(db: Db, credentials: Credentials, cookie: Option<string>,
                                   decode: string -> Decoded, now: int)
    requires DeleteAllSessions(db, credentials).reply.Ok?
    ensures var db2 := DeleteAllSessions(db, credentials).db;
      var s := ListSessions(db2, credentials, cookie, decode, now);
      s.reply.Ok? ==> s.reply.value == []
  {
    var db2 := DeleteAllSessions(db, credentials).db;
    var p := IsAuthenticated(credentials.header, credentials.decode, db.users).value;
    assert db2.users == db.users;
    assert LiveIds(db2.tokens, p.id, now) == {};
  }
}

=== FILE: settings_routes.dfy ===
/** The `/settings` routes: the full settings object for signed-in users, one setting by
    key (public keys for anyone), and updates for administrators. */
module SettingsRoutes {
  import opened Types
  import opened Failures
  import opened Db
  import opened Authentication
  import opened SettingsService
  import C = Cache

  /** GET /settings (authenticated): reloads the cache and sends it as an object. */
  function GetAll(svc: Service, users: map<string, UserRow>, credentials: Credentials)
    : (o: Outcome<map<string, C.Slot<string, Setting>>>)
    ensures o.reply.Ok? <==> IsAuthenticated(credentials.header, credentials.decode, users).Ok?
    ensures o.reply.Err? ==> o.service == svc && o.reply.failure.status == 403
    ensures o.reply.Ok? ==> o.reply.value.Keys == Defaults.Keys + svc.rows.Keys - {ProtoKey}
  {
    match IsAuthenticated(credentials.header, credentials.decode, users)
    case Err(f) => Outcome(svc, Err(f))
    case Ok(_) =>
      var loaded := GetSettings(svc);
      Outcome(loaded.service, Ok(ToObject(loaded.reply.value)))
  }

  /** GET /settings/:key. The route runs no authentication guard, so `user` is whatever
      an earlier middleware attached. A key that is not public needs one, otherwise
      UNAUTHORIZED/401; the answer is the one-entry object `{key: getSetting(key)}`. */
  function GetOne(svc: Service, key: string, user: Option<UserRow>): (o: Outcome<map<string, Option<SettingValue>>>)
    ensures o.reply.Err? <==> !IsPublic(key) && user.None?
    ensures o.reply.Err? ==> o.service == svc && o.reply.failure == Failure(Some(Unauthorized), 401, "unauthorized")
    ensures o.reply.Ok? ==>
      o.reply.value.Keys == {key} && o == Outcome(GetSetting(svc, key).service, Ok(map[key := GetSetting(svc, key).reply.value]))
  {
    if !IsPublic(key) && user.None? then Outcome(svc, Fail(Unauthorized, 401, "unauthorized"))
    else
      var got := GetSetting(svc, key);
      Outcome(got.service, Ok(map[key := got.reply.value]))
  }

  /** Anyone may read the public settings; after they are loaded, the answer is the row's
      value or the default. */
  lemma PublicSettingNeedsNoUser(svc: Service, k: SettingsKey)
    requires k == EnableRegistration || k == MinPasswordLength
    ensures var key := KeyName(k);
      var loaded := GetSettings(svc).service;
      var o := GetOne(loaded, key, None);
      o.reply.Ok? && o.reply.value[key] == Some(if key in svc.rows then ParseValue(Str(svc.rows[key].value), svc.rows[key].valueType)
                                               else Defaults[key].value)
  {
  }

  /** PUT /settings/:key (ADMIN), as written. The body's value is a string, number or
      boolean and is handed to `setSetting` as written with no label, so a key with
      neither a default entry nor an inherited member throws (a 500) and changes nothing, and a boolean is cached as its
      `parseValue` reading; the answer is an empty object. */
  function Put(svc: Service, users: map<string, UserRow>, credentials: Credentials, key: string,
               value: SettingValue): (o: Outcome<()>)
    requires !value.NaN?
    ensures o.reply.Ok? <==>
      Authorize(credentials, users, OneRole(RoleName(Admin))).Ok? && (key in Defaults || key in InheritedNames)
    ensures o.reply.Err? ==> o.service == svc
    ensures Authorize(credentials, users, OneRole(RoleName(Admin))).Ok? && key !in Defaults && key !in InheritedNames ==>
      o.reply.Err? && o.reply.failure.errorType.None? && o.reply.failure.status == 200
    ensures o.reply.Ok? ==>
      && GetSetting(o.service, key).reply.value == Some(ParseValue(value, GetValueType(value)))
      && key in o.service.rows && o.service.rows[key].value == Stringify(value)
  {
    match Authorize(credentials, users, OneRole(RoleName(Admin)))
    case Err(f) => Outcome(svc, Err(f))
    case Ok(_) =>
      var stored := SetSettingAsWritten(svc, key, value, None);
      match stored.reply
      case Err(f) => Outcome(stored.service, Err(f))
      case Ok(_) =>
        AnswerFromCache(stored.service, key, Setting(GetValueType(value), ParseValue(value, GetValueType(value)), LabelFor(key, None)));
        Outcome(stored.service, Ok(()))
  }

  /** An administrator who sets ENABLE_REGISTRATION to `true` reads back `false`, and an
      administrator who sets INSTANCE_TITLE gets a 500 envelope. */
  lemma PutAsWrittenMisbehaves(svc: Service, users: map<string, UserRow>, credentials: Credentials,
                               value: SettingValue, stack: string, env: Option<string>)
    requires Authorize(credentials, users, OneRole(RoleName(Admin))).Ok?
    requires !value.NaN?
    ensures var o := Put(svc, users, credentials, KeyName(EnableRegistration), Bool(true));
      o.reply.Ok? && GetSetting(o.service, KeyName(EnableRegistration)).reply.value == Some(Bool(false))
    ensures var o := Put(svc, users, credentials, KeyName(InstanceTitle), value);
      o.reply.Err? && HandleError(o.reply.failure, None, stack, env).status == 500
  {
    DefaultedKeys(EnableRegistration);
    assert ParseValue(Bool(true), GetValueType(Bool(true))) == Bool(false);
    DefaultedKeys(InstanceTitle);
    KeyNamesAreOwn(InstanceTitle);
    var f := Put(svc, users, credentials, KeyName(InstanceTitle), value).reply.failure;
    assert f.errorType.None? && f.status == 200;
  }

  /** PUT /settings/:key as evidently intended, over the intended `setSetting`: the
      setting is stored and reads back as the value. */
  function PutCorrected(svc: Service, users: map<string, UserRow>, credentials: Credentials, key: string,
                        value: SettingValue): (o: Outcome<()>)
    requires !value.NaN? && IsSafeNumber(value)
    ensures o.reply.Ok? <==> Authorize(credentials, users, OneRole(RoleName(Admin))).Ok?
    ensures o.reply.Err? ==> o.service == svc
    ensures o.reply.Ok? ==> GetSetting(o.service, key).reply.value == Some(value)
  {
    match Authorize(credentials, users, OneRole(RoleName(Admin)))
    case Err(f) => Outcome(svc, Err(f))
    case Ok(_) =>
      SetThenGet(svc, key, value, None);
      Outcome(SetSetting(svc, key, value, None).service, Ok(()))
  }
}

=== FILE: settings_service.dfy ===
/** Instance settings: typed values stored as text in the `setting` table, read through a
    process-wide cache, with built-in defaults for three keys. Keys travel as their
    names. */
module SettingsService {
  import opened Types
  import opened Strings
  import opened Failures
  import C = Cache

  /** The stored type tag of a setting. */
  datatype ValueType = IntegerType | BooleanType | StringType

  /** A setting as held in the cache and sent to clients. */
  datatype Setting = Setting(valueType: ValueType, value: SettingValue, labelText: string)

  /** A row of the `setting` table: the value is stored as text. */
  datatype SettingRow = SettingRow(valueType: ValueType, value: string, labelText: Option<string>)

  /** The service's state: its cache and the table. */
  datatype Service = Service(cache: C.Cache<string, Setting>, rows: map<string, SettingRow>)

  datatype Outcome<+T> = Outcome(service: Service, reply: Reply<T>)

  /** The built-in defaults; the other keys have none. */
  const Defaults: map<string, Setting> := map[
    KeyName(EnableRegistration) := Setting(BooleanType, Bool(true), "Enable registration"),
    KeyName(MinPasswordLength) := Setting(IntegerType, Int(8), "Minimum password length"),
    KeyName(Motd) := Setting(StringType, Str("Welcome to YAR! Change this message in settings."), "MOTD (Message of the day)")]

  /** The names a plain object inherits from `Object.prototype`. Looking one up in the
      defaults object finds an inherited member whose `.label` is `undefined`, not a
      missing entry. */
  const InheritedNames: set<string> := {
    "constructor", "__proto__", "toString", "toLocaleString", "valueOf", "hasOwnProperty",
    "isPrototypeOf", "propertyIsEnumerable", "__defineGetter__", "__defineSetter__",
    "__lookupGetter__", "__lookupSetter__"}

  /** No settings key names an inherited member. */
  lemma KeyNamesAreOwn(k: SettingsKey)
    ensures KeyName(k) !in InheritedNames
  {
  }

  /** The key whose assignment on a plain object sets its prototype instead of adding a
      property. */
  const ProtoKey := "__proto__"

  /** A number JSON carries exactly: within `Number.MAX_SAFE_INTEGER` of zero. Beyond it
      JSON parsing rounds, and from 1e21 on `String` writes an exponent that `parseInt`
      stops at. */
  predicate IsSafeNumber(v: SettingValue) {
    v.Int? ==> -9_007_199_254_740_991 <= v.i <= 9_007_199_254_740_991
  }

  /** Settings readable without signing in. */
  predicate IsPublic(key: string) {
    key == KeyName(EnableRegistration) || key == KeyName(MinPasswordLength)
  }

  /** Exactly ENABLE_REGISTRATION and MIN_PASSWORD_LENGTH are public. */
  lemma PublicKeys(k: SettingsKey)
    ensures IsPublic(KeyName(k)) <==> k == EnableRegistration || k == MinPasswordLength
  {
  }

  /** Only ENABLE_REGISTRATION, MIN_PASSWORD_LENGTH and MOTD have defaults. */
  lemma DefaultedKeys(k: SettingsKey)
    ensures KeyName(k) in Defaults <==> k == EnableRegistration || k == MinPasswordLength || k == Motd
  {
  }

  /** `typeof value`: numbers (NaN included) are INTEGER, booleans BOOLEAN, the rest
      STRING. */
  function GetValueType(v: SettingValue): (t: ValueType)
    ensures t == IntegerType <==> v.Int? || v.NaN?
    ensures t == BooleanType <==> v.Bool?
    ensures t == StringType <==> v.Str?
  {
    match v
    case Int(_) => IntegerType
    case NaN => IntegerType
    case Bool(_) => BooleanType
    case Str(_) => StringType
  }

  /** `String(value)`: the text persisted for a value. */
  function Stringify(v: SettingValue): string {
    match v
    case Str(s) => s
    case Int(i) => IntToString(i)
    case Bool(b) => if b then "true" else "false"
    case NaN => "NaN"
  }

  /** `parseValue`: INTEGER is `parseInt` of the value's text, BOOLEAN is a comparison
      with the string "true" (so a boolean `true` itself compares unequal), STRING is the
      value unchanged. */
  function ParseValue(v: SettingValue, t: ValueType): (r: SettingValue)
    ensures t == BooleanType ==> r == Bool(v == Str("true"))
    ensures t == StringType ==> r == v
    ensures t == IntegerType ==> (r.Int? <==> ParseInt(Stringify(v)).Some?)
    ensures t == IntegerType && r.Int? ==> r.i == ParseInt(Stringify(v)).value
  {
    match t
    case IntegerType =>
      (match ParseInt(Stringify(v))
       case Some(i) => Int(i)
       case None => NaN)
    case BooleanType => Bool(v == Str("true"))
    case StringType => v
  }

  /** Persisting a value as text and parsing the text back with the type the value was
      tagged with gives the value back. */
  lemma StoredValueRoundTrip(v: SettingValue)
    requires !v.NaN? && IsSafeNumber(v)
    ensures ParseValue(Str(Stringify(v)), GetValueType(v)) == v
  {
    if v.Int? {
      ParseIntOfIntToString(v.i);
    }
  }

  /** The cached form of a table row: parsed value, and the key when the label is null. */
  function FromRow(key: string, row: SettingRow): (s: Setting)
    ensures s.valueType == row.valueType && s.value == ParseValue(Str(row.value), row.valueType)
    ensures s.labelText == (if row.labelText.Some? then row.labelText.value else key)
  {
    Setting(row.valueType, ParseValue(Str(row.value), row.valueType), row.labelText.GetOr(key))
  }

  /** Every slot of a settings cache holds a setting (setting objects are always truthy). */
  ghost predicate NoEchoes(c: C.Cache<string, Setting>) {
    forall k :: k in c.entries ==> c.entries[k].Held?
  }

  function Truthy(s: Setting): bool { true }

  /** `getSettings`: clear the cache, put back the defaults, lay every row over them, and
      return the whole cache. */
  function GetSettings(svc: Service): (o: Outcome<map<string, C.Slot<string, Setting>>>)
    ensures o.service.rows == svc.rows && o.reply.Ok?
    ensures o.reply.value == o.service.cache.entries && NoEchoes(o.service.cache)
    ensures o.service.cache.entries.Keys == Defaults.Keys + svc.rows.Keys
    ensures forall k :: k in svc.rows ==> o.service.cache.entries[k] == C.Held(FromRow(k, svc.rows[k]))
    ensures forall k :: k in Defaults && k !in svc.rows ==> o.service.cache.entries[k] == C.Held(Defaults[k])
  {
    var cleared := C.Clear(svc.cache);
    var withDefaults := C.Cache(map k | k in Defaults :: C.Held(Defaults[k]));
    var loaded := C.Cache(map k | k in Defaults.Keys + svc.rows.Keys ::
                            if k in svc.rows then C.Held(FromRow(k, svc.rows[k])) else withDefaults.entries[k]);
    Outcome(Service(loaded, svc.rows), Ok(loaded.entries))
  }

  /** A cache slot counts as a hit when it is truthy: a held setting, or an echoed
      non-empty key. */
  predicate Hit(slot: C.Slot<string, Setting>) {
    slot.Held? || slot.key != ""
  }

  /** `getSetting`: a cache hit answers from the cache; a miss reads the row, caches it
      and answers the parsed value; a miss with no row answers null (`None`) and changes
      nothing. */
  function GetSetting(svc: Service, key: string): (o: Outcome<Option<SettingValue>>)
    ensures o.reply.Ok? && o.service.rows == svc.rows
    ensures key in svc.cache.entries && svc.cache.entries[key].Held? ==>
      o.service == svc && o.reply.value == Some(svc.cache.entries[key].value.value)
    ensures key !in svc.cache.entries && key in svc.rows ==>
      && o.service.cache == C.Set(svc.cache, key, Some(FromRow(key, svc.rows[key])), Truthy)
      && o.reply.value == Some(FromRow(key, svc.rows[key]).value)
    ensures key !in svc.cache.entries && key !in svc.rows ==> o.service == svc && o.reply.value.None?
    ensures NoEchoes(svc.cache) ==> NoEchoes(o.service.cache)
  {
    var slot := C.Get(svc.cache, key);
    if slot.Some? && Hit(slot.value) then
      Outcome(svc, Ok(if slot.value.Held? then Some(slot.value.value.value) else None))
    else if key in svc.rows then
      var s := FromRow(key, svc.rows[key]);
      Outcome(svc.(cache := C.Set(svc.cache, key, Some(s), Truthy)), Ok(Some(s.value)))
    else Outcome(svc, Ok(None))
  }

  /** The service as the process creates it: the defaults are handed to a constructor
      that does not exist, so the cache starts empty. */
  function Start(rows: map<string, SettingRow>): (svc: Service)
    ensures svc.cache.entries == map[] && svc.rows == rows
  {
    Service(C.New(Defaults), rows)
  }

  /** The evidently intended start: the cache holds the defaults. */
  function StartPrimed(rows: map<string, SettingRow>): (svc: Service)
    ensures svc.cache.entries.Keys == Defaults.Keys && NoEchoes(svc.cache) && svc.rows == rows
  {
    Service(C.NewPrimed(Defaults), rows)
  }

  /** Before anything loads the settings, a defaulted key without a row reads as null:
      on an empty table ENABLE_REGISTRATION is null rather than its default `true`. */
  lemma DefaultsUnseenBeforeLoad()
    ensures GetSetting(Start(map[]), KeyName(EnableRegistration)).reply.value.None?
    ensures GetSetting(StartPrimed(map[]), KeyName(EnableRegistration)).reply.value == Some(Bool(true))
  {
  }

  /** With the primed start, every defaulted key reads as its default until something
      else is stored for it. */
  lemma PrimedServesDefaults(rows: map<string, SettingRow>, key: string)
    requires key in Defaults
    ensures GetSetting(StartPrimed(rows), key).reply.value == Some(Defaults[key].value)
  {
  }

  /** The label `setSetting` records: the given one, else the default entry's, else the
      key. */
  function LabelFor(key: string, labelText: Option<string>): (r: string)
    ensures labelText.Some? ==> r == labelText.value
    ensures labelText.None? && key in Defaults ==> r == Defaults[key].labelText
    ensures labelText.None? && key !in Defaults ==> r == key
  {
    if labelText.Some? then labelText.value else if key in Defaults then Defaults[key].labelText else key
  }

  /** `setSetting` as written. The label is the given one or the default entry's; for a
      key with no default entry, no inherited member and no label the lookup of `.label`
      on `undefined` throws before anything changes. The cache gets `parseValue(value, typeof value)`,
      so a boolean `true` is cached as `false`. The table gets the value's text, and a
      new row the label; an existing row keeps its label. */
  function SetSettingAsWritten(svc: Service, key: string, value: SettingValue, labelText: Option<string>): (o: Outcome<SettingValue>)
    ensures o.reply.Err? <==> labelText.None? && key !in Defaults && key !in InheritedNames
    ensures o.reply.Err? ==> o.service == svc && o.reply.failure.status == 200
    ensures o.reply.Ok? ==>
      var t := GetValueType(value);
      && o.reply.value == value
      && key in o.service.cache.entries
      && o.service.cache.entries[key] == C.Held(Setting(t, ParseValue(value, t), LabelFor(key, labelText)))
      && key in o.service.rows
      && o.service.rows[key].value == Stringify(value) && o.service.rows[key].valueType == t
      && (forall k :: k != key ==> C.Get(o.service.cache, k) == C.Get(svc.cache, k))
  {
    if labelText.None? && key !in Defaults && key !in InheritedNames then
      Outcome(svc, Throw(200, "Cannot read properties of undefined (reading 'label')"))
    else
      var lbl := LabelFor(key, labelText);
      var t := GetValueType(value);
      var cache := C.Set(svc.cache, key, Some(Setting(t, ParseValue(value, t), lbl)), Truthy);
      var row := if key in svc.rows then svc.rows[key].(valueType := t, value := Stringify(value))
                 else SettingRow(t, Stringify(value), Some(lbl));
      Outcome(Service(cache, svc.rows[key := row]), Ok(value))
  }

  /** Setting ENABLE_REGISTRATION to `true` as written: the cache then answers `false`
      while the table holds "true", so the answer flips back to `true` once the cache is
      reloaded. */
  lemma BooleanTrueCachedFalse(svc: Service)
    ensures var o := SetSettingAsWritten(svc, KeyName(EnableRegistration), Bool(true), None);
      && GetSetting(o.service, KeyName(EnableRegistration)).reply.value == Some(Bool(false))
      && GetSetting(GetSettings(o.service).service, KeyName(EnableRegistration)).reply.value == Some(Bool(true))
  {
    var key := KeyName(EnableRegistration);
    var o := SetSettingAsWritten(svc, key, Bool(true), None);
    assert key in Defaults;
    var t := GetValueType(Bool(true));
    assert t == BooleanType && ParseValue(Bool(true), t) == Bool(false);
    AnswerFromCache(o.service, key, Setting(t, Bool(false), LabelFor(key, None)));
    assert o.service.rows[key].value == "true";
    AnswerAfterReload(o.service, key);
  }

  /** A held slot is the answer. */
  lemma AnswerFromCache(svc: Service, key: string, s: Setting)
    requires key in svc.cache.entries && svc.cache.entries[key] == C.Held(s)
    ensures GetSetting(svc, key).reply.value == Some(s.value)
  {
  }

  /** After a reload a stored key answers the parse of its row. */
  lemma AnswerAfterReload(svc: Service, key: string)
    requires key in svc.rows
    ensures GetSetting(GetSettings(svc).service, key).reply.value == Some(FromRow(key, svc.rows[key]).value)
  {
    var reloaded := GetSettings(svc).service;
    assert reloaded.cache.entries[key] == C.Held(FromRow(key, svc.rows[key]));
  }

  /** As written, an administrator cannot set INSTANCE_TITLE (or any other key without
      a default) through the route, which passes no label. */
  lemma UndefaultedKeyCannotBeSet(svc: Service, value: SettingValue)
    ensures SetSettingAsWritten(svc, KeyName(InstanceTitle), value, None).reply.Err?
  {
    DefaultedKeys(InstanceTitle);
    KeyNamesAreOwn(InstanceTitle);
  }

  /** As written, a key naming an inherited member of a plain object is stored under
      its own name as label, although it has no default either. */
  lemma InheritedNameIsStored(svc: Service, value: SettingValue)
    ensures var o := SetSettingAsWritten(svc, "constructor", value, None);
      && o.reply == Ok(value)
      && o.service.cache.entries["constructor"].value.labelText == "constructor"
  {
    assert "constructor" !in Defaults;
  }

  /** `setSetting` as evidently intended: the label falls back to the default entry's and
      then to the key, and the cache holds what the table will give back, the parse of
      the persisted text. */
  function SetSetting(svc: Service, key: string, value: SettingValue, labelText: Option<string>): (o: Outcome<SettingValue>)
    ensures o.reply == Ok(value) && key in o.service.cache.entries && key in o.service.rows
    ensures o.service.rows[key].value == Stringify(value) && o.service.rows[key].valueType == GetValueType(value)
    ensures o.service.cache.entries[key] == C.Held(FromRow(key, o.service.rows[key]).(labelText := LabelFor(key, labelText)))
    ensures forall k :: k != key ==> C.Get(o.service.cache, k) == C.Get(svc.cache, k)
    ensures forall k :: k != key && k in svc.rows ==> k in o.service.rows && o.service.rows[k] == svc.rows[k]
    ensures NoEchoes(svc.cache) ==> NoEchoes(o.service.cache)
  {
    var lbl := LabelFor(key, labelText);
    var t := GetValueType(value);
    var cache := C.Set(svc.cache, key, Some(Setting(t, ParseValue(Str(Stringify(value)), t), lbl)), Truthy);
    var row := if key in svc.rows then svc.rows[key].(valueType := t, value := Stringify(value))
               else SettingRow(t, Stringify(value), Some(lbl));
    Outcome(Service(cache, svc.rows[key := row]), Ok(value))
  }

  /** With the intended `setSetting`, a stored value reads back as itself, both from the
      cache and after the cache is reloaded from the table. */
  lemma SetThenGet(svc: Service, key: string, value: SettingValue, labelText: Option<string>)
    requires !value.NaN? && IsSafeNumber(value)
    ensures var s := SetSetting(svc, key, value, labelText).service;
      && GetSetting(s, key).reply.value == Some(value)
      && GetSetting(GetSettings(s).service, key).reply.value == Some(value)
  {
    StoredValueRoundTrip(value);
  }

  /** `toObject`: a plain object with the map's entries as own properties, except that
      assigning `__proto__` replaces the object's prototype, which `res.json` does not
      serialise. */
  function ToObject(data: map<string, C.Slot<string, Setting>>): (obj: map<string, C.Slot<string, Setting>>)
    ensures obj.Keys == data.Keys - {ProtoKey}
    ensures forall k :: k in obj ==> obj[k] == data[k]
  {
    map k | k in data && k != ProtoKey :: data[k]
  }

  /** The object GET /settings sends holds every defaulted key and every stored key but
      `__proto__`, each row's parsed value over its default. */
  lemma SettingsObjectCoversDefaults(svc: Service, key: string)
    requires key in Defaults || key in svc.rows
    ensures var obj := ToObject(GetSettings(svc).reply.value);
      (key in obj <==> key != ProtoKey)
      && (key != ProtoKey ==>
            && obj[key].Held?
            && obj[key].value.value == (if key in svc.rows then ParseValue(Str(svc.rows[key].value), svc.rows[key].valueType)
                                        else Defaults[key].value))
  {
  }
}

=== FILE: sorting.dfy ===
/** Ordering rows by a numeric column, largest first, as a database `orderBy: desc`
    returns them, and listing the members of a finite set. */
module Sorting {

  /** `s` is ordered by `key`, largest first. */
  ghost predicate SortedDesc<T>(s: seq<T>, key: T -> int) {
    forall i, j :: 0 <= i < j < |s| ==> key(s[i]) >= key(s[j])
  }

  /** A head followed by an ordered sequence is ordered exactly when nothing after it
      has a larger key. */
  lemma ConsSorted<T>(h: T, rest: seq<T>, key: T -> int)
    ensures SortedDesc([h] + rest, key) <==>
      SortedDesc(rest, key) && forall i :: 0 <= i < |rest| ==> key(rest[i]) <= key(h)
  {
    var s := [h] + rest;
    if SortedDesc(rest, key) && forall i :: 0 <= i < |rest| ==> key(rest[i]) <= key(h) {
      forall i, j | 0 <= i < j < |s|
        ensures key(s[i]) >= key(s[j])
      {
        assert s[j] == rest[j - 1];
        if i > 0 {
          assert s[i] == rest[i - 1];
        } else {
          assert s[i] == h;
        }
      }
    }
    if SortedDesc(s, key) {
      forall i, j | 0 <= i < j < |rest|
        ensures key(rest[i]) >= key(rest[j])
      {
        assert rest[i] == s[i + 1] && rest[j] == s[j + 1];
      }
      forall i | 0 <= i < |rest|
        ensures key(rest[i]) <= key(h)
      {
        assert rest[i] == s[i + 1] && h == s[0];
      }
    }
  }

  /** A permutation has the same members. */
  lemma PermutationMembers<T>(a: seq<T>, b: seq<T>)
    requires multiset(a) == multiset(b)
    ensures forall x :: x in a <==> x in b
  {
    forall x
      ensures x in a <==> x in b
    {
      assert x in a <==> x in multiset(a);
      assert x in b <==> x in multiset(b);
    }
  }

  /** Everything in `rest`, a permutation of `tail` and `x`, is bounded by a bound of both. */
  lemma BoundedPermutation<T>(x: T, tail: seq<T>, rest: seq<T>, key: T -> int, bound: int)
    requires multiset(rest) == multiset(tail) + multiset{x}
    requires key(x) <= bound && forall i :: 0 <= i < |tail| ==> key(tail[i]) <= bound
    ensures forall i :: 0 <= i < |rest| ==> key(rest[i]) <= bound
  {
    forall i | 0 <= i < |rest|
      ensures key(rest[i]) <= bound
    {
      assert rest[i] in multiset(rest);
      if rest[i] != x {
        assert rest[i] in multiset(tail);
        var k :| 0 <= k < |tail| && tail[k] == rest[i];
      }
    }
  }

  /** Inserts `x` into a sequence already ordered by `key`. */
  function Insert<T>(x: T, s: seq<T>, key: T -> int): (r: seq<T>)
    requires SortedDesc(s, key)
    ensures SortedDesc(r, key)
    ensures multiset(r) == multiset(s) + multiset{x}
    ensures |r| == |s| + 1
    ensures x in r && forall y :: y in s ==> y in r
    ensures forall y :: y in r ==> y == x || y in s
  {
    if s == [] then [x]
    else if key(x) >= key(s[0]) then
      ConsSorted(x, s, key);
      [x] + s
    else
      var tail := s[1..];
      assert s == [s[0]] + tail;
      ConsSorted(s[0], tail, key);
      var rest := Insert(x, tail, key);
      BoundedPermutation(x, tail, rest, key, key(s[0]));
      ConsSorted(s[0], rest, key);
      var r := [s[0]] + rest;
      assert multiset(r) == multiset(s) + multiset{x};
      PermutationMembers(r, s + [x]);
      r
  }

  /** Orders `s` by `key`, largest first; rows with equal keys come in no promised order. */
  function SortDesc<T>(s: seq<T>, key: T -> int): (r: seq<T>)
    ensures SortedDesc(r, key)
    ensures multiset(r) == multiset(s)
    ensures |r| == |s|
    ensures forall x :: x in r ==> x in s
    ensures forall x :: x in s ==> x in r
  {
    if s == [] then []
    else
      assert s == [s[0]] + s[1..];
      Insert(s[0], SortDesc(s[1..], key), key)
  }

  /** The members of a finite set in some order, each once. */
  ghost function Enumerate<T(!new)>(s: set<T>): (r: seq<T>)
    ensures multiset(r) == multiset(s)
    ensures |r| == |s|
    ensures forall x :: x in r <==> x in s
  {
    if s == {} then []
    else
      var x :| x in s;
      var rest := Enumerate(s - {x});
      assert multiset(s) == multiset(s - {x}) + multiset{x};
      [x] + rest
  }
}

=== FILE: string_generator.dfy ===
/** `StringGeneratorService.generate` of the backend: `length` characters, each drawn from
    `characters` at the index `Math.floor(Math.random() * characters.length)`, which is
    the oracle `pick(i, n)` of `Generators`. */
module StringGenerator {
  import opened Generators

  /** `generate(length, characters)`. With an empty alphabet every draw is
      `"".charAt(0)`, the empty string, so the result is empty whatever the length. */
  method Generate(length: int, characters: string, pick: (nat, nat) -> nat) returns (r: string)
    requires PicksInRange(pick)
    ensures |characters| > 0 ==> |r| == (if length < 0 then 0 else length)
    ensures |characters| == 0 || length <= 0 ==> r == ""
    ensures forall i :: 0 <= i < |r| ==> r[i] in characters
    ensures |characters| > 0 ==> forall i :: 0 <= i < |r| ==> r[i] == characters[pick(i, |characters|)]
    ensures characters == Alphanumeric ==> r == Uid(length, pick)
  {
    r := "";
    var n := |characters|;
    var i := 0;
    while i < length
      invariant 0 <= i && (length >= 0 ==> i <= length) && (length < 0 ==> i == 0)
      invariant n > 0 ==> |r| == i
      invariant n == 0 ==> r == ""
      invariant n > 0 ==> forall k :: 0 <= k < |r| ==> r[k] == characters[pick(k, n)]
    {
      if n > 0 {
        r := r + [characters[pick(i, n)]];
      }
      i := i + 1;
    }
    if characters == Alphanumeric {
      UidAgrees(r, length, pick);
    }
  }

  lemma UidAgrees(r: string, length: int, pick: (nat, nat) -> nat)
    requires PicksInRange(pick)
    requires |r| == (if length < 0 then 0 else length)
    requires forall k :: 0 <= k < |r| ==> r[k] == Alphanumeric[pick(k, 62)]
    ensures r == Uid(length, pick)
  {
    var u := Uid(length, pick);
    assert |u| == |r|;
    forall k | 0 <= k < |r|
      ensures r[k] == u[k]
    {
    }
  }

  /** Called with no arguments, `generate` gives 16 characters of the alphanumeric
      alphabet. */
  method GenerateDefault(pick: (nat, nat) -> nat) returns (r: string)
    requires PicksInRange(pick)
    ensures |r| == DefaultLength
    ensures forall i :: 0 <= i < |r| ==> r[i] in Alphanumeric
  {
    r := Generate(DefaultLength, Alphanumeric, pick);
  }
}

=== FILE: strings.dfy ===
/** The JavaScript string operations the services rely on, over `string` = `seq<char>`:
    split/join on one separator character, trim, first-occurrence replace, padding,
    decimal printing and `parseInt`. */
module Strings {
  import opened Types

  // ---------------------------------------------------------------------------
  // split / join on a single separator character

  /** Occurrences of `c` in `s`. */
  function Count(s: string, c: char): nat {
    if |s| == 0 then 0 else (if s[0] == c then 1 else 0) + Count(s[1..], c)
  }

  /** `s.split(sep)`: never empty, and no piece contains the separator. */
  function Split(s: string, sep: char): (parts: seq<string>)
    ensures |parts| == Count(s, sep) + 1
    ensures forall i :: 0 <= i < |parts| ==> sep !in parts[i]
    decreases |s|
  {
    if |s| == 0 then [""]
    else
      var rest := Split(s[1..], sep);
      if s[0] == sep then [""] + rest
      else [[s[0]] + rest[0]] + rest[1..]
  }

  /** `parts.join(sep)`; the empty array joins to the empty string. */
  function Join(parts: seq<string>, sep: char): string {
    if |parts| == 0 then ""
    else if |parts| == 1 then parts[0]
    else parts[0] + [sep] + Join(parts[1..], sep)
  }

  /** Joining the pieces of a split gives back the string. */
  lemma {:induction false} JoinSplit(s: string, sep: char)
    ensures Join(Split(s, sep), sep) == s
    decreases |s|
  {
    if |s| > 0 {
      var rest := Split(s[1..], sep);
      JoinSplit(s[1..], sep);
      JoinOpensEmpty(rest, sep, s[1..]);
      JoinGrowsFirst(s[0], rest, sep, s[1..]);
      assert s == [s[0]] + s[1..];
    }
  }

  /** A new empty first piece puts a separator in front of the join. */
  lemma JoinOpensEmpty(rest: seq<string>, sep: char, tail: string)
    requires |rest| >= 1 && Join(rest, sep) == tail
    ensures Join([""] + rest, sep) == [sep] + tail
  {
    assert ([""] + rest)[1..] == rest;
  }

  /** A character put in front of the first piece goes in front of the join. */
  lemma JoinGrowsFirst(c: char, rest: seq<string>, sep: char, tail: string)
    requires |rest| >= 1 && Join(rest, sep) == tail
    ensures Join([[c] + rest[0]] + rest[1..], sep) == [c] + tail
  {
    var parts := [[c] + rest[0]] + rest[1..];
    if |rest| > 1 {
      assert parts[1..] == rest[1..];
      assert Join(parts, sep) == ([c] + rest[0]) + [sep] + Join(rest[1..], sep);
      assert tail == rest[0] + [sep] + Join(rest[1..], sep);
    }
  }

  lemma {:induction false} SplitWithoutSeparator(p: string, sep: char)
    requires sep !in p
    ensures Split(p, sep) == [p]
    decreases |p|
  {
    if |p| > 0 {
      SplitWithoutSeparator(p[1..], sep);
      assert [p[0]] + p[1..] == p;
    }
  }

  lemma {:induction false} SplitAfterPiece(p: string, sep: char, rest: string)
    requires sep !in p
    ensures Split(p + [sep] + rest, sep) == [p] + Split(rest, sep)
    decreases |p|
  {
    var s := p + [sep] + rest;
    if |p| == 0 {
      assert s[1..] == rest;
    } else {
      assert s[1..] == p[1..] + [sep] + rest;
      SplitAfterPiece(p[1..], sep, rest);
      assert [p[0]] + p[1..] == p;
    }
  }

  /** Two pieces without the separator, joined by it, split back into the two. */
  lemma SplitPair(p: string, q: string, sep: char)
    requires sep !in p && sep !in q
    ensures Split(p + [sep] + q, sep) == [p, q]
  {
    SplitWithoutSeparator(q, sep);
    SplitAfterPiece(p, sep, q);
  }

  /** Splitting a join gives back the pieces, provided there is at least one piece
      and no piece contains the separator. */
  lemma {:induction false} SplitJoin(parts: seq<string>, sep: char)
    requires |parts| >= 1
    requires forall i :: 0 <= i < |parts| ==> sep !in parts[i]
    ensures Split(Join(parts, sep), sep) == parts
    decreases |parts|
  {
    if |parts| == 1 {
      SplitWithoutSeparator(parts[0], sep);
    } else {
      SplitJoin(parts[1..], sep);
      SplitAfterPiece(parts[0], sep, Join(parts[1..], sep));
      assert [parts[0]] + parts[1..] == parts;
    }
  }

  /** The last piece of `s.split(sep)`, i.e. `s.split(sep).at(-1)`: the text after the
      last separator, or all of `s` when it has none. */
  function LastPiece(s: string, sep: char): (r: string)
    ensures sep !in r
  {
    var parts := Split(s, sep);
    parts[|parts| - 1]
  }

  lemma {:induction false} JoinSnoc(ps: seq<string>, p: string, sep: char)
    requires |ps| >= 1
    ensures Join(ps + [p], sep) == Join(ps, sep) + [sep] + p
    decreases |ps|
  {
    if |ps| > 1 {
      JoinSnoc(ps[1..], p, sep);
      assert (ps + [p])[1..] == ps[1..] + [p];
    }
  }

  /** The last piece is a suffix of `s` that is all of `s` or follows a separator. */
  lemma LastPieceIsSuffix(s: string, sep: char)
    ensures var r := LastPiece(s, sep);
      |r| <= |s| && s[|s| - |r|..] == r && (|r| == |s| || s[|s| - |r| - 1] == sep)
  {
    var parts := Split(s, sep);
    var n := |parts|;
    var r := parts[n - 1];
    JoinSplit(s, sep);
    if n > 1 {
      assert parts == parts[..n - 1] + [r];
      JoinSnoc(parts[..n - 1], r, sep);
      assert s == Join(parts[..n - 1], sep) + [sep] + r;
    }
  }

  // ---------------------------------------------------------------------------
  // String.prototype.trim

  /** The ECMAScript WhiteSpace and LineTerminator code points that `trim` removes. */
  predicate IsSpace(c: char) {
    c == ' ' || c == '\t' || c == '\n' || c == '\r' || c == '\U{000B}' || c == '\U{000C}'
    || c == '\U{00A0}' || c == '\U{1680}' || ('\U{2000}' <= c <= '\U{200A}')
    || c == '\U{2028}' || c == '\U{2029}' || c == '\U{202F}' || c == '\U{205F}'
    || c == '\U{3000}' || c == '\U{FEFF}'
  }

  predicate AllSpace(s: string) {
    forall i :: 0 <= i < |s| ==> IsSpace(s[i])
  }

  /** Drops the leading spaces: only spaces are dropped and the result starts with none. */
  function TrimStart(s: string): (r: string)
    ensures |r| <= |s| && r == s[|s| - |r|..]
    ensures forall i :: 0 <= i < |s| - |r| ==> IsSpace(s[i])
    ensures |r| > 0 ==> !IsSpace(r[0])
  {
    if |s| > 0 && IsSpace(s[0]) then TrimStart(s[1..]) else s
  }

  /** Drops the trailing spaces: only spaces are dropped and the result ends with none. */
  function TrimEnd(s: string): (r: string)
    ensures |r| <= |s| && r == s[..|r|]
    ensures forall i :: |r| <= i < |s| ==> IsSpace(s[i])
    ensures |r| > 0 ==> !IsSpace(r[|r| - 1])
  {
    if |s| > 0 && IsSpace(s[|s| - 1]) then TrimEnd(s[..|s| - 1]) else s
  }

  /** Where the trimmed text starts inside the original. */
  function TrimOffset(s: string): nat
    ensures TrimOffset(s) <= |s|
  {
    |s| - |TrimStart(s)|
  }

  /** `s.trim()`: the piece of `s` at `TrimOffset(s)` with only spaces cut on either
      side and no space left at either end. */
  function Trim(s: string): (r: string)
    ensures TrimOffset(s) + |r| <= |s| && s[TrimOffset(s)..TrimOffset(s) + |r|] == r
    ensures forall i :: 0 <= i < TrimOffset(s) ==> IsSpace(s[i])
    ensures forall i :: TrimOffset(s) + |r| <= i < |s| ==> IsSpace(s[i])
    ensures |r| > 0 ==> !IsSpace(r[0]) && !IsSpace(r[|r| - 1])
  {
    var a := TrimStart(s);
    var r := TrimEnd(a);
    TrimPieces(s, a, r);
    r
  }

  /** Cutting a suffix of spaces from the suffix `a` of `s` leaves a piece of `s` followed
      by spaces only. */
  lemma TrimPieces(s: string, a: string, r: string)
    requires |a| <= |s| && a == s[|s| - |a|..]
    requires forall i :: 0 <= i < |s| - |a| ==> IsSpace(s[i])
    requires |a| > 0 ==> !IsSpace(a[0])
    requires |r| <= |a| && r == a[..|r|]
    requires forall i :: |r| <= i < |a| ==> IsSpace(a[i])
    requires |r| > 0 ==> !IsSpace(r[|r| - 1])
    ensures var k := |s| - |a|; k + |r| <= |s| && s[k..k + |r|] == r
    ensures forall i :: |s| - |a| + |r| <= i < |s| ==> IsSpace(s[i])
    ensures |r| > 0 ==> !IsSpace(r[0])
  {
    var k := |s| - |a|;
    forall i | k + |r| <= i < |s|
      ensures IsSpace(s[i])
    {
      assert s[i] == a[i - k];
    }
  }

  /** Trimming is idempotent. */
  lemma TrimIdempotent(s: string)
    ensures Trim(Trim(s)) == Trim(s)
  {
    var r := Trim(s);
    if |r| > 0 {
      assert TrimStart(r) == r;
      assert TrimEnd(r) == r;
    }
  }

  /** The trimmed text is empty exactly when every character is a space. */
  lemma TrimEmptyIffAllSpace(s: string)
    ensures Trim(s) == "" <==> AllSpace(s)
  {
    var r := Trim(s);
    if r != "" {
      assert s[TrimOffset(s)] == r[0];
    }
  }

  /** `filter(Boolean)` on strings: the empty ones are dropped, nothing is trimmed. */
  function NonEmpty(tags: seq<string>): (r: seq<string>)
    ensures |r| <= |tags|
    ensures forall i :: 0 <= i < |r| ==> r[i] != ""
  {
    if |tags| == 0 then []
    else (if tags[0] == "" then [] else [tags[0]]) + NonEmpty(tags[1..])
  }

  /** A tag survives the filter exactly when it was given and is not empty. */
  lemma {:induction false} NonEmptyMembers(tags: seq<string>, t: string)
    ensures t in NonEmpty(tags) <==> t in tags && t != ""
    decreases |tags|
  {
    if |tags| > 0 {
      NonEmptyMembers(tags[1..], t);
      assert tags == [tags[0]] + tags[1..];
    }
  }

  // ---------------------------------------------------------------------------
  // prefixes, substrings and first-occurrence replace

  predicate StartsWith(s: string, p: string) {
    |p| <= |s| && s[..|p|] == p
  }

  /** `q` occurs in `s` at position `i`. */
  predicate OccursAt(s: string, q: string, i: int) {
    0 <= i <= |s| - |q| && s[i..i + |q|] == q
  }

  /** `s.includes(q)`: `q` occurs at some position of `s`. */
  predicate Contains(s: string, q: string) {
    exists i | 0 <= i <= |s| :: OccursAt(s, q, i)
  }

  /** The first position at or after `from` where `pat` occurs. */
  function IndexOfFrom(s: string, pat: string, from: nat): (r: Option<nat>)
    requires from <= |s|
    ensures r.Some? ==> from <= r.value && OccursAt(s, pat, r.value)
    ensures r.Some? ==> forall j :: from <= j < r.value ==> !OccursAt(s, pat, j)
    ensures r.None? ==> forall j :: from <= j ==> !OccursAt(s, pat, j)
    decreases |s| - from
  {
    if |s| - from < |pat| then None
    else if s[from..from + |pat|] == pat then Some(from)
    else IndexOfFrom(s, pat, from + 1)
  }

  /** `s.replace(pat, rep)` with a string pattern: only the first occurrence is replaced,
      wherever it is. */
  function ReplaceFirst(s: string, pat: string, rep: string): (r: string)
    ensures !Contains(s, pat) ==> r == s
  {
    match IndexOfFrom(s, pat, 0)
    case None => s
    case Some(i) => s[..i] + rep + s[i + |pat|..]
  }

  // ---------------------------------------------------------------------------
  // padding

  /** `s.padEnd(n, c)` with a one-character pad. */
  function PadEnd(s: string, n: int, c: char): (r: string)
    ensures |r| == if |s| >= n then |s| else n
    ensures r[..|s|] == s && forall i :: |s| <= i < |r| ==> r[i] == c
  {
    if |s| >= n then s else s + seq(n - |s|, _ => c)
  }

  /** `s.padStart(n, c)` with a one-character pad. */
  function PadStart(s: string, n: int, c: char): (r: string)
    ensures |r| == if |s| >= n then |s| else n
    ensures r[|r| - |s|..] == s && forall i :: 0 <= i < |r| - |s| ==> r[i] == c
  {
    if |s| >= n then s else seq(n - |s|, _ => c) + s
  }

  // ---------------------------------------------------------------------------
  // decimal printing and parseInt

  predicate IsDigit(c: char) { '0' <= c <= '9' }

  function DigitChar(d: nat): char
    requires d < 10
  {
    "0123456789"[d]
  }

  function DigitValue(c: char): nat
    requires IsDigit(c)
  {
    (c as int - '0' as int) as nat
  }

  /** Decimal digits without leading zeros: what JavaScript's `String(n)` writes for a
      non-negative integer below 10^21 (from 10^21 on it writes an exponent form). */
  function NatToString(n: nat): (r: string)
    ensures |r| >= 1 && forall i :: 0 <= i < |r| ==> IsDigit(r[i])
    ensures |r| > 1 ==> r[0] != '0'
  {
    if n < 10 then [DigitChar(n)] else NatToString(n / 10) + [DigitChar(n % 10)]
  }

  /** The decimal form of an integer: JavaScript's `String(i)` for |i| below 10^21. */
  function IntToString(i: int): string {
    if i < 0 then "-" + NatToString(-i) else NatToString(i)
  }

  /** The value of a string of decimal digits. */
  function DecimalValue(ds: string): nat
    requires forall i :: 0 <= i < |ds| ==> IsDigit(ds[i])
  {
    if |ds| == 0 then 0 else DecimalValue(ds[..|ds| - 1]) * 10 + DigitValue(ds[|ds| - 1])
  }

  lemma {:induction false} DecimalValueOfNatToString(n: nat)
    ensures DecimalValue(NatToString(n)) == n
  {
    if n >= 10 {
      DecimalValueOfNatToString(n / 10);
      var r := NatToString(n);
      assert r[..|r| - 1] == NatToString(n / 10);
    }
  }

  predicate IsHexDigit(c: char) {
    IsDigit(c) || ('a' <= c <= 'f') || ('A' <= c <= 'F')
  }

  function HexValue(c: char): nat
    requires IsHexDigit(c)
  {
    if IsDigit(c) then DigitValue(c)
    else if 'a' <= c <= 'f' then (c as int - 'a' as int + 10) as nat
    else (c as int - 'A' as int + 10) as nat
  }

  /** The longest prefix of `s` whose characters satisfy `ok`. */
  function PrefixWhile(s: string, ok: char -> bool): (r: string)
    ensures |r| <= |s| && r == s[..|r|]
    ensures forall i :: 0 <= i < |r| ==> ok(r[i])
    ensures |r| < |s| ==> !ok(s[|r|])
  {
    if |s| > 0 && ok(s[0]) then
      var rest := PrefixWhile(s[1..], ok);
      [s[0]] + rest
    else ""
  }

  function RadixValue(ds: string, radix: nat): nat
    requires radix == 10 || radix == 16
    requires forall i :: 0 <= i < |ds| ==> IsHexDigit(ds[i])
  {
    if |ds| == 0 then 0 else RadixValue(ds[..|ds| - 1], radix) * radix + HexValue(ds[|ds| - 1])
  }

  /** The unsigned part of `parseInt`: a `0x` or `0X` prefix selects base 16, and the
      longest run of digits that follows is read; `None` when there is no digit. */
  function ParseUnsigned(u: string): Option<nat> {
    var hex := |u| >= 2 && u[0] == '0' && (u[1] == 'x' || u[1] == 'X');
    var digits := if hex then PrefixWhile(u[2..], IsHexDigit) else PrefixWhile(u, IsDigit);
    if |digits| == 0 then None
    else Some(RadixValue(digits, if hex then 16 else 10))
  }

  /** `parseInt(s)` with no radix: leading white space and one sign are skipped and the
      rest is read by `ParseUnsigned`; `None` stands for `NaN`. */
  function ParseInt(s: string): Option<int> {
    var t := TrimStart(s);
    var signed := |t| > 0 && (t[0] == '-' || t[0] == '+');
    var u := if signed then t[1..] else t;
    match ParseUnsigned(u)
    case None => None
    case Some(v) =>
      var value: int := if signed && t[0] == '-' then 0 - v as int else v as int;
      Some(value)
  }

  lemma {:induction false} RadixValueDecimal(ds: string)
    requires forall i :: 0 <= i < |ds| ==> IsDigit(ds[i])
    ensures RadixValue(ds, 10) == DecimalValue(ds)
  {
    if |ds| > 0 {
      RadixValueDecimal(ds[..|ds| - 1]);
    }
  }

  lemma ParseUnsignedOfNatToString(n: nat)
    ensures ParseUnsigned(NatToString(n)) == Some(n)
  {
    var ds := NatToString(n);
    assert !(|ds| >= 2 && ds[0] == '0');
    assert PrefixWhile(ds, IsDigit) == ds;
    DecimalValueOfNatToString(n);
    RadixValueDecimal(ds);
  }

  /** `parseInt(String(i)) == i`: printing an integer and parsing it back loses nothing. */
  lemma ParseIntOfIntToString(i: int)
    ensures ParseInt(IntToString(i)) == Some(i)
  {
    var n: nat := if i < 0 then -i else i;
    var s := IntToString(i);
    assert !IsSpace(s[0]);
    assert TrimStart(s) == s;
    ParseUnsignedOfNatToString(n);
    if i < 0 {
      assert s[1..] == NatToString(n);
    } else {
      assert !(s[0] == '-' || s[0] == '+');
    }
  }
}

=== FILE: token_service.dfy ===
/** The refresh-token table operations of the token service: issuing a session record,
    looking it up and revoking one or all of a user's sessions. The signed tokens
    themselves are not built here: a session is identified by its record, and the
    refresh token handed out carries that record's `token` as its `jti`. */
module TokenService {
  import opened Types
  import opened Db
  import opened Failures

  /** `ms('15m')`: the lifetime of an access token, in milliseconds. */
  const AccessTokenLifetime: int := 15 * 60 * 1000

  /** `ms('7d')`: the refresh lifetime used when the setting is null. */
  const DefaultRefreshLifetime: int := 7 * 24 * 60 * 60 * 1000

  /** The refresh lifetime in milliseconds: the REFRESH_TOKEN_EXPIRY_DURATION setting
      read by the duration parser `ms` (an oracle, `None` for text it cannot read), or
      seven days when the setting is null. A number or boolean stored there cannot be
      read as a duration (`ms` formats a number into text and rejects a boolean). */
  function RefreshLifetime(setting: Option<SettingValue>, ms: string -> Option<int>): (r: Option<int>)
    ensures setting.None? ==> r == Some(604800000)
    ensures setting.Some? && setting.value.Str? ==> r == ms(setting.value.s)
    ensures setting.Some? && !setting.value.Str? ==> r.None?
  {
    match setting
    case None => Some(DefaultRefreshLifetime)
    case Some(Str(s)) => ms(s)
    case Some(_) => None
  }

  /** The largest distance from the epoch, in milliseconds, that a JavaScript `Date` can
      hold; `new Date(t)` beyond it is an invalid date. */
  const MaxTimeValue: int := 8_640_000_000_000_000

  predicate IsTimeValue(t: int) {
    -MaxTimeValue <= t <= MaxTimeValue
  }

  /** The expiry stamped on a record issued at `now`, as `new Date(now + new Date(lifetime).getTime())`
      computes it: `None` when the lifetime is unreadable or either date is invalid, in
      which case the insert rejects the record. */
  function Expiry(setting: Option<SettingValue>, ms: string -> Option<int>, now: int): (r: Option<int>)
    ensures r.Some? <==> RefreshLifetime(setting, ms).Some? && IsTimeValue(RefreshLifetime(setting, ms).value)
                         && IsTimeValue(now + RefreshLifetime(setting, ms).value)
    ensures r.Some? ==> r.value - now == RefreshLifetime(setting, ms).value
  {
    match RefreshLifetime(setting, ms)
    case None => None
    case Some(lifetime) =>
      if IsTimeValue(lifetime) && IsTimeValue(now + lifetime) then Some(now + lifetime) else None
  }

  /** The table after issuing a session, and the new record's id. */
  datatype Issued = Issued(tokens: map<string, RefreshRecord>, id: string)

  /** `refreshToken(userId, userAgent, deviceType)`: stores one new record for `userId`
      carrying the freshly drawn random `token` (the future `jti`), the device name read
      from the user agent, the device type (DESKTOP when none is supplied), and an expiry
      one refresh lifetime after `now`; `setting` is what reading REFRESH_TOKEN_EXPIRY_DURATION
      resolved to. Nothing else in the table changes. When the expiry is not a valid date
      the insert throws and the table is left as it was. */
  ghost function IssueRefreshToken(tokens: map<string, RefreshRecord>, userId: string,
                                   deviceName: string, deviceType: Option<DeviceType>, token: string,
                                   now: int, setting: Option<SettingValue>, ms: string -> Option<int>): (r: Reply<Issued>)
    ensures r.Ok? <==> Expiry(setting, ms, now).Some?
    ensures r.Err? ==> r.failure.errorType.None? && r.failure.status == 200
    ensures r.Ok? ==> r.value.id !in tokens && r.value.tokens.Keys == tokens.Keys + {r.value.id}
    ensures r.Ok? ==> forall id :: id in tokens ==> r.value.tokens[id] == tokens[id]
    ensures r.Ok? ==> r.value.tokens[r.value.id].userId == userId && r.value.tokens[r.value.id].token == token
    ensures r.Ok? ==> r.value.tokens[r.value.id].deviceName == deviceName
    ensures r.Ok? ==> r.value.tokens[r.value.id].deviceType == (if deviceType.Some? then deviceType.value else Desktop)
    ensures r.Ok? ==> r.value.tokens[r.value.id].createdAt == now
    ensures r.Ok? ==> r.value.tokens[r.value.id].expiresAt == Expiry(setting, ms, now).value
  {
    match Expiry(setting, ms, now)
    case None => Throw(200, "Invalid value for argument `expires_at`: Provided Date object is invalid")
    case Some(expiresAt) =>
      var id := FreshKey(tokens);
      var record := RefreshRecord(token, userId, deviceName, deviceType.GetOr(Desktop), now, expiresAt);
      Ok(Issued(tokens[id := record], id))
  }

  /** With the setting unset, a session issued at a representable time lives seven days;
      with a number or boolean stored there, no session can be issued at all. */
  lemma IssuedLifetime(tokens: map<string, RefreshRecord>, userId: string, deviceName: string,
                       deviceType: Option<DeviceType>, token: string, now: int,
                       setting: Option<SettingValue>, ms: string -> Option<int>)
    requires IsTimeValue(now + DefaultRefreshLifetime)
    ensures var r := IssueRefreshToken(tokens, userId, deviceName, deviceType, token, now, setting, ms);
      && (setting.None? ==> r.Ok? && r.value.tokens[r.value.id].expiresAt == now + 604800000)
      && (setting.Some? && !setting.value.Str? ==> r.Err?)
  {
  }

  /** `getById`: the record with that id, if any. */
  function GetById(tokens: map<string, RefreshRecord>, id: string): (r: Option<RefreshRecord>)
    ensures r.Some? <==> id in tokens
    ensures r.Some? ==> r.value == tokens[id]
  {
    if id in tokens then Some(tokens[id]) else None
  }

  /** The store with the record `id` removed (if present) and every other record kept. */
  function Without(tokens: map<string, RefreshRecord>, id: string): (r: map<string, RefreshRecord>)
    ensures r.Keys == tokens.Keys - {id}
    ensures forall k :: k in r ==> r[k] == tokens[k]
  {
    map k | k in tokens && k != id :: tokens[k]
  }

  /** `deleteRefreshTokenById`: removes exactly that record; deleting a missing record
      throws, as the database client does. */
  function DeleteById(tokens: map<string, RefreshRecord>, id: string): (r: Reply<map<string, RefreshRecord>>)
    ensures r.Ok? <==> id in tokens
    ensures r.Ok? ==> r.value.Keys == tokens.Keys - {id}
    ensures r.Ok? ==> forall k :: k in r.value ==> r.value[k] == tokens[k]
  {
    if id in tokens then Ok(Without(tokens, id))
    else Throw(200, "record to delete does not exist")
  }

  /** `deleteAllByUserId`: removes every record of that user and none of anyone else's. */
  function DeleteAllByUser(tokens: map<string, RefreshRecord>, userId: string): (r: map<string, RefreshRecord>)
    ensures forall k :: k in r ==> k in tokens && r[k] == tokens[k] && r[k].userId != userId
    ensures forall k :: k in tokens && tokens[k].userId != userId ==> k in r
  {
    map k | k in tokens && tokens[k].userId != userId :: tokens[k]
  }

  /** The record just issued is the one a lookup by its token finds, provided tokens are
      unique before the new one is added. */
  lemma IssuedIsFoundByToken(tokens: map<string, RefreshRecord>, userId: string, deviceName: string,
                             deviceType: Option<DeviceType>, token: string, now: int,
                             setting: Option<SettingValue>, ms: string -> Option<int>)
    requires TokensUnique(tokens)
    requires forall id :: id in tokens ==> tokens[id].token != token
    ensures var i := IssueRefreshToken(tokens, userId, deviceName, deviceType, token, now, setting, ms);
      i.Ok? ==> TokensUnique(i.value.tokens) && FindByToken(i.value.tokens, Some(token)) == Some(i.value.id)
  {
    var i := IssueRefreshToken(tokens, userId, deviceName, deviceType, token, now, setting, ms);
    if i.Err? { return; }
    var r := i.value;
    var found := FindByToken(r.tokens, Some(token));
    assert r.id in r.tokens && r.tokens[r.id].token == token;
    assert found.Some?;
  }

  /** After revoking all of a user's sessions, no lookup by token finds one of them. */
  lemma NoSessionSurvivesDeleteAll(tokens: map<string, RefreshRecord>, userId: string, jti: Option<string>)
    ensures var f := FindByToken(DeleteAllByUser(tokens, userId), jti);
      f.Some? ==> DeleteAllByUser(tokens, userId)[f.value].userId != userId
  {
  }
}

=== FILE: types.dfy ===
/** Shared enumerations of the backend and web client, and the Option wrapper
    used for nullable columns and optional request fields. */
module Types {

  datatype Option<+T> = None | Some(value: T) {
    function GetOr(default: T): T {
      match this
      case Some(v) => v
      case None => default
    }
  }

  /** A role as stored, comma-joined, in the user row. */
  datatype UserRole = Admin | User

  function RoleName(r: UserRole): (name: string)
    ensures |name| > 0 && ',' !in name
    ensures ParseRole(name) == Some(r)
  {
    match r
    case Admin => "ROLE_ADMIN"
    case User => "ROLE_USER"
  }

  /** The inverse of RoleName; any other string is not a role. */
  function ParseRole(s: string): Option<UserRole> {
    if s == "ROLE_ADMIN" then Some(Admin)
    else if s == "ROLE_USER" then Some(User)
    else None
  }

  /** The `type` claim discriminator of the signed tokens. */
  datatype JwtTokenType = AccessToken | RefreshToken | MediaToken

  function TokenTypeName(t: JwtTokenType): string {
    match t
    case AccessToken => "access"
    case RefreshToken => "refresh"
    case MediaToken => "media"
  }

  /** The flat taxonomy of business errors carried by every failure. */
  datatype ErrorType =
    | Unknown
    | InvalidCredentials
    | TotpRequired
    | TotpInvalid
    | MediaNotFound
    | InvalidUrl
    | InternalServerError
    | MediaNotProcessing
    | Unauthorized
    | InvalidMedia
    | AccessTokenExpired
    | InsufficientPermissions
    | NotFound
    | UsernameTaken
    | MediaAlreadyExists

  /** Instance settings keys; keys travel as their names (route parameters, database rows). */
  datatype SettingsKey =
    | EnableRegistration
    | MinPasswordLength
    | Motd
    | RefreshTokenExpiryDuration
    | AuthBackgroundUrl
    | InstanceTitle

  function KeyName(k: SettingsKey): string {
    match k
    case EnableRegistration => "ENABLE_REGISTRATION"
    case MinPasswordLength => "MIN_PASSWORD_LENGTH"
    case Motd => "MOTD"
    case RefreshTokenExpiryDuration => "REFRESH_TOKEN_EXPIRY_DURATION"
    case AuthBackgroundUrl => "AUTH_BACKGROUND_URL"
    case InstanceTitle => "INSTANCE_TITLE"
  }

  /** A setting's runtime value: `string | number | boolean`, numbers being integers
      here and `NaN` the result of `parseInt` on text without digits. */
  datatype SettingValue = Str(s: string) | Int(i: int) | Bool(b: bool) | NaN

  datatype DeviceType = Desktop | Mobile | Other

  datatype MediaType = Image | Video

  /** File contents are bytes. */
  newtype byte = b: int | 0 <= b < 256
}

=== FILE: upload.dfy ===
/** The `/upload` routes, all behind `isAuthenticated`: the chunked-upload state machine
    of a media row (`/file` creates it processing, `/part` appends, `/complete` closes it
    and publishes a video, `/cancel` discards it), the duplicate check of `/url`, and the
    normalisation of tags and thumbnail extensions. */
module Upload {
  import opened Types
  import opened Strings
  import opened Db
  import opened Failures
  import opened Authentication

  // ---------------------------------------------------------------------------
  // tags

  /** `tags.map((t) => t.trim())`. */
  function TrimAll(tags: seq<string>): (r: seq<string>)
    ensures |r| == |tags|
  {
    seq(|tags|, i requires 0 <= i < |tags| => Trim(tags[i]))
  }

  /** The tags trimmed, with the empty ones dropped, in their original order. */
  function CleanTags(tags: seq<string>): (r: seq<string>)
    ensures |r| <= |tags|
    ensures forall i :: 0 <= i < |r| ==> r[i] != ""
  {
    NonEmpty(TrimAll(tags))
  }

  /** A tag is kept exactly when it is the non-empty trim of some input tag. */
  lemma CleanTagsMembers(tags: seq<string>, t: string)
    ensures t in CleanTags(tags) <==> t != "" && exists i :: 0 <= i < |tags| && Trim(tags[i]) == t
  {
    var ts := TrimAll(tags);
    NonEmptyMembers(ts, t);
    if t in ts {
      var i :| 0 <= i < |ts| && ts[i] == t;
      assert Trim(tags[i]) == t;
    }
    if exists i :: 0 <= i < |tags| && Trim(tags[i]) == t {
      var i :| 0 <= i < |tags| && Trim(tags[i]) == t;
      assert ts[i] == t;
    }
  }

  /** Every kept tag is already trimmed. */
  lemma CleanTagsTrimmed(tags: seq<string>, t: string)
    requires t in CleanTags(tags)
    ensures Trim(t) == t
  {
    CleanTagsMembers(tags, t);
    var i :| 0 <= i < |tags| && Trim(tags[i]) == t;
    TrimIdempotent(tags[i]);
  }

  /** The stored `tags` column: `tags.map(trim).filter(Boolean).join(',')`. */
  function NormalizeTags(tags: seq<string>): string {
    Join(CleanTags(tags), ',')
  }

  /** Trimming never introduces a character. */
  lemma TrimKeepsOut(s: string, c: char)
    requires c !in s
    ensures c !in Trim(s)
  {
    var r := Trim(s);
    var o := TrimOffset(s);
    forall i | 0 <= i < |r|
      ensures r[i] != c
    {
      assert r[i] == s[o + i];
    }
  }

  lemma CleanTagsKeepOut(tags: seq<string>, c: char)
    requires forall i :: 0 <= i < |tags| ==> c !in tags[i]
    ensures forall i :: 0 <= i < |CleanTags(tags)| ==> c !in CleanTags(tags)[i]
  {
    var r := CleanTags(tags);
    forall i | 0 <= i < |r|
      ensures c !in r[i]
    {
      CleanTagsMembers(tags, r[i]);
      var j :| 0 <= j < |tags| && Trim(tags[j]) == r[i];
      TrimKeepsOut(tags[j], c);
    }
  }

  /** The stored column splits back into exactly the cleaned tags, none of them empty,
      provided some tag is not blank and no tag contains a comma; when every tag is blank
      the column is empty. */
  lemma NormalizedTagsSplitBack(tags: seq<string>)
    requires forall i :: 0 <= i < |tags| ==> ',' !in tags[i]
    ensures CleanTags(tags) == [] ==> NormalizeTags(tags) == ""
    ensures CleanTags(tags) != [] ==>
      && Split(NormalizeTags(tags), ',') == CleanTags(tags)
      && forall i :: 0 <= i < |Split(NormalizeTags(tags), ',')| ==> Split(NormalizeTags(tags), ',')[i] != ""
  {
    if CleanTags(tags) != [] {
      CleanTagsKeepOut(tags, ',');
      SplitJoin(CleanTags(tags), ',');
    }
  }

  // ---------------------------------------------------------------------------
  // thumbnail extension of a URL upload

  predicate IsLineTerminator(c: char) {
    c == '\n' || c == '\r' || c == '\U{2028}' || c == '\U{2029}'
  }

  /** The first index at or after `from` whose character satisfies `p`, or `|s|`. */
  function FirstWhere(s: string, from: nat, p: char -> bool): (i: nat)
    requires from <= |s|
    ensures from <= i <= |s|
    ensures forall j :: from <= j < i ==> !p(s[j])
    ensures i < |s| ==> p(s[i])
    decreases |s| - from
  {
    if from == |s| || p(s[from]) then from else FirstWhere(s, from + 1, p)
  }

  /** `s.replace(/\?.*\/, '')`: the first '?' is removed together with what follows it up
      to, not including, the next line terminator (`.` does not match one). */
  function StripQuery(s: string): (r: string)
    ensures '?' !in s ==> r == s
    ensures forall i :: 0 <= i < |r| ==> r[i] in s
    ensures '?' in s ==> |r| < |s|
    ensures (forall i :: 0 <= i < |s| ==> !IsLineTerminator(s[i])) ==>
      '?' !in r && StartsWith(s, r) && (|r| == |s| || s[|r|] == '?')
  {
    var q := FirstWhere(s, 0, c => c == '?');
    if q == |s| then
      assert '?' !in s by {
        forall j | 0 <= j < |s| ensures s[j] != '?' { }
      }
      s
    else
      var e := FirstWhere(s, q, IsLineTerminator);
      assert forall j :: 0 <= j < q ==> s[..q][j] == s[j];
      s[..q] + s[e..]
  }

  /** The thumbnail extension of a URL upload: the text after the last '.' of the
      thumbnail URL, with its query string cut off. It holds no '.', and for a one-line
      URL no '?' either, and is a prefix of the last '.'-piece. */
  function ThumbnailExtension(thumbnailUrl: string): (ext: string)
    ensures '.' !in ext
    ensures (forall i :: 0 <= i < |thumbnailUrl| ==> !IsLineTerminator(thumbnailUrl[i])) ==>
      '?' !in ext && StartsWith(LastPiece(thumbnailUrl, '.'), ext)
  {
    var piece := LastPiece(thumbnailUrl, '.');
    LastPieceIsSuffix(thumbnailUrl, '.');
    assert forall i :: 0 <= i < |piece| ==> piece[i] == thumbnailUrl[|thumbnailUrl| - |piece| + i];
    StripQuery(piece)
  }

  // ---------------------------------------------------------------------------
  // /url

  /** POST /upload/url up to the download: after authentication, a video whose
      `source_url` is the trimmed URL already existing fails MEDIA_ALREADY_EXISTS/409
      unless the query has `force=true`. */
  function UrlUploadGuard(db: Db, credentials: Credentials, url: string, force: Option<string>): (r: Reply<Principal>)
    ensures r.Ok? <==>
      && IsAuthenticated(credentials.header, credentials.decode, db.users).Ok?
      && (force == Some("true") || forall id :: id in db.videos ==> db.videos[id].sourceUrl != Some(Trim(url)))
    ensures r.Ok? ==> r == IsAuthenticated(credentials.header, credentials.decode, db.users)
    ensures IsAuthenticated(credentials.header, credentials.decode, db.users).Ok? && r.Err? ==>
      r == Fail(MediaAlreadyExists, 409, "video already exists")
  {
    match IsAuthenticated(credentials.header, credentials.decode, db.users)
    case Err(f) => Err(f)
    case Ok(p) =>
      if (exists id :: id in db.videos && db.videos[id].sourceUrl == Some(Trim(url))) && force != Some("true") then
        Fail(MediaAlreadyExists, 409, "video already exists")
      else Ok(p)
  }

  // ---------------------------------------------------------------------------
  // the chunked upload

  /** The body of `/file` and `/file/:id/complete`. */
  datatype FileBody = FileBody(ext: string, title: string, url: Option<string>, tags: seq<string>)

  /** What the file system holds under `name`; appending to a missing file creates it. */
  function Contents(files: map<string, seq<byte>>, name: string): seq<byte> {
    if name in files then files[name] else []
  }

  /** The lookup shared by part, complete and cancel: an unknown id fails
      MEDIA_NOT_FOUND/404, a media row no longer processing MEDIA_NOT_PROCESSING/400. */
  function ProcessingMedia(media: map<string, MediaRow>, id: string): (r: Reply<MediaRow>)
    ensures r.Ok? <==> id in media && media[id].processing
    ensures r.Ok? ==> r.value == media[id]
    ensures id !in media ==> r == Fail(MediaNotFound, 404, "media not found")
    ensures id in media && !media[id].processing ==> r == Fail(MediaNotProcessing, 400, "media not processing")
  {
    if id !in media then Fail(MediaNotFound, 404, "media not found")
    else if !media[id].processing then Fail(MediaNotProcessing, 400, "media not processing")
    else Ok(media[id])
  }

  /** The message of a file-system call on a path the model has no file or directory for. */
  const NoSuchFile := "ENOENT: no such file or directory"

  /** POST /upload/file: a VIDEO media row, processing, typed "video/<ext>", is inserted,
      then an empty file is written at `<id>.<ext>` joined onto the media directory. `id`
      is `randomUUID()`, fresh for the media table. When the extension makes that path
      anything but a file directly in the media directory, the write throws with the row
      already in. The reply is the new id (the converter's signed URLs are not
      modelled). */
  function CreateUpload(db: Db, credentials: Credentials, body: FileBody, id: string): (s: Step<string>)
    requires id !in db.media
    ensures s.reply.Ok? <==>
      IsAuthenticated(credentials.header, credentials.decode, db.users).Ok? && IsMediaFile(id, body.ext)
    ensures IsAuthenticated(credentials.header, credentials.decode, db.users).Err? ==>
      s == Step(db, Err(IsAuthenticated(credentials.header, credentials.decode, db.users).failure))
    ensures IsAuthenticated(credentials.header, credentials.decode, db.users).Ok? ==>
      && s.db.users == db.users && s.db.tokens == db.tokens && s.db.videos == db.videos
      && s.db.media == db.media[id := MediaRow(body.ext, Video, "video/" + body.ext, true, None, None)]
    ensures IsAuthenticated(credentials.header, credentials.decode, db.users).Ok? && !IsMediaFile(id, body.ext) ==>
      s.db.files == db.files && s.reply.Err? && s.reply.failure.errorType.None? && s.reply.failure.status == 200
    ensures s.reply.Ok? ==> s.reply.value == id && s.db.files == db.files[FileName(id, body.ext) := []]
  {
    match IsAuthenticated(credentials.header, credentials.decode, db.users)
    case Err(f) => Step(db, Err(f))
    case Ok(_) =>
      var row := MediaRow(body.ext, Video, "video/" + body.ext, true, None, None);
      var inserted := db.(media := db.media[id := row]);
      if !IsMediaFile(id, body.ext) then Step(inserted, Throw(200, NoSuchFile))
      else Step(inserted.(files := db.files[FileName(id, body.ext) := []]), Ok(id))
  }

  /** POST /upload/file/:id/part: the raw body is appended to the media's file. The
      append throws, changing nothing, when the path is not a file directly in the media
      directory. */
  function AppendPart(db: Db, credentials: Credentials, mediaId: string, chunk: seq<byte>): (s: Step<()>)
    ensures s.reply.Err? ==> s.db == db
    ensures s.reply.Ok? <==>
      && IsAuthenticated(credentials.header, credentials.decode, db.users).Ok? && ProcessingMedia(db.media, mediaId).Ok?
      && IsMediaFile(mediaId, db.media[mediaId].extension)
    ensures IsAuthenticated(credentials.header, credentials.decode, db.users).Ok? && ProcessingMedia(db.media, mediaId).Err? ==>
      s.reply == Err(ProcessingMedia(db.media, mediaId).failure)
    ensures IsAuthenticated(credentials.header, credentials.decode, db.users).Ok? && ProcessingMedia(db.media, mediaId).Ok?
            && !IsMediaFile(mediaId, db.media[mediaId].extension) ==>
      s.reply.Err? && s.reply.failure.errorType.None? && s.reply.failure.status == 200
    ensures s.reply.Ok? ==>
      var name := FileName(mediaId, db.media[mediaId].extension);
      && s.db == db.(files := s.db.files)
      && s.db.files.Keys == db.files.Keys + {name}
      && (forall n :: n in db.files && n != name ==> s.db.files[n] == db.files[n])
      && s.db.files[name] == Contents(db.files, name) + chunk
  {
    match IsAuthenticated(credentials.header, credentials.decode, db.users)
    case Err(f) => Step(db, Err(f))
    case Ok(_) =>
      match ProcessingMedia(db.media, mediaId)
      case Err(f) => Step(db, Err(f))
      case Ok(m) =>
        var name := FileName(mediaId, m.extension);
        if !IsMediaFile(mediaId, m.extension) then Step(db, Throw(200, NoSuchFile))
        else Step(db.(files := db.files[name := Contents(db.files, name) + chunk]), Ok(()))
  }

  /** What `/complete` learns from outside: ffprobe's duration, `randomUUID()` for the
      thumbnail, the JPEG ffmpeg renders (`None` when ffmpeg reports an error), and the id
      the database gives the video. */
  datatype CompleteEnv = CompleteEnv(duration: Option<int>, thumbnailId: string, thumbnail: Option<seq<byte>>,
                                     videoId: string)

  /** POST /upload/file/:id/complete. After authentication the work is `Publish`'s. */
  function CompleteUpload(db: Db, credentials: Credentials, mediaId: string, body: FileBody,
                          env: CompleteEnv): (s: Step<string>)
    requires env.thumbnailId !in db.media && env.videoId !in db.videos
    ensures s.reply.Err? && env.thumbnail.Some? ==> s.db == db
    ensures IsAuthenticated(credentials.header, credentials.decode, db.users).Err? ==> s.reply.Err?
    ensures IsAuthenticated(credentials.header, credentials.decode, db.users).Ok? ==>
      s == Publish(db, IsAuthenticated(credentials.header, credentials.decode, db.users).value.id, mediaId, body, env)
  {
    match IsAuthenticated(credentials.header, credentials.decode, db.users)
    case Err(f) => Step(db, Err(f))
    case Ok(p) => Publish(db, p.id, mediaId, body, env)
  }

  /** The body of `/complete` for the caller `authorId`. The media row stops processing
      and records the probed duration and the size of its file; a `<thumbnailId>.jpg`
      IMAGE row and file are added; a video row by the caller points at both, with the
      normalised tags and the given source URL. The 404/400 guards and a missing upload
      file (the size lookup throws) change nothing. When ffmpeg fails to render the
      thumbnail the media row has already been updated, so the upload is left finished
      without a video, and the rejection reaches the error handler. */
  function Publish(db: Db, authorId: string, mediaId: string, body: FileBody, env: CompleteEnv): (s: Step<string>)
    requires env.thumbnailId !in db.media && env.videoId !in db.videos
    ensures s.reply.Err? && env.thumbnail.Some? ==> s.db == db
    ensures s.reply.Ok? <==>
      ProcessingMedia(db.media, mediaId).Ok? && FileName(mediaId, db.media[mediaId].extension) in db.files
      && env.thumbnail.Some?
    ensures ProcessingMedia(db.media, mediaId).Err? ==>
      s.db == db && s.reply.Err? && s.reply.failure == ProcessingMedia(db.media, mediaId).failure
    ensures s.reply.Err? && s.db != db ==>
      var m := db.media[mediaId];
      && ProcessingMedia(db.media, mediaId).Ok? && env.thumbnail.None? && FileName(mediaId, m.extension) in db.files
      && s.reply.failure.errorType.None? && s.reply.failure.status == 200
      && s.db == db.(media := db.media[mediaId := m.(processing := false, duration := env.duration,
                                                     fileSize := Some(|db.files[FileName(mediaId, m.extension)]|))])
    ensures s.reply.Ok? ==>
      var m := db.media[mediaId];
      && s.reply.value == env.videoId
      && s.db.users == db.users && s.db.tokens == db.tokens
      && s.db.media.Keys == db.media.Keys + {env.thumbnailId}
      && (forall k :: k in db.media && k != mediaId ==> s.db.media[k] == db.media[k])
      && s.db.media[mediaId] == m.(processing := false, duration := env.duration,
                                   fileSize := Some(|db.files[FileName(mediaId, m.extension)]|))
      && s.db.media[env.thumbnailId] == MediaRow("jpg", Image, "image/jpg", false, Some(|env.thumbnail.value|), None)
      && s.db.files == db.files[FileName(env.thumbnailId, "jpg") := env.thumbnail.value]
      && s.db.videos.Keys == db.videos.Keys + {env.videoId}
      && (forall k :: k in db.videos ==> s.db.videos[k] == db.videos[k])
      && s.db.videos[env.videoId] == VideoRow(body.title, None, NormalizeTags(body.tags), body.url,
                                              authorId, mediaId, Some(env.thumbnailId))
  {
    match ProcessingMedia(db.media, mediaId)
    case Err(f) => Step(db, Err(f))
    case Ok(m) =>
      var name := FileName(mediaId, m.extension);
      if name !in db.files then Step(db, Throw(200, NoSuchFile))
      else
        match env.thumbnail
        case None =>
          var done := m.(processing := false, duration := env.duration, fileSize := Some(|db.files[name]|));
          Step(db.(media := db.media[mediaId := done]), Throw(200, "ffmpeg exited with an error"))
        case Some(jpeg) => Finish(db, authorId, mediaId, m, body, env, jpeg)
  }

  /** The writes of a completed upload whose file exists, once ffmpeg rendered `jpeg`. */
  function Finish(db: Db, authorId: string, mediaId: string, m: MediaRow, body: FileBody, env: CompleteEnv,
                  jpeg: seq<byte>): (s: Step<string>)
    requires mediaId in db.media && db.media[mediaId] == m
    requires FileName(mediaId, m.extension) in db.files
    requires env.thumbnailId !in db.media && env.videoId !in db.videos
    ensures s.reply == Ok(env.videoId)
    ensures s.db.users == db.users && s.db.tokens == db.tokens
    ensures s.db.media.Keys == db.media.Keys + {env.thumbnailId}
    ensures forall k :: k in db.media && k != mediaId ==> s.db.media[k] == db.media[k]
    ensures s.db.media[mediaId] == m.(processing := false, duration := env.duration,
                                      fileSize := Some(|db.files[FileName(mediaId, m.extension)]|))
    ensures s.db.media[env.thumbnailId] == MediaRow("jpg", Image, "image/jpg", false, Some(|jpeg|), None)
    ensures s.db.files == db.files[FileName(env.thumbnailId, "jpg") := jpeg]
    ensures s.db.videos.Keys == db.videos.Keys + {env.videoId}
    ensures forall k :: k in db.videos ==> s.db.videos[k] == db.videos[k]
    ensures s.db.videos[env.videoId] == VideoRow(body.title, None, NormalizeTags(body.tags), body.url,
                                                 authorId, mediaId, Some(env.thumbnailId))
  {
    var name := FileName(mediaId, m.extension);
    var done := m.(processing := false, duration := env.duration, fileSize := Some(|db.files[name]|));
    var thumb := MediaRow("jpg", Image, "image/jpg", false, Some(|jpeg|), None);
    var video := VideoRow(body.title, None, NormalizeTags(body.tags), body.url, authorId, mediaId, Some(env.thumbnailId));
    Step(db.(media := PutTwo(db.media, mediaId, done, env.thumbnailId, thumb),
             files := db.files[FileName(env.thumbnailId, "jpg") := jpeg],
             videos := db.videos[env.videoId := video]),
         Ok(env.videoId))
  }

  /** The media table with `id` rewritten and a fresh row `newId` added. */
  function PutTwo(media: map<string, MediaRow>, id: string, row: MediaRow, newId: string, newRow: MediaRow): (r: map<string, MediaRow>)
    requires id in media && newId !in media
    ensures r.Keys == media.Keys + {newId}
    ensures forall k :: k in media && k != id ==> r[k] == media[k]
    ensures r[id] == row && r[newId] == newRow
  {
    media[id := row][newId := newRow]
  }

  /** POST /upload/file/:id/cancel: the media row and its file are deleted. */
  function CancelUpload(db: Db, credentials: Credentials, mediaId: string): (s: Step<()>)
    ensures s.reply.Err? ==> s.db == db
    ensures s.reply.Ok? <==>
      IsAuthenticated(credentials.header, credentials.decode, db.users).Ok? && ProcessingMedia(db.media, mediaId).Ok?
    ensures IsAuthenticated(credentials.header, credentials.decode, db.users).Ok? && s.reply.Err? ==>
      ProcessingMedia(db.media, mediaId).Err? && s.reply.failure == ProcessingMedia(db.media, mediaId).failure
    ensures s.reply.Ok? ==>
      var name := FileName(mediaId, db.media[mediaId].extension);
      && s.db.users == db.users && s.db.tokens == db.tokens && s.db.videos == db.videos
      && s.db.media.Keys == db.media.Keys - {mediaId}
      && (forall k :: k in s.db.media ==> s.db.media[k] == db.media[k])
      && s.db.files.Keys == db.files.Keys - {name}
      && (forall n :: n in s.db.files ==> s.db.files[n] == db.files[n])
  {
    match IsAuthenticated(credentials.header, credentials.decode, db.users)
    case Err(f) => Step(db, Err(f))
    case Ok(_) =>
      match ProcessingMedia(db.media, mediaId)
      case Err(f) => Step(db, Err(f))
      case Ok(m) =>
        Step(db.(media := db.media - {mediaId}, files := db.files - {FileName(mediaId, m.extension)}), Ok(()))
  }

  // ---------------------------------------------------------------------------
  // the state machine

  /** After a completed upload, every further part, complete or cancel on that media id
      fails MEDIA_NOT_PROCESSING/400 and changes nothing. */
  lemma CompleteClosesUpload(db: Db, credentials: Credentials, mediaId: string, body: FileBody,
                             env: CompleteEnv, chunk: seq<byte>, body2: FileBody, env2: CompleteEnv)
    requires env.thumbnailId !in db.media && env.videoId !in db.videos
    requires CompleteUpload(db, credentials, mediaId, body, env).reply.Ok?
    ensures var d := CompleteUpload(db, credentials, mediaId, body, env).db;
      var closed := Fail<()>(MediaNotProcessing, 400, "media not processing");
      && AppendPart(d, credentials, mediaId, chunk) == Step(d, closed)
      && CancelUpload(d, credentials, mediaId) == Step(d, closed)
      && (env2.thumbnailId !in d.media && env2.videoId !in d.videos ==>
            CompleteUpload(d, credentials, mediaId, body2, env2) == Step(d, Fail(MediaNotProcessing, 400, "media not processing")))
  {
  }

  /** After a cancelled upload, every further part, complete or cancel on that media id
      fails MEDIA_NOT_FOUND/404 and changes nothing. */
  lemma CancelForgetsUpload(db: Db, credentials: Credentials, mediaId: string,
                            chunk: seq<byte>, body: FileBody, env: CompleteEnv)
    requires CancelUpload(db, credentials, mediaId).reply.Ok?
    ensures var d := CancelUpload(db, credentials, mediaId).db;
      var gone := Fail<()>(MediaNotFound, 404, "media not found");
      && AppendPart(d, credentials, mediaId, chunk) == Step(d, gone)
      && CancelUpload(d, credentials, mediaId) == Step(d, gone)
      && (env.thumbnailId !in d.media && env.videoId !in d.videos ==>
            CompleteUpload(d, credentials, mediaId, body, env) == Step(d, Fail(MediaNotFound, 404, "media not found")))
  {
  }

  /** When ffmpeg fails, the upload is stranded: no video shows it, and every further
      part, complete or cancel on that media id fails MEDIA_NOT_PROCESSING/400. */
  lemma FailedThumbnailStrandsUpload(db: Db, credentials: Credentials, mediaId: string, body: FileBody,
                                     env: CompleteEnv, chunk: seq<byte>, env2: CompleteEnv)
    requires env.thumbnailId !in db.media && env.videoId !in db.videos
    requires IsAuthenticated(credentials.header, credentials.decode, db.users).Ok?
    requires ProcessingMedia(db.media, mediaId).Ok? && FileName(mediaId, db.media[mediaId].extension) in db.files
    requires env.thumbnail.None?
    ensures var d := CompleteUpload(db, credentials, mediaId, body, env).db;
      var closed := Fail<()>(MediaNotProcessing, 400, "media not processing");
      && CompleteUpload(db, credentials, mediaId, body, env).reply.Err?
      && d.videos == db.videos && d.files == db.files
      && AppendPart(d, credentials, mediaId, chunk) == Step(d, closed)
      && CancelUpload(d, credentials, mediaId) == Step(d, closed)
      && (env2.thumbnailId !in d.media && env2.videoId !in d.videos ==>
            CompleteUpload(d, credentials, mediaId, body, env2) == Step(d, Fail(MediaNotProcessing, 400, "media not processing")))
  {
  }

  /** The chunks glued together in order. */
  function Concat(chunks: seq<seq<byte>>): seq<byte> {
    if |chunks| == 0 then [] else Concat(chunks[..|chunks| - 1]) + chunks[|chunks| - 1]
  }

  /** The database after sending `chunks` as consecutive parts. */
  function AppendParts(db: Db, credentials: Credentials, mediaId: string, chunks: seq<seq<byte>>): Db {
    if |chunks| == 0 then db
    else AppendPart(AppendParts(db, credentials, mediaId, chunks[..|chunks| - 1]), credentials, mediaId, chunks[|chunks| - 1]).db
  }

  /** Parts accumulate: on a freshly created upload, the file holds exactly the parts sent,
      in order, and the media row is still processing. */
  lemma {:induction false} PartsAccumulate(db: Db, credentials: Credentials, body: FileBody, id: string,
                                           chunks: seq<seq<byte>>)
    requires id !in db.media
    requires CreateUpload(db, credentials, body, id).reply.Ok?
    ensures var d := AppendParts(CreateUpload(db, credentials, body, id).db, credentials, id, chunks);
      && d.users == db.users && d.tokens == db.tokens && d.videos == db.videos
      && d.media == CreateUpload(db, credentials, body, id).db.media
      && ProcessingMedia(d.media, id).Ok?
      && FileName(id, body.ext) in d.files && d.files[FileName(id, body.ext)] == Concat(chunks)
    decreases |chunks|
  {
    if |chunks| > 0 {
      PartsAccumulate(db, credentials, body, id, chunks[..|chunks| - 1]);
    }
  }

  /** Every upload still processing whose path is a file in the media directory has that
      file. */
  ghost predicate UploadsHaveFiles(db: Db) {
    forall id :: id in db.media && db.media[id].processing && IsMediaFile(id, db.media[id].extension) ==>
      FileName(id, db.media[id].extension) in db.files
  }

  /** No other upload still processing resolves to the file of `mediaId`. */
  ghost predicate Unshared(db: Db, mediaId: string)
    requires mediaId in db.media
  {
    forall k :: k in db.media && db.media[k].processing && k != mediaId ==>
      FileName(k, db.media[k].extension) != FileName(mediaId, db.media[mediaId].extension)
  }

  /** Minted ids with '/'-free extensions name distinct files. */
  lemma FileNameInjective(a: string, ea: string, b: string, eb: string)
    requires PlainId(a) && PlainId(b) && '/' !in ea && '/' !in eb
    requires FileName(a, ea) == FileName(b, eb)
    ensures a == b
  {
    PlainFileName(a, ea);
    PlainFileName(b, eb);
    var dir := "data/media/";
    assert LocalName(a, ea) == FileName(a, ea)[|dir|..];
    assert LocalName(b, eb) == FileName(b, eb)[|dir|..];
    LocalNameInjective(a, ea, b, eb);
  }

  /** Dot-free ids give distinct local names. */
  lemma LocalNameInjective(a: string, ea: string, b: string, eb: string)
    requires '.' !in a && '.' !in b
    requires LocalName(a, ea) == LocalName(b, eb)
    ensures a == b
    decreases |a| - |b|
  {
    if |a| < |b| {
      LocalNameAt(a, ea, |a|);
      LocalNameAt(b, eb, |a|);
      assert false;
    } else if |b| < |a| {
      LocalNameInjective(b, eb, a, ea);
    } else {
      assert a == LocalName(a, ea)[..|a|] == b;
    }
  }

  /** The characters of a local name: the id, then the dot. */
  lemma LocalNameAt(id: string, ext: string, i: nat)
    requires i <= |id|
    ensures LocalName(id, ext)[i] == if i < |id| then id[i] else '.'
  {
  }

  /** Uploads with minted ids and '/'-free extensions never share a file. */
  lemma PlainUploadsUnshared(db: Db, mediaId: string)
    requires mediaId in db.media && PlainId(mediaId) && '/' !in db.media[mediaId].extension
    requires forall k :: k in db.media && db.media[k].processing ==> PlainId(k) && '/' !in db.media[k].extension
    ensures Unshared(db, mediaId)
  {
    forall k | k in db.media && db.media[k].processing && k != mediaId
      ensures FileName(k, db.media[k].extension) != FileName(mediaId, db.media[mediaId].extension)
    {
      if FileName(k, db.media[k].extension) == FileName(mediaId, db.media[mediaId].extension) {
        FileNameInjective(k, db.media[k].extension, mediaId, db.media[mediaId].extension);
      }
    }
  }

  /** The four upload steps keep every processing upload's file in place, cancelling as
      long as no other upload shares the cancelled file, so `/complete` on a processing
      upload in the media directory fails only when its thumbnail does. */
  lemma UploadsKeepFiles(db: Db, credentials: Credentials, body: FileBody, id: string, mediaId: string,
                         chunk: seq<byte>, env: CompleteEnv)
    requires UploadsHaveFiles(db)
    requires id !in db.media
    requires env.thumbnailId !in db.media && env.videoId !in db.videos
    ensures UploadsHaveFiles(CreateUpload(db, credentials, body, id).db)
    ensures UploadsHaveFiles(AppendPart(db, credentials, mediaId, chunk).db)
    ensures UploadsHaveFiles(CompleteUpload(db, credentials, mediaId, body, env).db)
    ensures mediaId in db.media && Unshared(db, mediaId) ==> UploadsHaveFiles(CancelUpload(db, credentials, mediaId).db)
    ensures && IsAuthenticated(credentials.header, credentials.decode, db.users).Ok? && ProcessingMedia(db.media, mediaId).Ok?
            && IsMediaFile(mediaId, db.media[mediaId].extension) ==>
      (CompleteUpload(db, credentials, mediaId, body, env).reply.Ok? <==> env.thumbnail.Some?)
  {
    CreateKeepsFiles(db, credentials, body, id);
    AppendKeepsFiles(db, credentials, mediaId, chunk);
    CompleteKeepsFiles(db, credentials, mediaId, body, env);
    if mediaId in db.media && Unshared(db, mediaId) {
      CancelKeepsFiles(db, credentials, mediaId);
    }
  }

  lemma CreateKeepsFiles(db: Db, credentials: Credentials, body: FileBody, id: string)
    requires UploadsHaveFiles(db)
    requires id !in db.media
    ensures UploadsHaveFiles(CreateUpload(db, credentials, body, id).db)
  {
  }

  lemma AppendKeepsFiles(db: Db, credentials: Credentials, mediaId: string, chunk: seq<byte>)
    requires UploadsHaveFiles(db)
    ensures UploadsHaveFiles(AppendPart(db, credentials, mediaId, chunk).db)
  {
  }

  lemma CompleteKeepsFiles(db: Db, credentials: Credentials, mediaId: string, body: FileBody, env: CompleteEnv)
    requires UploadsHaveFiles(db)
    requires env.thumbnailId !in db.media && env.videoId !in db.videos
    ensures UploadsHaveFiles(CompleteUpload(db, credentials, mediaId, body, env).db)
    ensures && IsAuthenticated(credentials.header, credentials.decode, db.users).Ok? && ProcessingMedia(db.media, mediaId).Ok?
            && IsMediaFile(mediaId, db.media[mediaId].extension) ==>
      (CompleteUpload(db, credentials, mediaId, body, env).reply.Ok? <==> env.thumbnail.Some?)
  {
  }

  lemma CancelKeepsFiles(db: Db, credentials: Credentials, mediaId: string)
    requires UploadsHaveFiles(db)
    requires mediaId in db.media && Unshared(db, mediaId)
    ensures UploadsHaveFiles(CancelUpload(db, credentials, mediaId).db)
  {
  }

  /** An extension with a '/' strands the upload: the write after the insert throws, so
      the client sees a 500 while a processing row without a file stays, and every part
      sent to it throws as well. */
  lemma SlashExtensionStrandsUpload(db: Db, credentials: Credentials, body: FileBody, id: string,
                                    chunk: seq<byte>, stack: string, nodeEnv: Option<string>)
    requires id !in db.media && PlainId(id)
    requires IsAuthenticated(credentials.header, credentials.decode, db.users).Ok?
    requires body.ext == "x/y"
    ensures var s := CreateUpload(db, credentials, body, id);
      && s.reply.Err? && HandleError(s.reply.failure, None, stack, nodeEnv).status == 500
      && ProcessingMedia(s.db.media, id).Ok? && s.db.files == db.files
      && AppendPart(s.db, credentials, id, chunk).reply.Err?
      && AppendPart(s.db, credentials, id, chunk).db == s.db
  {
    PlainLocalName(id, "x");
    assert LocalName(id, body.ext) == LocalName(id, "x") + "/" + "y";
    Paths.SubdirectoryIsNotMedia(LocalName(id, "x"), "y");
  }

  /** An extension that steps back out of its own name reaches another upload's file:
      creating the upload empties that file, and cancelling it deletes the file while the
      other upload is still processing. */
  lemma DotDotExtensionReachesAnotherUpload(db: Db, credentials: Credentials, body: FileBody, id: string,
                                            other: string)
    requires id !in db.media && PlainId(id) && PlainId(other)
    requires IsAuthenticated(credentials.header, credentials.decode, db.users).Ok?
    requires ProcessingMedia(db.media, other).Ok? && db.media[other].extension == "mp4"
    requires body.ext == "x/../" + other + ".mp4"
    ensures FileName(id, body.ext) == FileName(other, "mp4")
    ensures var c := CreateUpload(db, credentials, body, id);
      && c.reply.Ok? && c.db.files[FileName(other, "mp4")] == []
      && CancelUpload(c.db, credentials, id).reply.Ok?
      && var d := CancelUpload(c.db, credentials, id).db;
         ProcessingMedia(d.media, other).Ok? && FileName(other, "mp4") !in d.files && !UploadsHaveFiles(d)
  {
    StepBackExtension(id, other);
    PlainFileName(other, "mp4");
  }

  /** The extension `x/../<other>.mp4` resolves to the same path as `<other>.mp4`. */
  lemma StepBackExtension(id: string, other: string)
    requires PlainId(id) && PlainId(other)
    ensures Paths.Resolve(LocalName(id, "x/../" + other + ".mp4")) == Paths.Resolve(LocalName(other, "mp4"))
  {
    PlainLocalName(id, "x");
    PlainLocalName(other, "mp4");
    assert LocalName(id, "x/../" + other + ".mp4") == LocalName(id, "x") + "/../" + LocalName(other, "mp4");
    Paths.StepBackAliases(LocalName(id, "x"), LocalName(other, "mp4"));
  }
}

=== FILE: user_converter.dfy ===
/** The public projection of a user row: id, username, the roles split at commas, and the
    creation time. The password hash and TOTP secret have no field to go to. */
module UserConverter {
  import opened Types
  import opened Strings
  import opened Db

  datatype UserView = UserView(id: string, username: string, roles: seq<string>, createdAt: int)

  function Convert(id: string, row: UserRow): (v: UserView)
    ensures v.id == id && v.username == row.username && v.createdAt == row.createdAt
    ensures |v.roles| == Count(row.roles, ',') + 1
    ensures forall i :: 0 <= i < |v.roles| ==> ',' !in v.roles[i]
    ensures Join(v.roles, ',') == row.roles
  {
    JoinSplit(row.roles, ',');
    UserView(id, row.username, Split(row.roles, ','), row.createdAt)
  }

  /** Round trip with registration: roles stored as the comma-join of role names come
      back as exactly those names. */
  lemma ConvertJoinedRoles(id: string, row: UserRow, roles: seq<UserRole>)
    requires |roles| >= 1
    requires row.roles == Join(seq(|roles|, i requires 0 <= i < |roles| => RoleName(roles[i])), ',')
    ensures Convert(id, row).roles == seq(|roles|, i requires 0 <= i < |roles| => RoleName(roles[i]))
    ensures forall i :: 0 <= i < |roles| ==> ParseRole(Convert(id, row).roles[i]) == Some(roles[i])
  {
    SplitJoin(seq(|roles|, i requires 0 <= i < |roles| => RoleName(roles[i])), ',');
  }
}

=== FILE: users.dfy ===
/** The `/users` routes, all behind `isAuthenticated`: the caller's profile, its update,
    and the ADMIN-only listing and deletion of accounts. */
module Users {
  import opened Types
  import opened Strings
  import opened Db
  import opened Failures
  import opened Authentication
  import opened TokenService
  import opened Sorting
  import opened UserConverter
  import AuthRoutes

  /** GET /users/me: the converted caller plus whether a TOTP secret is set. */
  datatype Me = Me(user: UserView, totpEnabled: bool)

  function GetMe(db: Db, credentials: Credentials): (s: Step<Me>)
    ensures s.db == db
    ensures s.reply.Ok? <==> IsAuthenticated(credentials.header, credentials.decode, db.users).Ok?
    ensures s.reply.Ok? ==>
      var p := IsAuthenticated(credentials.header, credentials.decode, db.users).value;
      && s.reply.value.user == Convert(p.id, db.users[p.id])
      && (s.reply.value.totpEnabled <==> db.users[p.id].totpSecret.Some? && db.users[p.id].totpSecret.value != "")
  {
    match IsAuthenticated(credentials.header, credentials.decode, db.users)
    case Err(f) => Step(db, Err(f))
    case Ok(p) => Step(db, Ok(Me(Convert(p.id, p.user), Truthy(p.user.totpSecret))))
  }

  datatype ProfileBody = ProfileBody(username: string, oldPassword: Option<string>, newPassword: Option<string>)

  /** PUT /users/me. Giving only one of the two passwords, or an old password that does
      not match, fails INVALID_CREDENTIALS/401 and changes nothing. Otherwise the username
      is always written, and the password hash (`hash` is bcrypt's `hashSync`) only when
      both passwords are given. The reply is the converted updated row. */
  function UpdateProfile(db: Db, credentials: Credentials, body: ProfileBody, crypto: AuthRoutes.Crypto,
                         hash: string -> string): (s: Step<UserView>)
    ensures s.reply.Err? ==> s.db == db
    ensures IsAuthenticated(credentials.header, credentials.decode, db.users).Ok? ==>
      var p := IsAuthenticated(credentials.header, credentials.decode, db.users).value;
      var both := Truthy(body.oldPassword) && Truthy(body.newPassword);
      && (Truthy(body.oldPassword) != Truthy(body.newPassword) ==> s.reply == Fail(InvalidCredentials, 401, "oldPassword and newPassword must be provided together"))
      && (both && !crypto.passwordMatches(body.oldPassword.value, p.user.passwordHash) ==> s.reply == Fail(InvalidCredentials, 401, "invalid credentials"))
      && (s.reply.Ok? ==>
            && s.db == db.(users := s.db.users)
            && s.db.users.Keys == db.users.Keys
            && (forall id :: id in db.users && id != p.id ==> s.db.users[id] == db.users[id])
            && s.db.users[p.id].username == body.username
            && s.db.users[p.id].passwordHash == (if both then hash(body.newPassword.value) else p.user.passwordHash)
            && s.db.users[p.id] == p.user.(username := s.db.users[p.id].username, passwordHash := s.db.users[p.id].passwordHash)
            && s.reply.value == Convert(p.id, s.db.users[p.id]))
  {
    match IsAuthenticated(credentials.header, credentials.decode, db.users)
    case Err(f) => Step(db, Err(f))
    case Ok(p) => ChangeProfile(db, p, body, crypto, hash)
  }

  /** The part of PUT /users/me after `isAuthenticated` has found the user `p`. */
  function ChangeProfile(db: Db, p: Principal, body: ProfileBody, crypto: AuthRoutes.Crypto,
                         hash: string -> string): (s: Step<UserView>)
    requires p.id in db.users
    ensures s.reply.Err? ==> s.db == db
    ensures Truthy(body.oldPassword) != Truthy(body.newPassword) ==>
      s.reply == Fail(InvalidCredentials, 401, "oldPassword and newPassword must be provided together")
    ensures Truthy(body.oldPassword) && Truthy(body.newPassword)
            && !crypto.passwordMatches(body.oldPassword.value, p.user.passwordHash) ==>
      s.reply == Fail(InvalidCredentials, 401, "invalid credentials")
    ensures s.reply.Ok? ==> s.db == db.(users := s.db.users) && s.db.users.Keys == db.users.Keys
    ensures s.reply.Ok? ==> forall id :: id in db.users && id != p.id ==> s.db.users[id] == db.users[id]
    ensures s.reply.Ok? ==>
      var both := Truthy(body.oldPassword) && Truthy(body.newPassword);
      var row := p.user.(username := body.username,
                         passwordHash := if both then hash(body.newPassword.value) else p.user.passwordHash);
      p.id in s.db.users && s.db.users[p.id] == row && s.reply.value == Convert(p.id, row)
  {
    if Truthy(body.oldPassword) != Truthy(body.newPassword) then
      Step(db, Fail(InvalidCredentials, 401, "oldPassword and newPassword must be provided together"))
    else if Truthy(body.oldPassword) && Truthy(body.newPassword) then
      if !crypto.passwordMatches(body.oldPassword.value, p.user.passwordHash) then
        Step(db, Fail(InvalidCredentials, 401, "invalid credentials"))
      else
        WriteRow(db, p.id, p.user.(username := body.username, passwordHash := hash(body.newPassword.value)))
    else
      WriteRow(db, p.id, p.user.(username := body.username))
  }

  /** The updated row stored under `id`, and sent back converted. */
  function WriteRow(db: Db, id: string, row: UserRow): (s: Step<UserView>)
    requires id in db.users
    ensures s.reply.Ok? && s.reply.value == Convert(id, row)
    ensures s.db == db.(users := s.db.users)
    ensures s.db.users.Keys == db.users.Keys
    ensures forall k :: k in db.users && k != id ==> s.db.users[k] == db.users[k]
    ensures s.db.users[id] == row
  {
    Step(db.(users := db.users[id := row]), Ok(Convert(id, row)))
  }


  /** A successful password change makes the new password, and not the old one, the one
      that logs in, given a bcrypt oracle that matches a password against its own hash
      only. */
  lemma PasswordChangeTakesEffect(db: Db, credentials: Credentials, body: ProfileBody, crypto: AuthRoutes.Crypto,
                                  hash: string -> string)
    requires UpdateProfile(db, credentials, body, crypto, hash).reply.Ok?
    requires Truthy(body.oldPassword) && Truthy(body.newPassword)
    requires forall pw, h :: crypto.passwordMatches(pw, h) <==> h == hash(pw)
    ensures var s := UpdateProfile(db, credentials, body, crypto, hash);
      var p := IsAuthenticated(credentials.header, credentials.decode, db.users).value;
      && crypto.passwordMatches(body.newPassword.value, s.db.users[p.id].passwordHash)
      && (hash(body.oldPassword.value) != hash(body.newPassword.value) ==>
            !crypto.passwordMatches(body.oldPassword.value, s.db.users[p.id].passwordHash))
  {
  }

  function CreatedAt(v: UserView): int { v.createdAt }

  /** GET /users (ADMIN): every user converted, each once, newest first. */
  ghost function ListUsers(db: Db, credentials: Credentials): (s: Step<seq<UserView>>)
    ensures s.db == db
    ensures s.reply.Ok? <==> Authorize(credentials, db.users, OneRole(RoleName(Admin))).Ok?
    ensures s.reply.Ok? ==>
      var r := s.reply.value;
      && |r| == |db.users|
      && SortedDesc(r, CreatedAt)
      && (forall v :: v in r ==> v.id in db.users && v == Convert(v.id, db.users[v.id]))
      && (forall id :: id in db.users ==> exists v :: v in r && v.id == id)
  {
    match Authorize(credentials, db.users, OneRole(RoleName(Admin)))
    case Err(f) => Step(db, Err(f))
    case Ok(_) =>
      var ids := Enumerate(db.users.Keys);
      ConvertedMembers(ids, db.users);
      Step(db, Ok(SortDesc(Views(ids, db.users), CreatedAt)))
  }

  /** The converted row of each of `ids`, in the same order. */
  function Views(ids: seq<string>, users: map<string, UserRow>): (r: seq<UserView>)
    requires forall i :: 0 <= i < |ids| ==> ids[i] in users
    ensures |r| == |ids|
    ensures forall i :: 0 <= i < |ids| ==> r[i] == Convert(ids[i], users[ids[i]])
    ensures forall v :: v in r ==> v.id in ids && v.id in users && v == Convert(v.id, users[v.id])
  {
    if ids == [] then [] else [Convert(ids[0], users[ids[0]])] + Views(ids[1..], users)
  }

  /** Sorting the views of some ids keeps exactly those views. */
  lemma ConvertedMembers(ids: seq<string>, users: map<string, UserRow>)
    requires forall i :: 0 <= i < |ids| ==> ids[i] in users
    ensures var r := SortDesc(Views(ids, users), CreatedAt);
      && |r| == |ids|
      && (forall v :: v in r ==> v.id in users && v == Convert(v.id, users[v.id]))
      && (forall k :: k in ids ==> exists v :: v in r && v.id == k)
  {
    var views := Views(ids, users);
    forall k | k in ids ensures exists v :: v in SortDesc(views, CreatedAt) && v.id == k {
      var i :| 0 <= i < |ids| && ids[i] == k;
      assert views[i] in views;
    }
  }

  /** The videos a user authored. */
  ghost function Uploads(videos: map<string, VideoRow>, userId: string): set<string> {
    set v | v in videos && videos[v].authorId == userId
  }

  /** The media rows of a user's uploads: each upload's video media and its thumbnail,
      if any. */
  ghost function UploadMedia(videos: map<string, VideoRow>, userId: string): (m: set<string>)
    ensures forall v :: v in videos && videos[v].authorId == userId ==> videos[v].mediaId in m
    ensures forall v :: v in videos && videos[v].authorId == userId && videos[v].thumbnailId.Some? ==>
      videos[v].thumbnailId.value in m
  {
    (set v | v in videos && videos[v].authorId == userId :: videos[v].mediaId)
    + (set v | v in videos && videos[v].authorId == userId && videos[v].thumbnailId.Some? :: videos[v].thumbnailId.value)
  }

  /** The files of the given media rows. */
  ghost function MediaFiles(media: map<string, MediaRow>, ids: set<string>): set<string> {
    set m | m in media && m in ids :: FileName(m, media[m].extension)
  }

  /** The deletion cascade of DELETE /users/:userId: the upload media rows and their files,
      the user's sessions, the user's videos, then the user row. */
  ghost function DeleteUserCascade(db: Db, userId: string): (d: Db)
    ensures userId !in d.users && d.users.Keys == db.users.Keys - {userId}
    ensures forall id :: id in d.users ==> d.users[id] == db.users[id]
    ensures forall k :: k in d.tokens ==> d.tokens[k].userId != userId
    ensures forall k :: k in db.tokens && db.tokens[k].userId != userId ==> k in d.tokens && d.tokens[k] == db.tokens[k]
    ensures forall v :: v in d.videos ==> d.videos[v].authorId != userId
    ensures forall v :: v in db.videos && db.videos[v].authorId != userId ==> v in d.videos && d.videos[v] == db.videos[v]
    ensures forall m :: m in UploadMedia(db.videos, userId) ==> m !in d.media
    ensures forall m :: m in db.media && m !in UploadMedia(db.videos, userId) ==> m in d.media && d.media[m] == db.media[m]
    ensures forall f :: f in MediaFiles(db.media, UploadMedia(db.videos, userId)) ==> f !in d.files
    ensures forall f :: f in db.files && f !in MediaFiles(db.media, UploadMedia(db.videos, userId)) ==>
      f in d.files && d.files[f] == db.files[f]
  {
    var doomed := UploadMedia(db.videos, userId);
    var files := MediaFiles(db.media, doomed);
    Db(
      users := map id | id in db.users && id != userId :: db.users[id],
      tokens := DeleteAllByUser(db.tokens, userId),
      media := map m | m in db.media && m !in doomed :: db.media[m],
      videos := map v | v in db.videos && db.videos[v].authorId != userId :: db.videos[v],
      files := map f | f in db.files && f !in files :: db.files[f])
  }

  /** DELETE /users/:userId (ADMIN). An unknown id fails 404 (type UNKNOWN), the caller's
      own id fails INVALID_CREDENTIALS/403, both changing nothing; otherwise the cascade
      runs and the reply is an empty object. */
  ghost function DeleteUser(db: Db, credentials: Credentials, userId: string): (s: Step<()>)
    ensures s.reply.Err? ==> s.db == db
    ensures Authorize(credentials, db.users, OneRole(RoleName(Admin))).Ok? ==>
      var p := Authorize(credentials, db.users, OneRole(RoleName(Admin))).value;
      && (userId !in db.users ==> s.reply == Fail(Unknown, 404, "user not found"))
      && (userId in db.users && userId == p.id ==> s.reply == Fail(InvalidCredentials, 403, "cannot delete yourself"))
      && (userId in db.users && userId != p.id ==> s.reply.Ok? && s.db == DeleteUserCascade(db, userId))
    ensures !Authorize(credentials, db.users, OneRole(RoleName(Admin))).Ok? ==> s.reply.Err? && s.reply.failure.status == 403
  {
    match Authorize(credentials, db.users, OneRole(RoleName(Admin)))
    case Err(f) => Step(db, Err(f))
    case Ok(p) =>
      if userId !in db.users then Step(db, Fail(Unknown, 404, "user not found"))
      else if userId == p.id then Step(db, Fail(InvalidCredentials, 403, "cannot delete yourself"))
      else Step(DeleteUserCascade(db, userId), Ok(()))
  }

  /** After deleting an account, no access token naming it authenticates and no refresh
      cookie finds one of its sessions. */
  lemma DeletedUserIsLockedOut(db: Db, credentials: Credentials, userId: string, later: Credentials, jti: Option<string>)
    requires DeleteUser(db, credentials, userId).reply.Ok?
    ensures var d := DeleteUser(db, credentials, userId).db;
      && (IsAuthenticated(later.header, later.decode, d.users).Ok? ==>
            IsAuthenticated(later.header, later.decode, d.users).value.id != userId)
      && (FindByToken(d.tokens, jti).Some? ==> d.tokens[FindByToken(d.tokens, jti).value].userId != userId)
  {
  }
}

=== FILE: videos.dfy ===
/** The `/videos` routes, all behind `isAuthenticated`: a shuffled page of videos, title
    search, one video, its metadata update and its thumbnail replacement, the last two for
    the author only. Replies carry the video row (or, for lists, the ids); the converter's
    signed media URLs are not modelled. */
module Videos {
  import opened Types
  import opened Strings
  import opened Db
  import opened Failures
  import opened Authentication
  import opened Sorting

  // ---------------------------------------------------------------------------
  // paging

  const DefaultPageSize: nat := 20
  const MaxPageSize: nat := 100

  function Min(a: int, b: int): int { if a <= b then a else b }

  /** `take: Math.min(count ? +count : 20, 100)`. */
  function Take(count: Option<nat>): nat {
    match count
    case None => Min(DefaultPageSize, MaxPageSize)
    case Some(n) => Min(n, MaxPageSize)
  }

  /** `skip: skip ? +skip : 0`. */
  function Skip(skip: Option<nat>): nat {
    skip.GetOr(0)
  }

  /** What `findMany({take, skip})` fetches from the rows in storage order: the `take`
      rows after the first `skip`, fewer at the end of the table. */
  function Page<T>(rows: seq<T>, skip: nat, take: nat): (r: seq<T>)
    ensures |r| == if skip >= |rows| then 0 else Min(take, |rows| - skip)
    ensures forall i :: 0 <= i < |r| ==> r[i] == rows[skip + i]
  {
    if skip >= |rows| then [] else rows[skip..skip + Min(take, |rows| - skip)]
  }

  // ---------------------------------------------------------------------------
  // lodash's shuffle

  /** A source of `baseRandom(lo, hi)`: an integer in `[lo, hi]`. */
  ghost predicate RandomInRange(random: (int, int) -> int) {
    forall lo, hi :: lo <= hi ==> lo <= random(lo, hi) <= hi
  }

  function Swap<T>(a: seq<T>, i: nat, j: nat): (r: seq<T>)
    requires i < |a| && j < |a|
    ensures |r| == |a|
    ensures r[i] == a[j] && r[j] == a[i]
    ensures forall k :: 0 <= k < |a| && k != i && k != j ==> r[k] == a[k]
  {
    a[i := a[j]][j := a[i]]
  }

  lemma SwapPermutes<T>(a: seq<T>, i: nat, j: nat)
    requires i < |a| && j < |a|
    ensures multiset(Swap(a, i, j)) == multiset(a)
  {
  }

  /** Fisher-Yates from `index` on: each position in turn is swapped with a position
      drawn from itself to the end. Positions before `index` are never touched. */
  function ShuffleFrom<T>(a: seq<T>, index: nat, random: (int, int) -> int): (r: seq<T>)
    requires index <= |a|
    requires RandomInRange(random)
    ensures |r| == |a|
    ensures forall k :: 0 <= k < index ==> r[k] == a[k]
    decreases |a| - index
  {
    if index == |a| then a
    else
      var j := random(index, |a| - 1);
      ShuffleFrom(Swap(a, index, j), index + 1, random)
  }

  /** Every step only swaps, so the result is a permutation of the input. */
  lemma {:induction false} ShuffleFromPermutes<T>(a: seq<T>, index: nat, random: (int, int) -> int)
    requires index <= |a|
    requires RandomInRange(random)
    ensures multiset(ShuffleFrom(a, index, random)) == multiset(a)
    decreases |a| - index
  {
    if index < |a| {
      var j := random(index, |a| - 1);
      assert ShuffleFrom(a, index, random) == ShuffleFrom(Swap(a, index, j), index + 1, random);
      SwapPermutes(a, index, j);
      ShuffleFromPermutes(Swap(a, index, j), index + 1, random);
    }
  }

  /** `shuffle(a)`: a permutation of `a`. */
  function Shuffle<T>(a: seq<T>, random: (int, int) -> int): (r: seq<T>)
    requires RandomInRange(random)
    ensures |r| == |a| && multiset(r) == multiset(a)
  {
    ShuffleFromPermutes(a, 0, random);
    ShuffleFrom(a, 0, random)
  }

  /** A source that always draws the lower bound leaves the order alone. */
  lemma {:induction false} ShuffleFromLowest<T>(a: seq<T>, index: nat, random: (int, int) -> int)
    requires index <= |a|
    requires RandomInRange(random)
    requires forall lo, hi :: lo <= hi ==> random(lo, hi) == lo
    ensures ShuffleFrom(a, index, random) == a
    decreases |a| - index
  {
    if index < |a| {
      ShuffleFromStep(a, index, random);
      ShuffleFromLowest(a, index + 1, random);
    }
  }

  /** Drawing `index` itself at step `index` leaves the sequence as it is for the rest. */
  lemma ShuffleFromStep<T>(a: seq<T>, index: nat, random: (int, int) -> int)
    requires index < |a| && RandomInRange(random)
    requires random(index, |a| - 1) == index
    ensures ShuffleFrom(a, index, random) == ShuffleFrom(a, index + 1, random)
  {
    SwapSelf(a, index);
  }

  lemma SwapSelf<T>(a: seq<T>, i: nat)
    requires i < |a|
    ensures Swap(a, i, i) == a
  {
    assert a[i := a[i]] == a;
  }

  lemma ShuffledPageMembers<T>(rows: seq<T>, page: seq<T>, r: seq<T>, skip: nat)
    requires forall i :: 0 <= i < |page| ==> skip + i < |rows| && page[i] == rows[skip + i]
    requires multiset(r) == multiset(page)
    ensures forall x :: x in r ==> x in rows
  {
    PermutationMembers(r, page);
    forall x | x in r ensures x in rows {
      assert x in page;
      var i :| 0 <= i < |page| && page[i] == x;
      assert rows[skip + i] == x;
    }
  }

  /** The listing of `rows`: the fetched page, shuffled. It is a permutation of the page,
      so it has at most 100 entries, exactly 20 when no count is given and enough rows
      follow the skipped ones, and every entry is a row. */
  function ShuffledPage<T>(rows: seq<T>, skip: Option<nat>, count: Option<nat>, random: (int, int) -> int): (r: seq<T>)
    requires RandomInRange(random)
    ensures multiset(r) == multiset(Page(rows, Skip(skip), Take(count)))
    ensures |r| == if Skip(skip) >= |rows| then 0 else Min(Take(count), |rows| - Skip(skip))
    ensures |r| <= MaxPageSize
    ensures count.None? && Skip(skip) + DefaultPageSize <= |rows| ==> |r| == DefaultPageSize
    ensures forall x :: x in r ==> x in rows
  {
    var page := Page(rows, Skip(skip), Take(count));
    var r := Shuffle(page, random);
    ShuffledPageMembers(rows, page, r, Skip(skip));
    r
  }

  /** GET /videos: the shuffled page of the video table in the database's own order (any
      order: `Enumerate`). */
  ghost function ListVideos(db: Db, credentials: Credentials, skip: Option<nat>, count: Option<nat>,
                            random: (int, int) -> int): (s: Step<seq<string>>)
    requires RandomInRange(random)
    ensures s.db == db
    ensures s.reply.Ok? <==> IsAuthenticated(credentials.header, credentials.decode, db.users).Ok?
    ensures s.reply.Ok? ==> s.reply.value == ShuffledPage(Enumerate(db.videos.Keys), skip, count, random)
    ensures s.reply.Ok? ==> |s.reply.value| == (if Skip(skip) >= |db.videos| then 0 else Min(Take(count), |db.videos| - Skip(skip)))
    ensures s.reply.Ok? ==> forall id :: id in s.reply.value ==> id in db.videos
  {
    var a := IsAuthenticated(credentials.header, credentials.decode, db.users);
    if a.Err? then Step(db, Err(a.failure))
    else
      var r := ShuffledPage(Enumerate(db.videos.Keys), skip, count, random);
      ListedPage(db.videos, skip, count, random);
      Step(db, Ok(r))
  }

  /** The listed page has the length of the requested slice of the table and holds only
      its ids. */
  lemma ListedPage(videos: map<string, VideoRow>, skip: Option<nat>, count: Option<nat>, random: (int, int) -> int)
    requires RandomInRange(random)
    ensures var r := ShuffledPage(Enumerate(videos.Keys), skip, count, random);
      && |r| == (if Skip(skip) >= |videos| then 0 else Min(Take(count), |videos| - Skip(skip)))
      && forall id :: id in r ==> id in videos
  {
    var rows := Enumerate(videos.Keys);
    assert |rows| == |videos|;
    var r := ShuffledPage(rows, skip, count, random);
    forall id | id in r ensures id in videos {
      assert id in rows;
    }
  }

  /** The ids of the videos whose title contains `query`. */
  ghost function TitleMatches(videos: map<string, VideoRow>, query: string): set<string> {
    set id | id in videos && Contains(videos[id].title, query)
  }

  /** GET /videos/search: a missing or empty query finds nothing; otherwise every video
      whose title contains the query, each once. */
  ghost function Search(db: Db, credentials: Credentials, query: Option<string>): (s: Step<seq<string>>)
    ensures s.db == db
    ensures s.reply.Ok? <==> IsAuthenticated(credentials.header, credentials.decode, db.users).Ok?
    ensures s.reply.Ok? && !Truthy(query) ==> s.reply.value == []
    ensures s.reply.Ok? && Truthy(query) ==>
      && multiset(s.reply.value) == multiset(TitleMatches(db.videos, query.value))
      && forall id :: id in s.reply.value <==> id in db.videos && Contains(db.videos[id].title, query.value)
  {
    match IsAuthenticated(credentials.header, credentials.decode, db.users)
    case Err(f) => Step(db, Err(f))
    case Ok(_) =>
      if !Truthy(query) then Step(db, Ok([]))
      else Step(db, Ok(Enumerate(TitleMatches(db.videos, query.value))))
  }

  // ---------------------------------------------------------------------------
  // one video

  /** GET /videos/:id: an unknown id sets 404 and throws "video not found". */
  function GetVideo(db: Db, credentials: Credentials, videoId: string): (s: Step<VideoRow>)
    ensures s.db == db
    ensures s.reply.Ok? <==> IsAuthenticated(credentials.header, credentials.decode, db.users).Ok? && videoId in db.videos
    ensures s.reply.Ok? ==> s.reply.value == db.videos[videoId]
    ensures IsAuthenticated(credentials.header, credentials.decode, db.users).Ok? && videoId !in db.videos ==>
      s.reply == Throw(404, "video not found")
  {
    match IsAuthenticated(credentials.header, credentials.decode, db.users)
    case Err(f) => Step(db, Err(f))
    case Ok(_) =>
      if videoId !in db.videos then Step(db, Throw(404, "video not found"))
      else Step(db, Ok(db.videos[videoId]))
  }

  /** The author check shared by update and thumbnail replacement: 404 for an unknown
      video, then 403 "unauthorized" when the caller is not its author. */
  function OwnVideo(videos: map<string, VideoRow>, callerId: string, videoId: string): (r: Reply<VideoRow>)
    ensures r.Ok? <==> videoId in videos && videos[videoId].authorId == callerId
    ensures r.Ok? ==> r.value == videos[videoId]
    ensures videoId !in videos ==> r == Throw(404, "video not found")
    ensures videoId in videos && videos[videoId].authorId != callerId ==> r == Throw(403, "unauthorized")
  {
    if videoId !in videos then Throw(404, "video not found")
    else if videos[videoId].authorId != callerId then Throw(403, "unauthorized")
    else Ok(videos[videoId])
  }

  datatype VideoUpdate = VideoUpdate(title: Option<string>, description: Option<string>, tags: Option<seq<string>>)

  /** A field Prisma is given `undefined` for keeps its value. */
  function Updated(v: VideoRow, body: VideoUpdate): VideoRow {
    v.(title := body.title.GetOr(v.title),
       description := if body.description.Some? then body.description else v.description,
       tags := if body.tags.Some? then Join(NonEmpty(body.tags.value), ',') else v.tags)
  }

  /** PUT /videos/:id: the author may change title, description and tags (empty tags
      dropped, the rest joined untrimmed); fields left out keep their values, nothing else
      changes, and the reply is the video as it was before the update. */
  function UpdateVideo(db: Db, credentials: Credentials, videoId: string, body: VideoUpdate): (s: Step<VideoRow>)
    ensures s.reply.Err? ==> s.db == db
    ensures s.reply.Ok? <==>
      && IsAuthenticated(credentials.header, credentials.decode, db.users).Ok?
      && OwnVideo(db.videos, IsAuthenticated(credentials.header, credentials.decode, db.users).value.id, videoId).Ok?
    ensures s.reply.Ok? ==>
      && s.reply.value == db.videos[videoId]
      && s.db == db.(videos := s.db.videos)
      && s.db.videos.Keys == db.videos.Keys
      && (forall k :: k in db.videos && k != videoId ==> s.db.videos[k] == db.videos[k])
    ensures s.reply.Ok? ==>
      var v := db.videos[videoId];
      var w := s.db.videos[videoId];
      && (body.title.Some? ==> w.title == body.title.value) && (body.title.None? ==> w.title == v.title)
      && (body.description.Some? ==> w.description == body.description) && (body.description.None? ==> w.description == v.description)
      && (body.tags.Some? ==> w.tags == Join(NonEmpty(body.tags.value), ',')) && (body.tags.None? ==> w.tags == v.tags)
      && w.authorId == v.authorId && w.mediaId == v.mediaId && w.sourceUrl == v.sourceUrl && w.thumbnailId == v.thumbnailId
  {
    match IsAuthenticated(credentials.header, credentials.decode, db.users)
    case Err(f) => Step(db, Err(f))
    case Ok(p) =>
      match OwnVideo(db.videos, p.id, videoId)
      case Err(f) => Step(db, Err(f))
      case Ok(v) => Step(db.(videos := db.videos[videoId := Updated(v, body)]), Ok(v))
  }

  /** Updating is idempotent: sending the same update twice leaves what sending it once
      left, and the second reply is the once-updated video. */
  lemma UpdateTwice(db: Db, credentials: Credentials, videoId: string, body: VideoUpdate)
    requires UpdateVideo(db, credentials, videoId, body).reply.Ok?
    ensures var once := UpdateVideo(db, credentials, videoId, body).db;
      var twice := UpdateVideo(once, credentials, videoId, body);
      && twice.db == once
      && twice.reply == Ok(once.videos[videoId])
  {
  }

  /** An update with no field changes nothing. */
  lemma EmptyUpdateChangesNothing(db: Db, credentials: Credentials, videoId: string)
    ensures UpdateVideo(db, credentials, videoId, VideoUpdate(None, None, None)).db == db
  {
    var s := UpdateVideo(db, credentials, videoId, VideoUpdate(None, None, None));
    if s.reply.Ok? {
      assert s.db.videos == db.videos;
    }
  }

  // ---------------------------------------------------------------------------
  // thumbnail replacement

  /** A multipart file: its original name, MIME type and contents. */
  datatype UploadedFile = UploadedFile(originalName: string, mimeType: string, buffer: seq<byte>)

  /** PUT /videos/:id/thumbnail, for the author. With no file nothing changes. With files,
      the first one becomes the thumbnail: the old thumbnail's media row (when it exists)
      is deleted, an IMAGE row `newId` with the extension after the last '.' of the
      original name and the file's MIME type is created with its file, and the video
      points at it; nothing else changes. `newId` is `randomUUID()`, fresh for the media
      table. The reply is the video as it was before. */
  function ReplaceThumbnail(db: Db, credentials: Credentials, videoId: string, files: seq<UploadedFile>,
                            newId: string): (s: Step<VideoRow>)
    requires newId !in db.media
    ensures s.reply.Err? ==> s.db == db
    ensures s.reply.Ok? <==>
      && IsAuthenticated(credentials.header, credentials.decode, db.users).Ok?
      && OwnVideo(db.videos, IsAuthenticated(credentials.header, credentials.decode, db.users).value.id, videoId).Ok?
    ensures s.reply.Ok? ==> s.reply.value == db.videos[videoId]
    ensures s.reply.Ok? && files == [] ==> s.db == db
    ensures s.reply.Ok? && files != [] ==>
      var v := db.videos[videoId];
      var f := files[0];
      var ext := LastPiece(f.originalName, '.');
      && s.db.users == db.users && s.db.tokens == db.tokens
      && s.db.videos == db.videos[videoId := v.(thumbnailId := Some(newId))]
      && s.db.media.Keys == db.media.Keys - (if v.thumbnailId.Some? then {v.thumbnailId.value} else {}) + {newId}
      && (forall k :: k in s.db.media && k != newId ==> s.db.media[k] == db.media[k])
      && s.db.media[newId] == MediaRow(ext, Image, f.mimeType, false, None, None)
      && s.db.files == db.files[FileName(newId, ext) := f.buffer]
  {
    match IsAuthenticated(credentials.header, credentials.decode, db.users)
    case Err(f) => Step(db, Err(f))
    case Ok(p) =>
      match OwnVideo(db.videos, p.id, videoId)
      case Err(f) => Step(db, Err(f))
      case Ok(v) =>
        if files == [] then Step(db, Ok(v)) else SwapThumbnail(db, videoId, v, files[0], newId)
  }

  /** The writes of a replacement: the old thumbnail row goes, the uploaded image is stored
      under `newId`, and the video points at it. */
  function SwapThumbnail(db: Db, videoId: string, v: VideoRow, f: UploadedFile, newId: string): (s: Step<VideoRow>)
    requires videoId in db.videos && db.videos[videoId] == v && newId !in db.media
    ensures s.reply == Ok(v)
    ensures s.db.users == db.users && s.db.tokens == db.tokens
    ensures s.db.videos == db.videos[videoId := v.(thumbnailId := Some(newId))]
    ensures s.db.media.Keys == db.media.Keys - (if v.thumbnailId.Some? then {v.thumbnailId.value} else {}) + {newId}
    ensures forall k :: k in s.db.media && k != newId ==> s.db.media[k] == db.media[k]
    ensures s.db.media[newId] == MediaRow(LastPiece(f.originalName, '.'), Image, f.mimeType, false, None, None)
    ensures s.db.files == db.files[FileName(newId, LastPiece(f.originalName, '.')) := f.buffer]
  {
    var ext := LastPiece(f.originalName, '.');
    var kept := if v.thumbnailId.Some? then db.media - {v.thumbnailId.value} else db.media;
    var image := MediaRow(ext, Image, f.mimeType, false, None, None);
    Step(db.(media := kept[newId := image],
             files := db.files[FileName(newId, ext) := f.buffer],
             videos := db.videos[videoId := v.(thumbnailId := Some(newId))]),
         Ok(v))
  }

  /** After a replacement the video's thumbnail is an image row whose file holds the
      uploaded bytes, and the previous thumbnail row is gone. */
  lemma ReplacedThumbnailIsServed(db: Db, credentials: Credentials, videoId: string, files: seq<UploadedFile>,
                                  newId: string)
    requires newId !in db.media
    requires ReplaceThumbnail(db, credentials, videoId, files, newId).reply.Ok? && files != []
    ensures var d := ReplaceThumbnail(db, credentials, videoId, files, newId).db;
      var t := d.videos[videoId].thumbnailId;
      && t == Some(newId) && t.value in d.media && d.media[t.value].kind == Image
      && FileName(t.value, d.media[t.value].extension) in d.files
      && d.files[FileName(t.value, d.media[t.value].extension)] == files[0].buffer
      && (db.videos[videoId].thumbnailId.Some? && db.videos[videoId].thumbnailId.value != newId ==>
            db.videos[videoId].thumbnailId.value !in d.media)
  {
  }
}
